=== FILE: README.md ===
# titiler-image: the IIIF Image API 3.0 request interpreter

titiler-image serves images through the IIIF Image API 3.0. An image
request `{identifier}/{region}/{size}/{rotation}/{quality}.{format}` is
read in a fixed order:

1. The region becomes a crop window on the source image.
2. The size becomes an output width and height, measured against that
   window and clamped by the server limits `max_width`, `max_height` and
   `max_area`.
3. The rotation becomes an angle plus a mirror flag.
4. The pixels that were read are mirrored and rotated, then reduced to
   gray or bitonal when the quality asks for it.

An information request negotiates JSON or JSON-LD from the `Accept`
header and answers with the `info.json` document.

This project models that interpreter in Dafny:

| module | what it models |
|---|---|
| `Outcome` | The shared types: Python's `None`, the errors, and their HTTP status. |
| `Text` | The string operations the handlers use: `startswith`, `split`, `join`, `replace`, `strip`. |
| `Numbers` | `int()`, `float()`, Python's `round` (half to even), `math.ceil` and truncation. |
| `Settings` | The `IIIFSettings` limits and the CORS origin list. |
| `Clamp` | `_get_sizes`. |
| `Region`, `Size`, `Rotation` | The three path segments. |
| `Raster` | Pixel grids, the `rotate` wrapper, `image_to_grayscale` and `image_to_bitonal`. |
| `Negotiation` | `accept_media_type`. |
| `Models` | The `iiifInfo`, `IIIFSize` and `IIIFTile` records, and their JSON dump read back. |
| `Endpoint` | The two handlers put together. |
| `Scenarios` | Worked requests against a 1000 × 695 image under `max_width = 2000`. |

Failures are values of `Outcome.Result`, and three kinds are kept apart:

- A `400` is one of `InvalidRegion`, `InvalidSize`, `InvalidRotation` or
  `UnsupportedBandCount`.
- An uncaught `ValueError` becomes a `500`. Its sources are a bad numeric
  literal, the wrong number of comma-separated values, or a malformed
  `Accept` parameter.
- A validation failure. A response model's failure is raised while a
  request is answered and becomes a `500`. The settings failure
  `MaxHeightWithoutMaxWidth` is raised when the settings are built at
  import (titiler/image/settings.py:61), so the server never starts.

Several behaviours are modelled as the code has them, and no contract
promises otherwise:

- `^,h` falls through every `^` branch and keeps the region's size.
  - `Size.CaretHeightFallsThrough` and `Size.CaretHeightIgnored` state
    this.
  - The inner test at titiler/image/factory.py:699 looks at the token
    before the `^` is removed.
  - The repository's test file expects `^,1042` to upscale to 1499 × 1042
    and `^,0` to be refused (tests/test_iiif.py:256-262 and 320-321); the
    code does neither.
- `^!w,h` always ends in `ValueError`.
  - `Size.CaretBangNeverParses` and `Size.UpConfinedUnreadable` state
    this.
  - titiler/image/factory.py:661 removes the pair `"!^"`, which never
    occurs, so `int()` sees the `^!`.
  - The repository's test file expects `^!1500,800` to give 1500 × 1042
    (tests/test_iiif.py:296-306).
- `!w,h`, `^w,`, `w,` and `,h` derive the other side with `math.ceil`.
  - `!750,800` on 1000 × 695 therefore asks for 750 × 522.
  - `Scenarios.ConfinedSize` states this.
  - The repository's test file expects 521 for this request
    (tests/test_iiif.py:285-290). That figure matches rounding, not the
    code.
- `!w,h` on a landscape region keeps w even when the derived height
  passes h. `Scenarios.ConfinedPastHeight` states this, and Findings
  gives the corrected reading.
- `!` anywhere in a rotation token is dropped, so `9!0` is 90 degrees.
  Only a leading `!` mirrors.
- Absolute regions may have negative offsets. Only the far edges are
  clipped.

## Model

| member | source | states |
|---|---|---|
| Outcome.Status | titiler/image/factory.py:582-595 | Region, size, rotation and band-count errors answer 400. Every other request-time failure, namely an uncaught `ValueError` or a failed response-model validation, answers 500. A settings failure is raised when the settings are built at import (titiler/image/settings.py:61), so the server never starts. |
| Numbers.ParseInt | titiler/image/factory.py:767-770 | `int()` accepts exactly an optional sign followed by decimal digits. The sign decides the sign of the value. |
| Numbers.ParseIntRoundTrip | titiler/image/factory.py:732-741 | Every integer's decimal text reads back as that integer. |
| Numbers.ParseFloat | titiler/image/factory.py:574 | `float()` accepts only text that starts with a sign, a digit or a point. A leading `-` gives a value at most 0; any other start gives at least 0. |
| Numbers.FloatAcceptsInt | titiler/image/factory.py:781 | Whatever `int()` accepts, `float()` accepts with the same value. |
| Numbers.ParseFloatRoundTrip | titiler/image/factory.py:550 | An integer's decimal text reads back through `float()` as that number. |
| Numbers.ParseIntRejectsHead | titiler/image/factory.py:660-661 | Text that starts with anything but a digit or a sign, such as the `^` left by the `^!` branch, is not an integer. |
| Numbers.DigitsOfNat | titiler/image/factory.py:767-770 | Reading the digits of a natural number's decimal text gives the number back. |
| Numbers.Round | titiler/image/factory.py:557-560 | Python's `round`: the result is within one half of the input, and an exact half goes to the even neighbour. |
| Numbers.Ceil | titiler/image/factory.py:679 | `math.ceil`: the least integer not below the input. |
| Numbers.Trunc | titiler/image/factory.py:767-770 | `int()` of a float drops the fraction toward zero, for both signs. |
| Numbers.IntegralFixed | titiler/image/factory.py:557-560 | Rounding, ceiling and truncation leave an integer unchanged. |
| Numbers.RoundBelowInt | titiler/image/factory.py:638-639 | Rounding never passes an integer bound the input respects. |
| Numbers.CeilBelowInt | titiler/image/factory.py:679 | The ceiling never passes an integer bound the input respects. |
| Settings.CheckMax | titiler/image/settings.py:47-58 | `max_height` without `max_width` is refused. `max_width` alone sets `max_height` to the same value. With neither or both given, nothing changes, and `max_area` is always kept. |
| Settings.CheckMaxCouplesLimits | titiler/image/settings.py:51-56 | After validation, a height limit never comes without a width limit. |
| Settings.ParseCorsOrigins | titiler/image/settings.py:23-26 | One origin per comma-separated piece, in order. Each origin is its piece with white space, and only white space, cut from both ends, and neither starts nor ends with white space. No origin holds a comma. |
| Settings.CorsOriginsRoundTrip | titiler/image/settings.py:23-26 | Without white space, joining the parsed origins with commas gives the setting back. |
| Settings.DefaultCorsIsWildcard | titiler/image/settings.py:13 | The default `*` becomes the single origin `*`. |
| Clamp.GetSizes | titiler/image/utils.py:17-43 | The limits act only as a ceiling. Unset or unreached limits return the size unchanged, and a positive size never grows. Under a width limit, the result fits the width limit and the effective height limit. An exceeded area is brought back under `max_area`. |
| Clamp.AreaTakesPrecedence | titiler/image/utils.py:26-31 | Once the area limit is exceeded, the width and height limits play no part in the result. |
| Clamp.AreaScalingBounds | titiler/image/utils.py:26-29 | Scaling both sides by `max_area / (w*h)` and truncating gives sides no larger than before, whose product is within the area. |
| Clamp.AreaAfterRatio | titiler/image/utils.py:27-29 | Both sides scaled by the area ratio multiply to less than `max_area`. |
| Clamp.WidthHeightScaling | titiler/image/utils.py:31-41 | After the width and then the height limit, both limits hold. A size already inside them is kept, and neither side grows. |
| Clamp.WidthScalingBounds | titiler/image/utils.py:35-37 | A height rescaled for the width limit does not grow. |
| Clamp.HeightScalingBounds | titiler/image/utils.py:39-41 | If the height still exceeds its limit, rescaling the width for it keeps the width within the width limit and within the original width. |
| Clamp.TruncScaleShrinks | titiler/image/utils.py:28-29 | Scaling by a factor below one and truncating makes a positive side smaller, and never exceeds the exact product. |
| Region.ParseRegion | titiler/image/factory.py:527-595 | `full` is the whole image. `square` is a square of the shorter side, centred with offsets `(width - side) // 2` and `(height - side) // 2`. Every accepted window has positive sides and ends inside the image. A `ValueError` comes only from the `pct:` and four-value forms. Any other token is refused with 400. |
| Region.SquareWindow | titiler/image/factory.py:534-542 | The square is as wide as it is tall, has the shorter side's length, and lies inside the image. Its offsets are whole numbers, and on each axis the margin after it is the margin before it or one more. |
| Region.ClipFarEdge | titiler/image/factory.py:563-564 | A side running past the image's far edge is cut to end there. A side that fits is kept. |
| Region.PctRegion | titiler/image/factory.py:544-566 | A percentage outside 0..100 is refused with 400. Otherwise the window is the rounded percentages of the image, clipped at the far edges. |
| Region.ParseFloats | titiler/image/factory.py:550 | `map(float, …)` succeeds iff every piece is a number, giving one value per piece in order. |
| Region.AbsoluteWindow | titiler/image/factory.py:568-580 | Four comma-separated numbers give the window at that offset, with its far edges clipped to the image. |
| Region.AbsoluteInsideUnchanged | titiler/image/factory.py:574-580 | A positive window that fits inside the image is returned exactly as asked. |
| Region.AbsoluteClippedToImage | titiler/image/factory.py:577-595 | A window that starts inside the image but overruns both far edges is cut to end at them. |
| Size.Classify | titiler/image/factory.py:601-751 | A token is read as upscaling iff it starts with `^`. A token with no comma that is not `max`, `^max`, `pct:` or `^pct:` is refused with 400. The only other failure is `ValueError`. |
| Size.ParseIntPair | titiler/image/factory.py:732-733 | Two comma-separated integers are read iff there is exactly one comma and both pieces are integer literals. |
| Size.ClassifyRender | titiler/image/factory.py:604-741 | Every size form the server can read is read back from its own token. |
| Size.ReadConfined | titiler/image/factory.py:670-675 | `!w,h` is read as the confined form with those bounds. |
| Size.ReadUpExact | titiler/image/factory.py:690-708 | `^w,h` is read as the upscaling exact size. |
| Size.ReadUpWidth | titiler/image/factory.py:690-698 | `^w,` is read as the upscaling width. |
| Size.ReadWidth | titiler/image/factory.py:710-719 | `w,` is read as the width form. |
| Size.ReadHeight | titiler/image/factory.py:721-730 | `,h` is read as the height form. |
| Size.ReadExact | titiler/image/factory.py:732-741 | `w,h` is read as the exact size. |
| Size.ReadPct | titiler/image/factory.py:628-630 | `pct:n` is read as n percent. |
| Size.ReadUpPct | titiler/image/factory.py:641-643 | `^pct:n` is read as an upscaling n percent. |
| Size.UpConfinedUnreadable | titiler/image/factory.py:657-662 | No `^!w,h` token is ever read: it always ends in `ValueError`. |
| Size.CaretBangNeverParses | titiler/image/factory.py:657-662 | Any token that starts with `^!` and holds a comma ends in `ValueError`. |
| Size.CaretHeightFallsThrough | titiler/image/factory.py:690-708 | `^,h` reaches no `^` branch and leaves the size unchanged, whatever h is. |
| Size.CaretHeightIgnored | titiler/image/factory.py:699-708 | Serving `^,h` gives the region's own size, after the limits. |
| Size.Evaluate | titiler/image/factory.py:604-741 | Per form: `max` and the `^,h` fall-through keep the region's size; `pct` needs 0 < n ≤ 100 and `^pct` needs n > 0, both giving the rounded percentage of each side; `w,`, `,h` and `w,h` fail iff they exceed the region, and `w,` and `,h` derive the other side by the aspect ratio; `^w,` and `^!w,h` always succeed; `^w,h` is exact; `^max` is the `^max` arithmetic; `!w,h` is the confined size, refused iff it exceeds the region. |
| Size.HeightFor | titiler/image/factory.py:717-718 | The derived height is the least integer not below width × (region height / region width). |
| Size.WidthFor | titiler/image/factory.py:728-730 | The derived width is the least integer not below height × (region width / region height). |
| Size.ConfinedSize | titiler/image/factory.py:677-682 | A landscape region keeps w and derives the height. Any other region keeps h and derives the width. |
| Size.PctSide | titiler/image/factory.py:638-639 | A percentage side is the rounded `side / 100 * n`. |
| Size.UpMaxSize | titiler/image/factory.py:610-626 | `^max` raises the longer side to its limit when that is larger, and derives the other side by the aspect ratio. Neither side drops below the region's size. |
| Size.GrowKeepsRatio | titiler/image/factory.py:613-619 | Growing the longer side never shrinks the derived side. |
| Size.RatioAboveOne | titiler/image/factory.py:602-613 | The aspect ratio is above one exactly when the region is wider than it is tall. |
| Size.Limited | titiler/image/factory.py:753-765 | The clamped size is refused unless both sides exceed 1. It is never larger than asked, and it fits `max_area` when that is set. |
| Size.ParseSize | titiler/image/factory.py:601-765 | An unreadable token fails with its reading's error, and a form refused against the region fails with 400. An accepted size has both sides above 1, is no larger than the form asked for, and fits `max_area`. |
| Size.AreaRespected | titiler/image/factory.py:753-759 | The clamp keeps the output within `max_area` whenever that limit is set. |
| Size.EvaluateWithinRegion | titiler/image/factory.py:628-741 | On a region with whole-pixel sides, no form without `^` asks for more pixels than the region holds. |
| Size.NoUpscaleWithoutCaret | titiler/image/factory.py:601-765 | On a region with whole-pixel sides, a size token without a leading `^` never gives an output larger than the region. |
| Size.ConfinedFit | titiler/image/factory.py:670-682 | Corrected `!w,h`: the side whose bound is tighter for the aspect ratio is kept and the other is derived by the ceiling, so the result is within w and within h. |
| Size.QuotientBelow | titiler/image/factory.py:677-682 | A product bounded by b × d, divided by the positive d, is at most b. |
| Size.EvaluateCorrected | titiler/image/factory.py:670-688 | Corrected evaluation: `!w,h` is the fitted size, within w and h, refused iff it exceeds the region. Every other form is evaluated as written. |
| Size.ParseSizeCorrected | titiler/image/factory.py:601-765 | Corrected size reading: no token without `^` gives more than the region on any region, whole-pixel or not, and `!w,h` stays within w and h. Sides stay above 1 and within `max_area`. |
| Size.CorrectedAgreesOnWholePixels | titiler/image/factory.py:601-765 | On a whole-pixel region the correction changes nothing except `!w,h`. |
| Size.DerivedSideWithin | titiler/image/factory.py:684-688 | A ceiling-derived side stays within the region when the given side does. |
| Size.ProportionalBelow | titiler/image/factory.py:717-730 | A side scaled by the ratio of a smaller length does not grow. |
| Size.PctBelow | titiler/image/factory.py:628-639 | At most 100 percent of a whole-pixel side, rounded, stays within that side. |
| Size.PctScaledBelow | titiler/image/factory.py:632-639 | At most 100 percent of a side is at most the side. |
| Size.ReadSize | titiler/image/factory.py:767-770 | The pixels read are the sides truncated to whole numbers, each at least 1. |
| Rotation.ParseRotation | titiler/image/factory.py:780-791 | The angle is the token without any `!`, and must be a number in 0..360 or the request gets 400. Mirroring is on iff the token starts with `!`. |
| Rotation.ParseRender | titiler/image/factory.py:780-791 | Any whole angle up to 360, mirrored or not, is read back from its token. |
| Rotation.BeyondFullTurnRefused | titiler/image/factory.py:782-789 | An angle above 360, such as `!900`, is refused with 400. |
| Rotation.InnerBangIgnored | titiler/image/factory.py:781 | A `!` that is not at the start is dropped and does not mirror: `9!0` is 90 degrees. |
| Raster.Mirror | titiler/image/utils.py:64-66 | Every band and the mask are read right to left. Sizes and band names are kept. |
| Raster.MirrorInvolution | titiler/image/utils.py:64-66 | Mirroring twice gives the image back. |
| Raster.Rotate | titiler/image/utils.py:46-128 | Angle 0 without mirroring returns the image unchanged; with mirroring it returns the mirror image. Otherwise every sample and mask value is the warp's value for the mirrored image when mirroring is asked for, and for the image as read when it is not. The band count and names are kept. Without expansion the size is kept; with expansion the canvas has the warp's expanded size. |
| Raster.MirrorRotateTwice | titiler/image/utils.py:64-68 | Mirroring with no rotation, applied twice, gives the image back. |
| Raster.MirrorThenRotate | titiler/image/utils.py:64-68 | Rotating with mirroring is rotating the mirror image without it. |
| Raster.Luma | titiler/image/utils.py:137-143 | The intended gray value, the ITU-R 601-2 luma the function's docstring names: the whole part of 0.299 R + 0.587 G + 0.114 B. It is the corrected half of a finding. |
| Raster.LumaNeutral | titiler/image/utils.py:137-143 | Under the intended luma, a neutral gray keeps its value. |
| Raster.LumaMonotone | titiler/image/utils.py:137-143 | Under the intended luma, brighter channels never give a darker gray. |
| Raster.LumaAsWritten | titiler/image/utils.py:137-143 | The luma as the code computes it on `uint8` bands: each weighted product keeps only the low bits of its NumPy type. The result is at most 131, and it equals the intended luma whenever no product wraps. |
| Raster.Wrap | titiler/image/utils.py:137-141 | Fixed-width unsigned arithmetic: the remainder of x modulo m, equal to x when x fits. |
| Raster.WhiteWraps | titiler/image/utils.py:137-143 | As written, white (255, 255, 255) gives 29 where the intended luma gives 255. |
| Raster.MidGrayWraps | titiler/image/utils.py:137-143 | As written, gray 128 gives 47 where the intended luma keeps 128. |
| Raster.BrighterRedDarker | titiler/image/utils.py:137-141 | As written, raising red from 219 to 220 drops the gray value from 65 to 0. |
| Raster.Grayscale | titiler/image/utils.py:131-158 | One band is returned as it is. Three bands become one band `b1` of intended luma values under the same mask. Any other band count is refused with 400. |
| Raster.GrayscaleIdempotent | titiler/image/utils.py:133-134 | Converting to gray twice is converting once. |
| Raster.Threshold | titiler/image/utils.py:167 | A sample becomes 255 iff it is above 127, and 0 otherwise. |
| Raster.Bitonal | titiler/image/utils.py:161-176 | The result succeeds iff the gray conversion does. It is one band `b1` of 0s and 255s, where 255 marks a gray value above 127 under the intended luma, and nothing in it is masked. As written, white grays to 29 (`Raster.WhiteWraps`) and so comes out black. |
| Raster.BitonalIdempotent | titiler/image/utils.py:161-176 | A bitonal image is its own bitonal conversion. |
| Negotiation.ParseEntry | titiler/image/utils.py:189-204 | An entry fails with `ValueError` iff one of its parameters lacks exactly one `=`. An entry with no parameters has quality 1. With parameters, the quality is the one the last `q` gives, and the entry is dropped iff that is 0. A kept entry is named by its first piece. |
| Negotiation.QualityOf | titiler/image/utils.py:196-200 | A missing or empty `q` counts as 1, and an unreadable `q` as 0. |
| Negotiation.LastQ | titiler/image/utils.py:195-197 | The `q` value is found iff some parameter is named `q`. It is the value of a `q` parameter that no later parameter overrides. |
| Negotiation.LastQKept | titiler/image/utils.py:195-197 | A trailing parameter not named `q` leaves the last `q` value where it was. |
| Negotiation.Collect | titiler/image/utils.py:187-204 | The header parses iff every entry does. Only non-zero qualities are kept, one per media type. |
| Negotiation.ParseAccept | titiler/image/utils.py:187-204 | The same for a whole header after spaces are removed and the header is split on commas. |
| Negotiation.BestQuality | titiler/image/utils.py:206-216 | The highest quality among the offered types the header names, or none when it names none of them. |
| Negotiation.FirstWith | titiler/image/utils.py:213-216 | The first offered type that carries a given quality. |
| Negotiation.Select | titiler/image/utils.py:206-223 | The choice is an offered type. When any offered type is accepted, the choice is the preferred one: the highest quality, with ties broken by the server's order. Otherwise `*` gives the first offered type and anything else gives none. |
| Negotiation.PreferredUnique | titiler/image/utils.py:206-216 | At most one offered type is preferred. |
| Negotiation.SelectPreferred | titiler/image/utils.py:206-216 | The preferred offered type is the one chosen. |
| Negotiation.Negotiate | titiler/image/utils.py:179-223 | The answer is an offered type or none. A malformed parameter is a `ValueError`. |
| Negotiation.AcceptMediaType | titiler/image/utils.py:179-223 | Scanning the quality levels from the highest down, and the offered types in order, gives exactly the negotiated choice. |
| Negotiation.ScanLevel | titiler/image/utils.py:213-216 | The scan stops at the first offered type that carries the level, or runs past the end when none does. |
| Negotiation.FoundIsPreferred | titiler/image/utils.py:206-216 | The first offered type at the highest level is the preferred one. |
| Negotiation.SpacesIgnored | titiler/image/utils.py:188 | Spaces in the header never change the answer. |
| Negotiation.SingleTypeHeader | titiler/image/utils.py:188-204 | A header naming one type gives that type quality 1. |
| Negotiation.SingleTypeChosen | titiler/image/utils.py:179-216 | A header naming one offered type selects it. |
| Negotiation.EmptyQualityIsOne | titiler/image/utils.py:197-198 | `type;q=` has quality 1. |
| Negotiation.ZeroQualityDropped | titiler/image/utils.py:202-204 | `type;q=0` is ignored. |
| Negotiation.UnreadableQualityDropped | titiler/image/utils.py:199-204 | `type;q=x` is ignored. |
| Negotiation.EntryWithQ | titiler/image/utils.py:194-204 | `type;q=t` is kept with the quality t gives, and is dropped when that quality is zero. |
| Negotiation.Levels | titiler/image/utils.py:207-210 | Every quality the header holds is among the levels scanned. |
| Negotiation.Largest | titiler/image/utils.py:209 | The level scanned first is one of the qualities present, and no quality exceeds it. |
| Negotiation.Without | titiler/image/utils.py:209 | Removing a level keeps every other level and shortens the list. |
| Models.NewInfo | titiler/image/models.py:49-107 | The document carries the given id, width and height. Its profile is `level2`, its limits are the configured settings, and its preferred formats are the fixed list. Every other optional field is absent. |
| Models.LimitOf | titiler/image/models.py:78-82 | An advertised limit is present iff it is configured, with the same value. |
| Models.ProfileName | titiler/image/models.py:72 | A profile name is `level` followed by one character, the compliance level. |
| Models.ProfileRoundTrip | titiler/image/models.py:72 | Every profile name reads back as its level. |
| Models.ValidateTile | titiler/image/models.py:26-46 | A truthy height is replaced by the width. A falsy height is kept. Width and scale factors are required, and a truthy height without a width is a `KeyError`. |
| Models.ValidateTileFixedPoint | titiler/image/models.py:40-46 | Validating a tile returns it unchanged iff its height is absent, zero, or equal to its width. |
| Models.FieldValue | titiler/image/models.py:49-107 | Only the model's fields have values, and none is `null`. The required fields always have one. The context field appears under `@context` by alias, or `context` otherwise, with the fixed context URI. |
| Models.Dump | titiler/image/models.py:58-61 | The dump holds the context under the key its alias setting selects, and never under the other key. |
| Models.DumpFields | titiler/image/models.py:49-107 | A field is in the dump iff it has a value, or it is optional and `None` fields are kept. A present field holds its value, and under `exclude_none` nothing is `null`. |
| Models.ReadInfo | titiler/image/models.py:49-107 | A document reads as info only if its `@context` is the Image API context. |
| Models.InfoRoundTrip | titiler/image/models.py:49-107 | The aliased dump of any info document, with or without `None` fields, reads back as that document. |
| Models.FixedHold | titiler/image/models.py:58-76 | The aliased dump carries the fixed `@context`, `type` and `protocol`, along with the id, profile, width and height. |
| Models.SizeRoundTrip | titiler/image/models.py:12-23 | A size entry reads back from its JSON, whose type tag is `Size`. |
| Models.TileRoundTrip | titiler/image/models.py:26-46 | A validated tile reads back from its JSON, whose type tag is `Tile`. |
| Models.SizesRoundTrip | titiler/image/models.py:87 | A list of sizes reads back in order. |
| Models.TilesRoundTrip | titiler/image/models.py:90 | A list of validated tiles reads back in order. |
| Endpoint.PlanRequest | titiler/image/factory.py:527-791 | Region, size and rotation are read in that order, and the first failure is reported: a bad size before a bad rotation. The plan's window is the region segment's, and its pixel size is the size segment's result for that window truncated to whole pixels. An accepted plan has an acceptable window, at least one pixel per side, pixels within `max_area`, and an angle in 0..360. |
| Endpoint.PlanWithinWindow | titiler/image/factory.py:601-770 | A size without `^` on a whole-pixel window plans no more pixels than the window holds. |
| Endpoint.AreaOfPixels | titiler/image/factory.py:767-770 | Truncating the output size to whole pixels keeps it within `max_area`. |
| Endpoint.Process | titiler/image/factory.py:791-805 | `default` and `color` keep the band count. `gray` and `bitonal` succeed iff there are 1 or 3 bands, and give one band, of 0s and 255s for bitonal. The result is well formed. Angle 0 unmirrored with `default` or `color` leaves the image as read, and a rotation samples the mirrored image when the token asks for mirroring. |
| Endpoint.InfoResponseAsWritten | titiler/image/factory.py:439-466 | The response fails iff negotiation does. It has the JSON-LD media type iff JSON-LD was chosen, and then its body has no `@context` and does not read as info. |
| Endpoint.InfoResponse | titiler/image/factory.py:425-466 | A malformed `Accept` is a 500. JSON-LD is served iff it was chosen, and otherwise plain JSON. Either way the body reads back as the image's info. |
| Endpoint.LdInfoLacksContext | titiler/image/factory.py:460-464 | As written, the JSON-LD variant carries `context`, not `@context`. |
| Endpoint.JsonVariantUnchanged | titiler/image/factory.py:466 | The correction leaves the plain JSON response as it was. |
| Scenarios.LimitsValidated | titiler/image/settings.py:47-58 | `max_width = 2000` alone validates to a width and height limit of 2000. |
| Scenarios.FullMax | tests/test_iiif.py:59-67 | `full/max/0` on 1000 × 695 plans the whole image at 1000 × 695. |
| Scenarios.OversizedRegion | tests/test_iiif.py:84-91 | `0,0,1005,700` on 1000 × 695 is the whole image. |
| Scenarios.FullUpMax | tests/test_iiif.py:181-187 | `full/^max/0` under a 2000 limit plans 2000 × 1390. |
| Scenarios.HalfSize | tests/test_iiif.py:189-195 | `pct:50` of 1000 × 695 is 500 × 348, since half of 695 is 347.5 and rounds to the even 348. |
| Scenarios.FullHalf | tests/test_iiif.py:189-195 | `full/pct:50/0` plans 500 × 348. |
| Scenarios.ConfinedSize | titiler/image/factory.py:670-682 | `!750,800` of 1000 × 695 keeps the width 750 and takes the ceiling 522 of 521.25 as the height. |
| Scenarios.FullConfined | titiler/image/factory.py:670-688 | `full/!750,800/0` plans 750 × 522. |
| Scenarios.ConfinedPastHeight | titiler/image/factory.py:670-688 | As written, `!100,10` of 1000 × 695 gives 100 × 70, seven times the height bound. |
| Scenarios.FullConfinedPastHeight | titiler/image/factory.py:670-791 | As written, `full/!100,10/0` plans a 100 × 70 read. |
| Scenarios.ConfinedFitted | titiler/image/factory.py:670-688 | Corrected, `!100,10` of 1000 × 695 gives 15 × 10. |
| Scenarios.FractionalRegionUpscaled | titiler/image/factory.py:628-639 | As written, `pct:100` of a 10.6-pixel square region gives 11 × 11. |
| Scenarios.FractionalRegionRefused | titiler/image/factory.py:628-639 | Corrected, the same request is refused with 400. |
| Scenarios.LdRequested | tests/test_iiif.py:37-44 | `Accept: application/ld+json` selects JSON-LD for the information request. |
| Scenarios.LdResponseAsWritten | titiler/image/factory.py:460-464 | The JSON-LD answer for the 1000 × 695 image has the JSON-LD media type, but lacks `@context` and does not read as info. |
| Scenarios.LdResponseCorrected | titiler/image/factory.py:460-466 | After the correction, the same request reads back as the image's info. |
| Text.JoinSplit | titiler/image/settings.py:26 | Joining the pieces of a split with the separator gives the text back. |
| Text.SplitJoin | titiler/image/factory.py:568-574 | Splitting a join of separator-free pieces gives the pieces back. |
| Text.Split | titiler/image/factory.py:568 | `str.split`: one piece per separator plus one. No piece holds the separator, and every character comes from the text. |
| Text.SplitTwo | titiler/image/utils.py:189-195 | Two pieces without the separator, joined by it, split back into exactly those two pieces. |
| Text.Remove | titiler/image/factory.py:781 | `replace(c, "")` removes every `c` and keeps every other character, shortening the text by the number of `c`s. |
| Text.Strip | titiler/image/settings.py:26 | `str.strip` returns a stretch of the text that only white space surrounds, and the stretch neither starts nor ends with white space. It changes nothing when there is no white space at either end. |
| Text.StripUnique | titiler/image/settings.py:26 | Any stretch of the text surrounded only by white space, and neither starting nor ending with it, is the stripped text. |
| Text.StripLeft | titiler/image/settings.py:26 | The result is a suffix of the text, everything cut off is white space, and it does not start with white space. |
| Text.StripRight | titiler/image/settings.py:26 | The result is a prefix of the text, everything cut off is white space, and it does not end with white space. |
| Text.TrimmedAlike | titiler/image/settings.py:26 | Two stretches surrounded by white space, neither starting nor ending with it, are equal. |
| Text.StripAt | titiler/image/settings.py:26 | Stripping the left, then the right, leaves a stretch surrounded by white space. |

## Left out

- Reading the source image, rendering, `rescale`, `color_formula` and colormaps are calls into rio-tiler. The model takes the pixels as read and stops at the quality step.
- The affine construction and the `reproject` resampling of `rotate` (titiler/image/utils.py:74-118) are floating-point trigonometry and GDAL calls. A `Raster.Warp` parameter supplies the expanded canvas size, the samples and the mask.
- Raster.Rotate: does not state the zeroed canvas or the all-masked start of the mask (titiler/image/utils.py:98, 109) separately, because the warp parameter decides every pixel of the canvas.
- Outcome.Status: also gives 500 for `MaxHeightWithoutMaxWidth`, but that error is raised at import (titiler/image/settings.py:61), which stops the server from starting, so no request receives that status.
- Raster.Grayscale: computes the intended luma (Raster.Luma), not the wrapped products of the code as written. Raster.LumaAsWritten models those pixel by pixel (see Findings). Only 8-bit samples are modelled. One mask is shared by all bands. The per-band mask of a masked array and its conversion to the data mask (titiler/image/utils.py:144) are not modelled.
- Raster.Luma: is the intended luma, not the code as written. On `uint8` bands the code's products wrap: NumPy 1.x value-based casting, which this model assumes, types `band * 299` and `band * 587` as `uint16` and `band * 114` as `uint8`. Raster.LumaAsWritten models that wrap (see Findings). Under NumPy 2 casting, `band * 299` raises `OverflowError` instead, a 500, and that is not modelled. Only 8-bit samples are modelled: for wider samples the sum can exceed 255 and `astype("uint8")` (titiler/image/utils.py:143) wraps it modulo 256. Floating-point rounding in the sum is not modelled.
- Raster.LumaNeutral: holds of the intended luma only. As written, gray 128 gives 47 (Raster.MidGrayWraps).
- Raster.LumaMonotone: holds of the intended luma only. As written, more red can give a darker gray (Raster.BrighterRedDarker).
- Numbers.ParseFloat: accepts a sign, digits and one point only. Python's surrounding white space, `_` separators, exponents, `inf` and `nan` are not modelled.
- Numbers.ParseInt: accepts a sign and digits only. White space and `_` separators are not modelled.
- Floating-point division before `math.ceil`, `round` and `int()` is modelled with exact reals. IEEE rounding at integer and half-integer boundaries is not reproduced.
- Settings.CheckMax: limits are natural numbers. Negative limits, which the settings class accepts, are not modelled.
- Size.NoUpscaleWithoutCaret: holds for regions with whole-pixel sides only. An absolute region with fractional sides, such as `0,0,10.6,10.6`, lets `pct:100` give 11 × 11 (see Findings).
- Size.EvaluateWithinRegion: holds for whole-pixel regions only, for the same reason.
- Endpoint.PlanWithinWindow: holds for whole-pixel windows only, for the same reason.
- Clamp.GetSizes: states the ceiling properties only, not the exact truncated values, which the function body defines.
- The `info.json` response is a map from keys to JSON values. Key order, the serialised text and the trailing newline of the JSON-LD stream are not modelled.
- `partOf`, `seeAlso` and `service` (titiler/image/models.py:105-107) are untyped dictionaries that are always `None` here. They are left out of the info record.
- The `Accept` header's parameters are read with `dict()` over `=` pairs. Only the number of `=` signs and the last `q` are modelled.
- The redirect route, URL building (`url_for`), the viewer, the tile, metadata and statistics endpoints, and DeepZoom are web framework glue or unfinished code.
- The `quality` and `format` enumerations (titiler/image/resources/enums.py) are not part of this model. `Endpoint.Quality` lists the four IIIF qualities directly.
- titiler/image/main.py, reader.py and dependencies.py are not part of this model.

## Findings

| source | as written | input that shows it | evidently intended | confidence | as-written member | corrected member |
|---|---|---|---|---|---|---|
| titiler/image/factory.py:460-464 | The JSON-LD variant is written with `info.json(exclude_none=True)`, which uses field names rather than aliases. The context therefore appears as `context`. | `GET /iiif/{id}/info.json` with `Accept: application/ld+json` | The same aliased document as the plain JSON response, with `@context`, under the JSON-LD media type. | medium, not executed | Endpoint.InfoResponseAsWritten | Endpoint.InfoResponse |
| titiler/image/factory.py:670-688 | `!w,h` keeps w whenever the region is landscape and derives the height, without comparing that height to h. Only the region bounds are checked afterwards. | `full/!100,10/0` on a 1000 × 695 image plans 100 × 70. | The comment at factory.py:671-672 and section 4.2 of the IIIF Image API 3.0: neither side larger than w or h. Here that is 15 × 10. | high, not executed | Scenarios.ConfinedPastHeight | Size.ConfinedFit |
| titiler/image/factory.py:628-639 | Without `^`, only the percentage is checked against 100. The rounded result is not compared with the region, which can hold a fractional number of pixels. | `0,0,10.6,10.6/pct:100`: each side rounds to 11, above 10.6. | No upscaling without `^` (section 4.2 of the IIIF Image API 3.0), so the request is refused with 400. | low, not executed | Scenarios.FractionalRegionUpscaled | Size.ParseSizeCorrected |
| titiler/image/utils.py:137-141 | `img.data[0] * 299 / 1000 + …` multiplies the `uint8` bands in fixed-width NumPy arithmetic. Under NumPy 1.x casting the 299 and 587 products are `uint16` and wrap at 65536, and the 114 product stays `uint8` and wraps at 256. | `gray` quality of a white 3-band image: (255, 255, 255) gives 29. Gray 128 gives 47. | The ITU-R 601-2 luma of the docstring: 255 for white and 128 for gray 128, with the products widened before the sum. | medium, not executed | Raster.LumaAsWritten | Raster.Luma |

=== FILE: clamp.dfy ===
/** `_get_sizes`: the server-side ceiling on the output size, from the
    `maxWidth`, `maxHeight` and `maxArea` technical properties of section
    5.2 of the IIIF Image API 3.0. */
module Clamp {
  import opened Outcome
  import opened Numbers
  import opened Settings

  /** The area limit is set and the requested area exceeds it. */
  predicate AreaExceeded(w: real, h: real, limits: IiifSettings) {
    Truthy(limits.maxArea) && (limits.maxArea.value as real) < w * h
  }

  /** The height limit in force once a width limit is set: `max_height or
      max_width`. */
  function EffectiveMaxHeight(limits: IiifSettings): nat
    requires Truthy(limits.maxWidth)
  {
    if Truthy(limits.maxHeight) then limits.maxHeight.value else limits.maxWidth.value
  }

  /** The output size after the server limits.  An exceeded area scales
      both sides by `maxArea / (w*h)` and truncates, without looking at the
      width and height limits; otherwise a width limit scales the height
      proportionally and a height limit then scales the width. */
  function GetSizes(w: real, h: real, limits: IiifSettings): (r: (real, real))
    // limits that are not set, or not reached, leave the size alone
    ensures !AreaExceeded(w, h, limits)
            && (!Truthy(limits.maxWidth)
                || (w <= limits.maxWidth.value as real && h <= EffectiveMaxHeight(limits) as real))
            ==> r == (w, h)
    // a ceiling only: a positive size never grows
    ensures (w > 0.0 && h > 0.0) || (r.0 > 0.0 && r.1 > 0.0) ==> r.0 <= w && r.1 <= h
    // under a width limit the result fits the width and effective height limits
    ensures !AreaExceeded(w, h, limits) && Truthy(limits.maxWidth) ==>
              r.0 <= limits.maxWidth.value as real && r.1 <= EffectiveMaxHeight(limits) as real
    // an exceeded area is brought back under the limit
    ensures AreaExceeded(w, h, limits) && w > 0.0 && h > 0.0 ==>
              0.0 <= r.0 && 0.0 <= r.1 && r.0 * r.1 <= limits.maxArea.value as real
  {
    if AreaExceeded(w, h, limits) then
      AreaScalingBounds(w, h, limits.maxArea.value as real);
      AreaScaling(w, h, limits.maxArea.value as real)
    else if Truthy(limits.maxWidth) then
      WidthHeightScaling(w, h, limits.maxWidth.value as real, EffectiveMaxHeight(limits) as real)
    else (w, h)
  }

  /** `int(x * f)`: a side scaled by a factor and truncated toward zero. */
  function TruncScale(x: real, f: real): real {
    Trunc(x * f) as real
  }

  /** A factor in `(0, 1)` never grows a positive side, and a positive result
      comes only from a positive side. */
  lemma TruncScaleShrinks(x: real, f: real)
    requires 0.0 < f < 1.0
    ensures x > 0.0 ==> 0.0 <= TruncScale(x, f) < x
    ensures TruncScale(x, f) > 0.0 ==> x > 0.0
    ensures TruncScale(x, f) <= if x * f > 0.0 then x * f else 0.0
  {
    if x > 0.0 {
      ScaleBelow(x, f);
    } else {
      assert x * f <= 0.0;
    }
  }

  /** The `max_area` branch: both sides times `maxArea / (w*h)`, truncated. */
  function AreaScaling(w: real, h: real, maxArea: real): (real, real)
    requires 0.0 < maxArea < w * h
  {
    var ratio := maxArea / (w * h);
    (TruncScale(w, ratio), TruncScale(h, ratio))
  }

  /** The area branch never grows a positive size and brings it under the
      area limit. */
  lemma AreaScalingBounds(w: real, h: real, maxArea: real)
    requires 0.0 < maxArea < w * h
    ensures var r := AreaScaling(w, h, maxArea);
            && ((w > 0.0 && h > 0.0) || (r.0 > 0.0 && r.1 > 0.0) ==> r.0 <= w && r.1 <= h)
            && (w > 0.0 && h > 0.0 ==> 0.0 <= r.0 && 0.0 <= r.1 && r.0 * r.1 <= maxArea)
  {
    var ratio := maxArea / (w * h);
    FractionBelowOne(maxArea, w * h);
    var r0, r1 := TruncScale(w, ratio), TruncScale(h, ratio);
    assert AreaScaling(w, h, maxArea) == (r0, r1);
    TruncScaleShrinks(w, ratio);
    TruncScaleShrinks(h, ratio);
    if w > 0.0 && h > 0.0 {
      var a, b := w * ratio, h * ratio;
      assert a > 0.0 && b > 0.0;
      ProductBound(r0, a, r1, b);
      AreaAfterRatio(w, h, maxArea, ratio);
    }
  }

  /** `(w*f) * (h*f) < maxArea` for `f = maxArea / (w*h)` below one. */
  lemma AreaAfterRatio(w: real, h: real, maxArea: real, ratio: real)
    requires 0.0 < maxArea < w * h && ratio == maxArea / (w * h) && 0.0 < ratio < 1.0
    ensures (w * ratio) * (h * ratio) < maxArea
  {
    assert (w * ratio) * (h * ratio) == (w * h * ratio) * ratio;
    assert w * h * ratio == maxArea;
    assert maxArea * ratio < maxArea;
  }

  /** The `max_width` branch with the effective height limit `mh`: a width
      over `mw` is set to `mw` with the height scaled alike, then a height
      over `mh` is set to `mh` with the original width scaled alike. */
  function WidthHeightScaling(w: real, h: real, mw: real, mh: real): (r: (real, real))
    requires mw > 0.0 && mh > 0.0
    ensures w <= mw && h <= mh ==> r == (w, h)
    ensures (w > 0.0 && h > 0.0) || (r.0 > 0.0 && r.1 > 0.0) ==> r.0 <= w && r.1 <= h
    ensures r.0 <= mw && r.1 <= mh
  {
    var w1 := if w > mw then mw else w;
    var h1 := if w > mw then TruncScale(h, mw / w) else h;
    if h1 > mh then
      HeightScalingBounds(w, h, mw, mh, h1);
      (TruncScale(w, mh / h), mh)
    else
      WidthScalingBounds(w, h, mw, h1);
      (w1, h1)
  }

  /** The width step alone: the scaled height does not exceed the original. */
  lemma WidthScalingBounds(w: real, h: real, mw: real, h1: real)
    requires mw > 0.0
    requires h1 == if w > mw then TruncScale(h, mw / w) else h
    ensures w > mw && ((w > 0.0 && h > 0.0) || h1 > 0.0) ==> h1 <= h
  {
    if w > mw {
      FractionBelowOne(mw, w);
      TruncScaleShrinks(h, mw / w);
    }
  }

  /** The height step, taken when the (possibly scaled) height `h1` is over
      `mh`. */
  lemma HeightScalingBounds(w: real, h: real, mw: real, mh: real, h1: real)
    requires mw > 0.0 && mh > 0.0
    requires h1 == if w > mw then TruncScale(h, mw / w) else h
    requires h1 > mh
    ensures h > mh
    ensures TruncScale(w, mh / h) <= mw
    ensures (w > 0.0 || TruncScale(w, mh / h) > 0.0) ==> TruncScale(w, mh / h) <= w
  {
    if w > mw {
      FractionBelowOne(mw, w);
      TruncScaleShrinks(h, mw / w);
    }
    FractionBelowOne(mh, h);
    TruncScaleShrinks(w, mh / h);
    if w > mw && w * (mh / h) > 0.0 {
      assert mh < h * (mw / w);
      LessAfterScaling(mh, h, mw, w);
    }
  }

  /** Scaling by a factor below one does not increase a value whose scaled
      image is positive. */
  lemma ScaleBelow(x: real, f: real)
    requires 0.0 < f < 1.0 && x * f > 0.0
    ensures x > 0.0 && x * f < x
  {
    assert x == (x * f) / f;
  }

  lemma FractionBelowOne(a: real, b: real)
    requires 0.0 < a < b
    ensures 0.0 < a / b < 1.0
  {
    assert (b - a) / b > 0.0;
    assert b / b == 1.0;
    assert a / b + (b - a) / b == b / b;
  }

  lemma ProductBound(a: real, x: real, b: real, y: real)
    requires 0.0 <= a <= x && 0.0 <= b <= y
    ensures a * b <= x * y
  {
    assert a * b <= x * b;
    assert x * b <= x * y;
  }

  /** From `mh < h * (mw / w)` with positive quantities, `w * (mh / h) < mw`. */
  lemma LessAfterScaling(mh: real, h: real, mw: real, w: real)
    requires mh > 0.0 && mw > 0.0 && w > 0.0 && h > 0.0 && mh < h * (mw / w)
    ensures w * (mh / h) < mw
  {
    assert h * (mw / w) * w == h * mw;
    assert mh * w < h * mw;
    assert w * (mh / h) * h == w * mh;
  }

  /** When the area limit is exceeded the width and height limits play no
      part: the `elif` is never reached. */
  lemma AreaTakesPrecedence(w: real, h: real, limits: IiifSettings, maxWidth: Option<nat>, maxHeight: Option<nat>)
    requires AreaExceeded(w, h, limits)
    ensures GetSizes(w, h, limits) == GetSizes(w, h, IiifSettings(maxWidth, maxHeight, limits.maxArea))
  {
  }
}

=== FILE: models.dfy ===
/** The response models of the image information request (section 5 of the
    IIIF Image API 3.0): the info document, its `sizes` and `tiles` entries,
    the tile validator, and their JSON form. */
module Models {
  import opened Outcome
  import opened Settings

  /** The fixed literals of the info document. */
  const ContextUri: string := "http://iiif.io/api/image/3/context.json"
  const ServiceType: string := "ImageService3"
  const ProtocolUri: string := "http://iiif.io/api/image"
  const PreferredFormats: seq<string> := ["png", "jpeg", "webp", "tif", "jp2"]

  /** The compliance levels a `profile` may name. */
  datatype Level = Level0 | Level1 | Level2

  function ProfileName(p: Level): (name: string)
    ensures |name| == 6 && name[..5] == "level"
  {
    match p
    case Level0 => "level0"
    case Level1 => "level1"
    case Level2 => "level2"
  }

  /** One `sizes` entry (its `type` is always `Size`). */
  datatype SizeInfo = SizeInfo(width: int, height: int)

  /** One `tiles` entry (its `type` is always `Tile`). */
  datatype TileInfo = TileInfo(scaleFactors: seq<int>, width: int, height: Option<int>)

  /** The info document.  The literal fields `@context`, `type` and
      `protocol` have one possible value each and are not stored; the untyped
      linking dictionaries `partOf`, `seeAlso` and `service` are not part of
      this model. */
  datatype Info = Info(
    id: string,
    profile: Level,
    width: int,
    height: int,
    maxWidth: Option<int>,
    maxHeight: Option<int>,
    maxArea: Option<int>,
    preferredFormats: Option<seq<string>>,
    sizes: Option<seq<SizeInfo>>,
    tiles: Option<seq<TileInfo>>,
    rights: Option<string>,
    extraQualities: Option<seq<string>>,
    extraFormats: Option<seq<string>>,
    extraFeatures: Option<seq<string>>)

  function LimitOf(limit: Option<nat>): (o: Option<int>)
    ensures o.Some? <==> limit.Some?
    ensures o.Some? ==> o.value == limit.value
  {
    match limit
    case None => None
    case Some(n) => Some(n)
  }

  /** `iiifInfo(id=..., width=..., height=...)`: every other field at its
      default, the limits taken from the server settings. */
  function NewInfo(id: string, width: int, height: int, settings: IiifSettings): (info: Info)
    ensures info.id == id && info.width == width && info.height == height
    ensures info.profile == Level2
    ensures info.maxWidth == LimitOf(settings.maxWidth) && info.maxHeight == LimitOf(settings.maxHeight)
    ensures info.maxArea == LimitOf(settings.maxArea)
    ensures info.preferredFormats == Some(PreferredFormats)
    ensures info.sizes.None? && info.tiles.None? && info.rights.None?
    ensures info.extraQualities.None? && info.extraFormats.None? && info.extraFeatures.None?
  {
    Info(id, Level2, width, height,
         LimitOf(settings.maxWidth), LimitOf(settings.maxHeight), LimitOf(settings.maxArea),
         Some(PreferredFormats), None, None, None, None, None, None)
  }

  /** The `check_height` validator on the raw tile fields, then the field
      checks: a truthy `height` is replaced by `width` (a missing `width`
      key then raises `KeyError`); a `height` of `None` or `0` is kept; a
      missing required field fails validation. */
  function ValidateTile(width: Option<int>, height: Option<int>, scaleFactors: Option<seq<int>>): (r: Result<TileInfo>)
    ensures Truthy(height) && width.None? ==> r == Err(MissingWidthKey)
    ensures r.Err? <==> width.None? || scaleFactors.None?
    ensures r.Err? && !(Truthy(height) && width.None?) ==> r.error == MissingField
    ensures r.Ok? ==> r.value.width == width.value && r.value.scaleFactors == scaleFactors.value
    ensures r.Ok? ==> Settled(r.value)
    ensures r.Ok? && Truthy(height) ==> r.value.height == Some(r.value.width)
    ensures r.Ok? && !Truthy(height) ==> r.value.height == height
  {
    var h :- if Truthy(height) then
               (if width.None? then Err(MissingWidthKey) else Ok(width))
             else Ok(height);
    if width.None? || scaleFactors.None? then Err(MissingField)
    else Ok(TileInfo(scaleFactors.value, width.value, h))
  }

  /** A tile the validator leaves as it is: no height, a zero height, or a
      square tile. */
  predicate Settled(t: TileInfo) {
    t.height.None? || t.height == Some(0) || t.height == Some(t.width)
  }

  /** Validation keeps a tile exactly when it is settled; so validating a
      validated tile changes nothing. */
  lemma ValidateTileFixedPoint(t: TileInfo)
    ensures ValidateTile(Some(t.width), t.height, Some(t.scaleFactors)) == Ok(t) <==> Settled(t)
  {
  }

  /** The keys the documents use; `KeyText` is each one as written. */
  datatype Key =
    | AtContext | ContextAttr | Id | Type | Protocol | Profile | Width | Height
    | MaxWidth | MaxHeight | MaxArea | PreferredFormatsKey | Sizes | Tiles | Rights
    | ExtraQualities | ExtraFormats | ExtraFeatures | ScaleFactors

  function KeyText(k: Key): string {
    match k
    case AtContext => "@context"
    case ContextAttr => "context"
    case Id => "id"
    case Type => "type"
    case Protocol => "protocol"
    case Profile => "profile"
    case Width => "width"
    case Height => "height"
    case MaxWidth => "maxWidth"
    case MaxHeight => "maxHeight"
    case MaxArea => "maxArea"
    case PreferredFormatsKey => "preferredFormats"
    case Sizes => "sizes"
    case Tiles => "tiles"
    case Rights => "rights"
    case ExtraQualities => "extraQualities"
    case ExtraFormats => "extraFormats"
    case ExtraFeatures => "extraFeatures"
    case ScaleFactors => "scaleFactors"
  }

  /** A JSON value; an object is read as the map from its keys to its
      values. */
  datatype Json = Null | Int(i: int) | Str(s: string) | Arr(items: seq<Json>) | Obj(fields: map<Key, Json>)

  /** The entry for an optional field: the value when there is one; for
      `None`, nothing under `exclude_none` and `null` otherwise. */
  function Entry(key: Key, v: Option<Json>, excludeNone: bool): (m: map<Key, Json>)
    ensures v.Some? ==> m == map[key := v.value]
    ensures v.None? && excludeNone ==> m == map[]
    ensures v.None? && !excludeNone ==> m == map[key := Null]
  {
    match v
    case Some(j) => map[key := j]
    case None => if excludeNone then map[] else map[key := Null]
  }

  function IntsJson(xs: seq<int>): (j: Json)
    ensures j.Arr? && |j.items| == |xs|
    ensures forall i :: 0 <= i < |xs| ==> j.items[i] == Int(xs[i])
  {
    Arr(seq(|xs|, i requires 0 <= i < |xs| => Int(xs[i])))
  }

  function StrsJson(xs: seq<string>): (j: Json)
    ensures j.Arr? && |j.items| == |xs|
    ensures forall i :: 0 <= i < |xs| ==> j.items[i] == Str(xs[i])
  {
    Arr(seq(|xs|, i requires 0 <= i < |xs| => Str(xs[i])))
  }

  function SizeJson(s: SizeInfo): Json {
    Obj(map[Type := Str("Size"), Width := Int(s.width), Height := Int(s.height)])
  }

  function TileJson(t: TileInfo, excludeNone: bool): Json {
    Obj(map[Type := Str("Tile"), ScaleFactors := IntsJson(t.scaleFactors), Width := Int(t.width)]
        + Entry(Height, OptInt(t.height), excludeNone))
  }

  function OptInt(o: Option<int>): (j: Option<Json>)
    ensures j.Some? <==> o.Some?
    ensures o.Some? ==> j.value == Int(o.value)
  {
    match o
    case None => None
    case Some(n) => Some(Int(n))
  }

  function OptStr(o: Option<string>): (j: Option<Json>)
    ensures j.Some? <==> o.Some?
    ensures o.Some? ==> j.value == Str(o.value)
  {
    match o
    case None => None
    case Some(s) => Some(Str(s))
  }

  function OptStrs(o: Option<seq<string>>): (j: Option<Json>)
    ensures j.Some? <==> o.Some?
    ensures o.Some? ==> j.value == StrsJson(o.value)
  {
    match o
    case None => None
    case Some(xs) => Some(StrsJson(xs))
  }

  /** The `sizes` array. */
  function SizesJson(xs: seq<SizeInfo>): (j: Json)
    ensures j.Arr? && |j.items| == |xs|
    ensures forall i :: 0 <= i < |xs| ==> j.items[i] == SizeJson(xs[i])
  {
    Arr(seq(|xs|, i requires 0 <= i < |xs| => SizeJson(xs[i])))
  }

  /** The `tiles` array. */
  function TilesJson(xs: seq<TileInfo>, excludeNone: bool): (j: Json)
    ensures j.Arr? && |j.items| == |xs|
    ensures forall i :: 0 <= i < |xs| ==> j.items[i] == TileJson(xs[i], excludeNone)
  {
    Arr(seq(|xs|, i requires 0 <= i < |xs| => TileJson(xs[i], excludeNone)))
  }

  function OptSizes(o: Option<seq<SizeInfo>>): (j: Option<Json>)
    ensures j.Some? <==> o.Some?
    ensures o.Some? ==> j.value == SizesJson(o.value)
  {
    match o
    case None => None
    case Some(xs) => Some(SizesJson(xs))
  }

  function OptTiles(o: Option<seq<TileInfo>>, excludeNone: bool): (j: Option<Json>)
    ensures j.Some? <==> o.Some?
    ensures o.Some? ==> j.value == TilesJson(o.value, excludeNone)
  {
    match o
    case None => None
    case Some(xs) => Some(TilesJson(xs, excludeNone))
  }

  /** The key of the `context` field: its alias `@context`, or the Python
      attribute name when the dump does not use aliases. */
  function ContextKey(byAlias: bool): Key {
    if byAlias then AtContext else ContextAttr
  }

  /** The keys every info document carries (one of the two context keys,
      depending on aliasing). */
  const FixedKeys: set<Key> := {AtContext, ContextAttr, Id, Type, Protocol, Profile, Width, Height}

  /** The keys of the optional fields. */
  const OptionalKeys: set<Key> :=
    {MaxWidth, MaxHeight, MaxArea, PreferredFormatsKey, Sizes, Tiles, Rights,
     ExtraQualities, ExtraFormats, ExtraFeatures}

  /** The value the model gives a key, `None` for an optional field that is
      `None` and for a key the document does not use. */
  function FieldValue(info: Info, k: Key, byAlias: bool, excludeNone: bool): (v: Option<Json>)
    ensures v != Some(Null)
    ensures v.Some? ==> k in FixedKeys || k in OptionalKeys
    ensures k in FixedKeys && k != AtContext && k != ContextAttr ==> v.Some?
    ensures k == ContextKey(byAlias) ==> v == Some(Str(ContextUri))
    ensures k == ContextKey(!byAlias) ==> v.None?
  {
    match k
    case AtContext => if byAlias then Some(Str(ContextUri)) else None
    case ContextAttr => if byAlias then None else Some(Str(ContextUri))
    case Id => Some(Str(info.id))
    case Type => Some(Str(ServiceType))
    case Protocol => Some(Str(ProtocolUri))
    case Profile => Some(Str(ProfileName(info.profile)))
    case Width => Some(Int(info.width))
    case Height => Some(Int(info.height))
    case MaxWidth => OptInt(info.maxWidth)
    case MaxHeight => OptInt(info.maxHeight)
    case MaxArea => OptInt(info.maxArea)
    case PreferredFormatsKey => OptStrs(info.preferredFormats)
    case Sizes => OptSizes(info.sizes)
    case Tiles => OptTiles(info.tiles, excludeNone)
    case Rights => OptStr(info.rights)
    case ExtraQualities => OptStrs(info.extraQualities)
    case ExtraFormats => OptStrs(info.extraFormats)
    case ExtraFeatures => OptStrs(info.extraFeatures)
    case ScaleFactors => None
  }

  /** The model dumped as a JSON object, with or without field aliases and
      with or without the `None` fields: every field with a value is
      present with it; an optional field that is `None` is left out under
      `exclude_none` and is `null` otherwise. */
  function Dump(info: Info, byAlias: bool, excludeNone: bool): (m: map<Key, Json>)
    ensures ContextKey(byAlias) in m && m[ContextKey(byAlias)] == Str(ContextUri)
    ensures ContextKey(!byAlias) !in m
  {
    map k | k in FixedKeys + OptionalKeys
            && (FieldValue(info, k, byAlias, excludeNone).Some? || (!excludeNone && k in OptionalKeys)) ::
      match FieldValue(info, k, byAlias, excludeNone) case Some(j) => j case None => Null
  }

  /** Under `exclude_none` the dump holds no `null`, and every field it
      holds has the model's value. */
  lemma DumpFields(info: Info, byAlias: bool, excludeNone: bool, k: Key)
    ensures var m := Dump(info, byAlias, excludeNone);
            && (k in m <==> FieldValue(info, k, byAlias, excludeNone).Some? || (!excludeNone && k in OptionalKeys))
            && (k in m && FieldValue(info, k, byAlias, excludeNone).Some? ==> m[k] == FieldValue(info, k, byAlias, excludeNone).value)
            && (k in m && excludeNone ==> m[k] != Null)
  {
  }

  /** Reading JSON back, as a client of the Image API does. */
  function ReadInt(j: Json): (o: Option<int>) {
    if j.Int? then Some(j.i) else None
  }

  function ReadStr(j: Json): (o: Option<string>) {
    if j.Str? then Some(j.s) else None
  }

  function ReadInts(j: Json): (o: Option<seq<int>>)
    ensures o.Some? <==> j.Arr? && forall i :: 0 <= i < |j.items| ==> j.items[i].Int?
    ensures o.Some? ==> |o.value| == |j.items| && forall i :: 0 <= i < |j.items| ==> j.items[i] == Int(o.value[i])
  {
    if j.Arr? && forall i :: 0 <= i < |j.items| ==> j.items[i].Int? then
      Some(seq(|j.items|, i requires 0 <= i < |j.items| => j.items[i].i))
    else None
  }

  function ReadStrs(j: Json): (o: Option<seq<string>>)
    ensures o.Some? <==> j.Arr? && forall i :: 0 <= i < |j.items| ==> j.items[i].Str?
    ensures o.Some? ==> |o.value| == |j.items| && forall i :: 0 <= i < |j.items| ==> j.items[i] == Str(o.value[i])
  {
    if j.Arr? && forall i :: 0 <= i < |j.items| ==> j.items[i].Str? then
      Some(seq(|j.items|, i requires 0 <= i < |j.items| => j.items[i].s))
    else None
  }

  /** A `sizes` entry: an object of type `Size` with integer sides. */
  function ReadSize(j: Json): (o: Option<SizeInfo>) {
    if j.Obj? && Type in j.fields && j.fields[Type] == Str("Size")
       && Width in j.fields && j.fields[Width].Int?
       && Height in j.fields && j.fields[Height].Int?
    then Some(SizeInfo(j.fields[Width].i, j.fields[Height].i))
    else None
  }

  /** A `tiles` entry: an object of type `Tile`, read through the tile
      validator. */
  function ReadTile(j: Json): (o: Option<TileInfo>) {
    if j.Obj? && Type in j.fields && j.fields[Type] == Str("Tile") then
      var f := j.fields;
      var width := if Width in f then ReadInt(f[Width]) else None;
      var sf := if ScaleFactors in f then ReadInts(f[ScaleFactors]) else None;
      var height := if Height in f && f[Height].Int? then Some(f[Height].i) else None;
      match ValidateTile(width, height, sf)
      case Ok(t) => Some(t)
      case Err(_) => None
    else None
  }

  function ReadSizes(j: Json): (o: Option<seq<SizeInfo>>)
    ensures o.Some? <==> j.Arr? && forall i :: 0 <= i < |j.items| ==> ReadSize(j.items[i]).Some?
    ensures o.Some? ==> |o.value| == |j.items| && forall i :: 0 <= i < |j.items| ==> ReadSize(j.items[i]) == Some(o.value[i])
  {
    if j.Arr? && forall i :: 0 <= i < |j.items| ==> ReadSize(j.items[i]).Some? then
      Some(seq(|j.items|, i requires 0 <= i < |j.items| && ReadSize(j.items[i]).Some? => ReadSize(j.items[i]).value))
    else None
  }

  function ReadTiles(j: Json): (o: Option<seq<TileInfo>>)
    ensures o.Some? <==> j.Arr? && forall i :: 0 <= i < |j.items| ==> ReadTile(j.items[i]).Some?
    ensures o.Some? ==> |o.value| == |j.items| && forall i :: 0 <= i < |j.items| ==> ReadTile(j.items[i]) == Some(o.value[i])
  {
    if j.Arr? && forall i :: 0 <= i < |j.items| ==> ReadTile(j.items[i]).Some? then
      Some(seq(|j.items|, i requires 0 <= i < |j.items| && ReadTile(j.items[i]).Some? => ReadTile(j.items[i]).value))
    else None
  }

  /** An optional field: absent or `null` is `None`, a readable value is
      that value, anything else fails the whole document. */
  function ReadOptional<T>(m: map<Key, Json>, key: Key, read: Json -> Option<T>): (o: Option<Option<T>>) {
    if key !in m || m[key] == Null then Some(None)
    else match read(m[key])
      case None => None
      case Some(x) => Some(Some(x))
  }

  function ReadProfile(j: Json): (o: Option<Level>) {
    if j == Str("level0") then Some(Level0)
    else if j == Str("level1") then Some(Level1)
    else if j == Str("level2") then Some(Level2)
    else None
  }

  /** Every profile level reads back from its name. */
  lemma ProfileRoundTrip(p: Level)
    ensures ReadProfile(Str(ProfileName(p))) == Some(p)
  {
  }

  /** The fields every info document must carry, with their fixed values
      where they have one. */
  predicate FixedOk(m: map<Key, Json>) {
    && AtContext in m && m[AtContext] == Str(ContextUri)
    && Type in m && m[Type] == Str(ServiceType)
    && Protocol in m && m[Protocol] == Str(ProtocolUri)
    && Id in m && m[Id].Str?
    && Profile in m && ReadProfile(m[Profile]).Some?
    && Width in m && m[Width].Int?
    && Height in m && m[Height].Int?
  }

  /** An info document as section 5 of the IIIF Image API 3.0 describes it:
      `@context`, `type` and `protocol` with their fixed values, an `id`, a
      `profile`, integer `width` and `height`, and the optional fields. */
  function ReadInfo(m: map<Key, Json>): (o: Option<Info>)
    ensures o.Some? ==> AtContext in m && m[AtContext] == Str(ContextUri)
  {
    if FixedOk(m) then
      var maxWidth :- ReadOptional(m, MaxWidth, ReadInt);
      var maxHeight :- ReadOptional(m, MaxHeight, ReadInt);
      var maxArea :- ReadOptional(m, MaxArea, ReadInt);
      var formats :- ReadOptional(m, PreferredFormatsKey, ReadStrs);
      var sizes :- ReadOptional(m, Sizes, ReadSizes);
      var tiles :- ReadOptional(m, Tiles, ReadTiles);
      var rights :- ReadOptional(m, Rights, ReadStr);
      var qualities :- ReadOptional(m, ExtraQualities, ReadStrs);
      var extraFormats :- ReadOptional(m, ExtraFormats, ReadStrs);
      var features :- ReadOptional(m, ExtraFeatures, ReadStrs);
      Some(Info(m[Id].s, ReadProfile(m[Profile]).value, m[Width].i, m[Height].i,
                maxWidth, maxHeight, maxArea, formats, sizes, tiles, rights, qualities, extraFormats, features))
    else None
  }

  lemma ReadIntsRoundTrip(xs: seq<int>)
    ensures ReadInts(IntsJson(xs)) == Some(xs)
  {
    var r := ReadInts(IntsJson(xs)).value;
    assert forall i :: 0 <= i < |xs| ==> r[i] == xs[i];
    assert r == xs;
  }

  lemma ReadStrsRoundTrip(xs: seq<string>)
    ensures ReadStrs(StrsJson(xs)) == Some(xs)
  {
    var r := ReadStrs(StrsJson(xs)).value;
    assert forall i :: 0 <= i < |xs| ==> r[i] == xs[i];
    assert r == xs;
  }

  /** A `sizes` entry reads back as written. */
  lemma SizeRoundTrip(s: SizeInfo)
    ensures ReadSize(SizeJson(s)) == Some(s)
  {
  }

  /** A settled tile reads back as written, with or without its `null`
      height; an unsettled one would come back squared by the validator. */
  lemma TileRoundTrip(t: TileInfo, excludeNone: bool)
    requires Settled(t)
    ensures ReadTile(TileJson(t, excludeNone)) == Some(t)
  {
    var f := TileJson(t, excludeNone).fields;
    ReadIntsRoundTrip(t.scaleFactors);
    assert f[Width] == Int(t.width);
    assert f[ScaleFactors] == IntsJson(t.scaleFactors);
    if t.height.Some? {
      assert f[Height] == Int(t.height.value);
    } else {
      assert Height !in f || f[Height] == Null;
    }
  }

  lemma SizesRoundTrip(xs: seq<SizeInfo>)
    ensures ReadSizes(SizesJson(xs)) == Some(xs)
  {
    var j := SizesJson(xs);
    forall i | 0 <= i < |xs| ensures ReadSize(j.items[i]) == Some(xs[i]) {
      SizeRoundTrip(xs[i]);
    }
    var r := ReadSizes(j).value;
    assert forall i :: 0 <= i < |xs| ==> r[i] == xs[i];
    assert r == xs;
  }

  lemma TilesRoundTrip(xs: seq<TileInfo>, excludeNone: bool)
    requires forall i :: 0 <= i < |xs| ==> Settled(xs[i])
    ensures ReadTiles(TilesJson(xs, excludeNone)) == Some(xs)
  {
    var j := TilesJson(xs, excludeNone);
    forall i | 0 <= i < |xs| ensures ReadTile(j.items[i]) == Some(xs[i]) {
      TileRoundTrip(xs[i], excludeNone);
    }
    var r := ReadTiles(j).value;
    assert forall i :: 0 <= i < |xs| ==> r[i] == xs[i];
    assert r == xs;
  }

  /** A field holding what `write` made of a value, absent or `null` for
      `None`: reading it with `read` recovers the value when `read` undoes
      `write`. */
  predicate Holds(m: map<Key, Json>, k: Key, v: Option<Json>) {
    && (v.Some? ==> k in m && m[k] == v.value)
    && (v.None? ==> k !in m || m[k] == Null)
  }

  lemma IntFieldRead(m: map<Key, Json>, k: Key, o: Option<int>)
    requires Holds(m, k, OptInt(o))
    ensures ReadOptional(m, k, ReadInt) == Some(o)
  {
  }

  lemma StrFieldRead(m: map<Key, Json>, k: Key, o: Option<string>)
    requires Holds(m, k, OptStr(o))
    ensures ReadOptional(m, k, ReadStr) == Some(o)
  {
  }

  lemma StrsFieldRead(m: map<Key, Json>, k: Key, o: Option<seq<string>>)
    requires Holds(m, k, OptStrs(o))
    ensures ReadOptional(m, k, ReadStrs) == Some(o)
  {
    if o.Some? {
      ReadStrsRoundTrip(o.value);
    }
  }

  lemma SizesFieldRead(m: map<Key, Json>, k: Key, o: Option<seq<SizeInfo>>)
    requires Holds(m, k, OptSizes(o))
    ensures ReadOptional(m, k, ReadSizes) == Some(o)
  {
    if o.Some? {
      SizesRoundTrip(o.value);
    }
  }

  lemma TilesFieldRead(m: map<Key, Json>, k: Key, o: Option<seq<TileInfo>>, excludeNone: bool)
    requires o.Some? ==> forall i :: 0 <= i < |o.value| ==> Settled(o.value[i])
    requires Holds(m, k, OptTiles(o, excludeNone))
    ensures ReadOptional(m, k, ReadTiles) == Some(o)
  {
    if o.Some? {
      TilesRoundTrip(o.value, excludeNone);
    }
  }

  /** An optional field of the dump holds the model's value. */
  lemma OptionalHolds(info: Info, byAlias: bool, excludeNone: bool, k: Key)
    requires k in OptionalKeys
    ensures Holds(Dump(info, byAlias, excludeNone), k, FieldValue(info, k, byAlias, excludeNone))
  {
    DumpFields(info, byAlias, excludeNone, k);
  }

  /** A fixed field of the dump holds the model's value. */
  lemma FixedHolds(info: Info, byAlias: bool, excludeNone: bool, k: Key)
    requires k in FixedKeys && k != ContextKey(!byAlias)
    ensures var m := Dump(info, byAlias, excludeNone);
            k in m && m[k] == FieldValue(info, k, byAlias, excludeNone).value
  {
    DumpFields(info, byAlias, excludeNone, k);
  }

  /** The value the model gives each optional scalar key. */
  lemma ScalarValues(info: Info, byAlias: bool, excludeNone: bool)
    ensures MaxWidth in OptionalKeys && FieldValue(info, MaxWidth, byAlias, excludeNone) == OptInt(info.maxWidth)
    ensures MaxHeight in OptionalKeys && FieldValue(info, MaxHeight, byAlias, excludeNone) == OptInt(info.maxHeight)
    ensures MaxArea in OptionalKeys && FieldValue(info, MaxArea, byAlias, excludeNone) == OptInt(info.maxArea)
    ensures PreferredFormatsKey in OptionalKeys
            && FieldValue(info, PreferredFormatsKey, byAlias, excludeNone) == OptStrs(info.preferredFormats)
    ensures Rights in OptionalKeys && FieldValue(info, Rights, byAlias, excludeNone) == OptStr(info.rights)
  {
  }

  /** The value the model gives each optional list key. */
  lemma ListValues(info: Info, byAlias: bool, excludeNone: bool)
    ensures Sizes in OptionalKeys && FieldValue(info, Sizes, byAlias, excludeNone) == OptSizes(info.sizes)
    ensures Tiles in OptionalKeys && FieldValue(info, Tiles, byAlias, excludeNone) == OptTiles(info.tiles, excludeNone)
    ensures ExtraQualities in OptionalKeys
            && FieldValue(info, ExtraQualities, byAlias, excludeNone) == OptStrs(info.extraQualities)
    ensures ExtraFormats in OptionalKeys
            && FieldValue(info, ExtraFormats, byAlias, excludeNone) == OptStrs(info.extraFormats)
    ensures ExtraFeatures in OptionalKeys
            && FieldValue(info, ExtraFeatures, byAlias, excludeNone) == OptStrs(info.extraFeatures)
  {
  }

  /** The value the model gives each fixed key of the aliased dump. */
  lemma FixedValues(info: Info, excludeNone: bool)
    ensures AtContext in FixedKeys && AtContext != ContextKey(false)
            && FieldValue(info, AtContext, true, excludeNone) == Some(Str(ContextUri))
    ensures Type in FixedKeys && Type != ContextKey(false) && FieldValue(info, Type, true, excludeNone) == Some(Str(ServiceType))
    ensures Protocol in FixedKeys && Protocol != ContextKey(false)
            && FieldValue(info, Protocol, true, excludeNone) == Some(Str(ProtocolUri))
    ensures Id in FixedKeys && Id != ContextKey(false) && FieldValue(info, Id, true, excludeNone) == Some(Str(info.id))
    ensures Profile in FixedKeys && Profile != ContextKey(false)
            && FieldValue(info, Profile, true, excludeNone) == Some(Str(ProfileName(info.profile)))
    ensures Width in FixedKeys && Width != ContextKey(false) && FieldValue(info, Width, true, excludeNone) == Some(Int(info.width))
    ensures Height in FixedKeys && Height != ContextKey(false)
            && FieldValue(info, Height, true, excludeNone) == Some(Int(info.height))
  {
  }

  /** The aliased dump carries the fixed fields with the model's values. */
  lemma FixedHold(info: Info, excludeNone: bool)
    ensures var m := Dump(info, true, excludeNone);
            && FixedOk(m)
            && m[Id] == Str(info.id) && m[Width] == Int(info.width) && m[Height] == Int(info.height)
            && ReadProfile(m[Profile]) == Some(info.profile)
  {
    FixedValues(info, excludeNone);
    ProfileRoundTrip(info.profile);
    ConstantsHold(info, excludeNone);
    FixedHolds(info, true, excludeNone, Id);
    FixedHolds(info, true, excludeNone, Profile);
    FixedHolds(info, true, excludeNone, Width);
    FixedHolds(info, true, excludeNone, Height);
  }

  /** The context, type and protocol of the aliased dump are the constant
      ones. */
  lemma ConstantsHold(info: Info, excludeNone: bool)
    ensures var m := Dump(info, true, excludeNone);
            && AtContext in m && m[AtContext] == Str(ContextUri)
            && Type in m && m[Type] == Str(ServiceType)
            && Protocol in m && m[Protocol] == Str(ProtocolUri)
  {
    FixedValues(info, excludeNone);
    FixedHolds(info, true, excludeNone, AtContext);
    FixedHolds(info, true, excludeNone, Type);
    FixedHolds(info, true, excludeNone, Protocol);
  }

  /** The limits of the dump hold their values. */
  lemma LimitsHold(info: Info, byAlias: bool, excludeNone: bool)
    ensures var m := Dump(info, byAlias, excludeNone);
            && Holds(m, MaxWidth, OptInt(info.maxWidth))
            && Holds(m, MaxHeight, OptInt(info.maxHeight))
            && Holds(m, MaxArea, OptInt(info.maxArea))
  {
    ScalarValues(info, byAlias, excludeNone);
    OptionalHolds(info, byAlias, excludeNone, MaxWidth);
    OptionalHolds(info, byAlias, excludeNone, MaxHeight);
    OptionalHolds(info, byAlias, excludeNone, MaxArea);
  }

  /** `preferredFormats` and `rights` of the dump hold their values. */
  lemma TextsHold(info: Info, byAlias: bool, excludeNone: bool)
    ensures var m := Dump(info, byAlias, excludeNone);
            && Holds(m, PreferredFormatsKey, OptStrs(info.preferredFormats))
            && Holds(m, Rights, OptStr(info.rights))
  {
    ScalarValues(info, byAlias, excludeNone);
    OptionalHolds(info, byAlias, excludeNone, PreferredFormatsKey);
    OptionalHolds(info, byAlias, excludeNone, Rights);
  }

  /** The `sizes` and `tiles` lists of the dump hold their values. */
  lemma ListsHold(info: Info, byAlias: bool, excludeNone: bool)
    ensures var m := Dump(info, byAlias, excludeNone);
            && Holds(m, Sizes, OptSizes(info.sizes))
            && Holds(m, Tiles, OptTiles(info.tiles, excludeNone))
  {
    ListValues(info, byAlias, excludeNone);
    OptionalHolds(info, byAlias, excludeNone, Sizes);
    OptionalHolds(info, byAlias, excludeNone, Tiles);
  }

  /** The `extra*` lists of the dump hold their values. */
  lemma ExtrasHold(info: Info, byAlias: bool, excludeNone: bool)
    ensures var m := Dump(info, byAlias, excludeNone);
            && Holds(m, ExtraQualities, OptStrs(info.extraQualities))
            && Holds(m, ExtraFormats, OptStrs(info.extraFormats))
            && Holds(m, ExtraFeatures, OptStrs(info.extraFeatures))
  {
    ListValues(info, byAlias, excludeNone);
    OptionalHolds(info, byAlias, excludeNone, ExtraQualities);
    OptionalHolds(info, byAlias, excludeNone, ExtraFormats);
    OptionalHolds(info, byAlias, excludeNone, ExtraFeatures);
  }

  /** The document the info endpoint serves reads back as the model it was
      made from, whether `None` fields are left out or written as `null`
      (for tiles the validator leaves as they are). */
  lemma InfoRoundTrip(info: Info, excludeNone: bool)
    requires info.tiles.Some? ==> forall i :: 0 <= i < |info.tiles.value| ==> Settled(info.tiles.value[i])
    ensures ReadInfo(Dump(info, true, excludeNone)) == Some(info)
  {
    var m := Dump(info, true, excludeNone);
    FixedHold(info, excludeNone);
    LimitsHold(info, true, excludeNone);
    TextsHold(info, true, excludeNone);
    ListsHold(info, true, excludeNone);
    ExtrasHold(info, true, excludeNone);
    IntFieldRead(m, MaxWidth, info.maxWidth);
    IntFieldRead(m, MaxHeight, info.maxHeight);
    IntFieldRead(m, MaxArea, info.maxArea);
    StrsFieldRead(m, PreferredFormatsKey, info.preferredFormats);
    SizesFieldRead(m, Sizes, info.sizes);
    TilesFieldRead(m, Tiles, info.tiles, excludeNone);
    StrFieldRead(m, Rights, info.rights);
    StrsFieldRead(m, ExtraQualities, info.extraQualities);
    StrsFieldRead(m, ExtraFormats, info.extraFormats);
    StrsFieldRead(m, ExtraFeatures, info.extraFeatures);
  }
}

=== FILE: negotiation.dfy ===
/** `accept_media_type`: choosing one of the server's media types from an
    HTTP `Accept` header (section 14.1 of RFC 2616), by quality value and
    then by the server's own order. */
module Negotiation {
  import opened Outcome
  import opened Text
  import opened Numbers

  /** Accepted media-range names and their non-zero quality values; a name
      given twice keeps the later value. */
  type Qualities = map<string, real>

  /** The value of the last `q=` parameter, if any: `dict(...)` keeps the
      last value of a repeated key. */
  function LastQ(params: seq<string>): (q: Option<string>)
    requires forall i :: 0 <= i < |params| ==> |Split(params[i], '=')| == 2
    ensures q.None? <==> forall i :: 0 <= i < |params| ==> Split(params[i], '=')[0] != "q"
    // the value is that of a `q` parameter no later parameter overrides
    ensures q.Some? ==> exists i :: QAt(params, i, q.value)
    decreases |params|
  {
    if |params| == 0 then None
    else
      var kv := Split(params[|params| - 1], '=');
      if kv[0] == "q" then
        assert kv == ["q", kv[1]];
        assert QAt(params, |params| - 1, kv[1]);
        Some(kv[1])
      else
        var q := LastQ(params[..|params| - 1]);
        assert forall i :: 0 <= i < |params| - 1 ==> params[..|params| - 1][i] == params[i];
        if q.Some? then
          LastQKept(params, params[..|params| - 1], q.value);
          q
        else q
  }

  /** Parameter `i` is `q=v`, and no later parameter is named `q`. */
  predicate QAt(params: seq<string>, i: int, v: string) {
    && 0 <= i < |params| && Split(params[i], '=') == ["q", v]
    && forall j :: i < j < |params| ==> Split(params[j], '=')[0] != "q"
  }

  /** A parameter not named `q` leaves the last `q` where it was. */
  lemma LastQKept(params: seq<string>, prefix: seq<string>, v: string)
    requires |params| > 0 && prefix == params[..|params| - 1]
    requires Split(params[|params| - 1], '=')[0] != "q"
    requires exists i :: QAt(prefix, i, v)
    ensures exists i :: QAt(params, i, v)
  {
    var i :| QAt(prefix, i, v);
    assert prefix[i] == params[i];
    forall j | i < j < |params| ensures Split(params[j], '=')[0] != "q" {
      if j < |params| - 1 {
        assert prefix[j] == params[j];
      }
    }
    assert QAt(params, i, v);
  }

  /** The quality an entry's `q` text gives: none or empty is 1, a text
      `float()` rejects is 0. */
  function QualityOf(q: Option<string>): (v: real)
    ensures q.None? || q == Some("") ==> v == 1.0
    ensures q.Some? && q.value != "" ==> v == (match ParseFloat(q.value) case None => 0.0 case Some(f) => f)
  {
    match q
    case None => 1.0
    case Some(t) =>
      if t == "" then 1.0
      else match ParseFloat(t)
        case None => 0.0
        case Some(f) => f
  }

  /** One comma-separated entry `name;param=value;...`.  A parameter that is
      not exactly one `key=value` pair makes `dict()` raise `ValueError`; an
      entry whose quality is zero is dropped (`None`). */
  function ParseEntry(m: string): (r: Result<Option<(string, real)>>)
    ensures r.Err? <==> exists i :: 1 <= i < |Split(m, ';')| && Count(Split(m, ';')[i], '=') != 1
    ensures r.Err? ==> r.error == ValueError
    ensures r.Ok? && r.value.Some? ==> r.value.value.0 == Split(m, ';')[0] && r.value.value.1 != 0.0
    ensures ';' !in m ==> r == Ok(Some((m, 1.0)))
    // with parameters, the quality is the one the last `q` gives, and a
    // zero quality drops the entry
    ensures r.Ok? && ';' in m ==>
              && (forall i :: 0 <= i < |Split(m, ';')[1..]| ==> |Split(Split(m, ';')[1..][i], '=')| == 2)
              && (r.value.None? <==> QualityOf(LastQ(Split(m, ';')[1..])) == 0.0)
              && (r.value.Some? ==> r.value.value.1 == QualityOf(LastQ(Split(m, ';')[1..])))
  {
    var values := Split(m, ';');
    if |values| == 1 then
      assert ';' !in m ==> values == [m] by {
        if ';' !in m {
          SplitAbsent(m, ';');
        }
      }
      Ok(Some((values[0], 1.0)))
    else
      var params := values[1..];
      if exists i :: 0 <= i < |params| && |Split(params[i], '=')| != 2 then
        assert ';' in m by {
          CountAbsentConverse(m, ';');
        }
        Err(ValueError)
      else
        assert ';' in m by {
          CountAbsentConverse(m, ';');
        }
        var quality := QualityOf(LastQ(params));
        if quality == 0.0 then Ok(None) else Ok(Some((values[0], quality)))
  }

  /** A separator that occurs splits the text into more than one piece. */
  lemma CountAbsentConverse(s: string, c: char)
    requires |Split(s, c)| != 1
    ensures c in s
  {
    if c !in s {
      SplitAbsent(s, c);
    }
  }

  /** The `accept_values` dict: each accepted name's quality, and the
      names in the order they were first inserted. */
  datatype Header = Header(quality: Qualities, names: seq<string>)

  /** The names list exactly the keys, and no kept quality is zero. */
  ghost predicate Valid(h: Header) {
    && (forall n :: n in h.quality <==> n in h.names)
    && (forall n :: n in h.quality ==> h.quality[n] != 0.0)
  }

  /** `accept_values[name] = quality`: a new name goes to the end, a known
      one keeps its place and takes the new quality. */
  function Insert(h: Header, name: string, q: real): (h': Header)
    requires Valid(h) && q != 0.0
    ensures Valid(h')
    ensures h'.quality == h.quality[name := q]
  {
    if name in h.quality then Header(h.quality[name := q], h.names)
    else Header(h.quality[name := q], h.names + [name])
  }

  /** The entries read left to right into the dict. */
  function Collect(entries: seq<string>, acc: Header): (r: Result<Header>)
    requires Valid(acc)
    ensures r.Ok? ==> Valid(r.value)
    ensures r.Err? ==> r.error == ValueError
    ensures r.Err? <==> exists i :: 0 <= i < |entries| && ParseEntry(entries[i]).Err?
    decreases |entries|
  {
    if |entries| == 0 then Ok(acc)
    else
      assert forall i :: 1 <= i < |entries| ==> entries[1..][i - 1] == entries[i];
      match ParseEntry(entries[0])
      case Err(e) => Err(e)
      case Ok(None) => Collect(entries[1..], acc)
      case Ok(Some(entry)) => Collect(entries[1..], Insert(acc, entry.0, entry.1))
  }

  /** The comma-separated entries of the header, spaces removed. */
  function Entries(accept: string): seq<string> {
    Split(Remove(accept, ' '), ',')
  }

  /** The header with every space removed, split on commas, read into the
      dict; a malformed parameter anywhere is a `ValueError`. */
  function ParseAccept(accept: string): (r: Result<Header>)
    ensures r.Ok? ==> Valid(r.value)
    ensures r.Err? ==> r.error == ValueError
    ensures r.Err? <==> exists i :: 0 <= i < |Entries(accept)| && ParseEntry(Entries(accept)[i]).Err?
  {
    assert Valid(Header(map[], []));
    Collect(Entries(accept), Header(map[], []))
  }

  /** Some offered media type is accepted. */
  predicate AnyMatch(a: Qualities, offered: seq<string>) {
    exists i :: 0 <= i < |offered| && offered[i] in a
  }

  /** `offered[i]` is the media type to serve: accepted, with a quality no
      other accepted offer beats, and strictly better than every accepted
      offer listed before it. */
  predicate PreferredAt(a: Qualities, offered: seq<string>, i: int) {
    && 0 <= i < |offered| && offered[i] in a
    && (forall j :: 0 <= j < |offered| && offered[j] in a ==> a[offered[j]] <= a[offered[i]])
    && (forall j :: 0 <= j < i && offered[j] in a ==> a[offered[j]] < a[offered[i]])
  }

  /** At most one offer is the preferred one. */
  lemma PreferredUnique(a: Qualities, offered: seq<string>, i: int, k: int)
    requires PreferredAt(a, offered, i) && PreferredAt(a, offered, k)
    ensures i == k
  {
  }

  /** The highest quality among the accepted offers. */
  function BestQuality(a: Qualities, offered: seq<string>): (q: Option<real>)
    ensures q.None? <==> !AnyMatch(a, offered)
    ensures q.Some? ==> exists i :: 0 <= i < |offered| && offered[i] in a && a[offered[i]] == q.value
    ensures q.Some? ==> forall i :: 0 <= i < |offered| && offered[i] in a ==> a[offered[i]] <= q.value
    decreases |offered|
  {
    if |offered| == 0 then None
    else
      var rest := BestQuality(a, offered[1..]);
      assert forall i :: 1 <= i < |offered| ==> offered[1..][i - 1] == offered[i];
      assert AnyMatch(a, offered[1..]) ==> AnyMatch(a, offered) by {
        if AnyMatch(a, offered[1..]) {
          var k :| 0 <= k < |offered[1..]| && offered[1..][k] in a;
          assert offered[k + 1] in a;
        }
      }
      if offered[0] !in a then rest
      else if rest.Some? && rest.value >= a[offered[0]] then rest
      else Some(a[offered[0]])
  }

  /** The first offer accepted with quality `q`. */
  function FirstWith(a: Qualities, offered: seq<string>, q: real): (i: nat)
    requires exists i :: 0 <= i < |offered| && offered[i] in a && a[offered[i]] == q
    ensures i < |offered| && offered[i] in a && a[offered[i]] == q
    ensures forall j :: 0 <= j < i ==> !(offered[j] in a && a[offered[j]] == q)
    decreases |offered|
  {
    if offered[0] in a && a[offered[0]] == q then 0
    else
      var k :| 0 <= k < |offered| && offered[k] in a && a[offered[k]] == q;
      assert offered[1..][k - 1] == offered[k];
      var i := FirstWith(a, offered[1..], q);
      assert forall j :: 1 <= j <= i ==> offered[j] == offered[1..][j - 1];
      1 + i
  }

  /** The choice the header makes among the offers: the first offer at the
      best quality; failing any accepted offer, the first offer when `*` is
      accepted; otherwise none. */
  function Select(a: Qualities, offered: seq<string>): (m: Option<string>)
    ensures m.Some? ==> m.value in offered
    ensures AnyMatch(a, offered) ==> exists i :: PreferredAt(a, offered, i) && m == Some(offered[i])
    ensures !AnyMatch(a, offered) ==> m == if "*" in a && |offered| > 0 then Some(offered[0]) else None
  {
    match BestQuality(a, offered)
    case Some(q) =>
      var i := FirstWith(a, offered, q);
      assert PreferredAt(a, offered, i);
      Some(offered[i])
    case None =>
      if "*" in a && |offered| > 0 then Some(offered[0]) else None
  }

  /** The media type chosen for a header, or the `ValueError` of a
      malformed parameter.  A choice is always one of the offers. */
  function Negotiate(accept: string, offered: seq<string>): (r: Result<Option<string>>)
    ensures r.Ok? && r.value.Some? ==> r.value.value in offered
    ensures r.Err? ==> r.error == ValueError
  {
    var h :- ParseAccept(accept);
    Ok(Select(h.quality, offered))
  }

  /** The preferred offer is the one `Select` returns. */
  lemma SelectPreferred(a: Qualities, offered: seq<string>, i: int)
    requires PreferredAt(a, offered, i)
    ensures Select(a, offered) == Some(offered[i])
  {
    var k :| PreferredAt(a, offered, k) && Select(a, offered) == Some(offered[k]);
    PreferredUnique(a, offered, i, k);
  }

  /** The largest value in a non-empty sequence. */
  function Largest(s: seq<real>): (m: real)
    requires |s| > 0
    ensures m in s
    ensures forall i :: 0 <= i < |s| ==> s[i] <= m
  {
    if |s| == 1 then s[0]
    else
      var m := Largest(s[1..]);
      assert forall i :: 1 <= i < |s| ==> s[i] == s[1..][i - 1];
      if s[0] <= m then m else s[0]
  }

  /** The sequence with every copy of `v` taken out. */
  function Without(s: seq<real>, v: real): (r: seq<real>)
    ensures v !in r
    ensures forall u :: u in s && u != v ==> u in r
    ensures |r| <= |s| && (v in s ==> |r| < |s|)
  {
    if |s| == 0 then []
    else
      var rest := Without(s[1..], v);
      assert forall u :: u in s && u != s[0] ==> u in s[1..];
      if s[0] == v then rest else [s[0]] + rest
  }

  /** The quality of every kept name, in insertion order: the values of
      the dict. */
  function Levels(h: Header): (levels: seq<real>)
    requires Valid(h)
    ensures forall n :: n in h.quality ==> h.quality[n] in levels
  {
    var levels := seq(|h.names|, k requires 0 <= k < |h.names| => h.quality[h.names[k]]);
    assert forall n :: n in h.quality ==> h.quality[n] in levels by {
      forall n | n in h.quality ensures h.quality[n] in levels {
        var k :| 0 <= k < |h.names| && h.names[k] == n;
        assert levels[k] == h.quality[n];
      }
    }
    levels
  }

  /** The first offer accepted at quality `v`, or `|offered|` for none. */
  method ScanLevel(a: Qualities, offered: seq<string>, v: real) returns (i: nat)
    ensures i <= |offered|
    ensures i < |offered| ==> offered[i] in a && a[offered[i]] == v
    ensures forall j :: 0 <= j < i ==> !(offered[j] in a && a[offered[j]] == v)
  {
    i := 0;
    while i < |offered|
      invariant 0 <= i <= |offered|
      invariant forall j :: 0 <= j < i ==> !(offered[j] in a && a[offered[j]] == v)
    {
      if offered[i] in a && a[offered[i]] == v {
        return;
      }
      i := i + 1;
    }
  }

  /** An offer found at the highest level still to visit is the preferred
      one, provided every accepted offer's quality is still to visit. */
  lemma FoundIsPreferred(a: Qualities, offered: seq<string>, levels: seq<real>, i: nat)
    requires |levels| > 0
    requires forall j :: 0 <= j < |offered| && offered[j] in a ==> a[offered[j]] in levels
    requires i < |offered| && offered[i] in a && a[offered[i]] == Largest(levels)
    requires forall j :: 0 <= j < i ==> !(offered[j] in a && a[offered[j]] == Largest(levels))
    ensures Select(a, offered) == Some(offered[i])
  {
    assert PreferredAt(a, offered, i);
    SelectPreferred(a, offered, i);
  }

  /** `accept_media_type` as the code runs it: the distinct quality values
      are visited from the highest down, and at each level the offers are
      scanned in the server's order; with no accepted offer, `*` picks the
      first offer.  It agrees with `Negotiate`. */
  method AcceptMediaType(accept: string, offered: seq<string>) returns (r: Result<Option<string>>)
    ensures r == Negotiate(accept, offered)
  {
    var parsed := ParseAccept(accept);
    if parsed.Err? {
      return Err(parsed.error);
    }
    var a := parsed.value.quality;
    var levels := Levels(parsed.value);
    while |levels| > 0
      invariant forall j :: 0 <= j < |offered| && offered[j] in a ==> a[offered[j]] in levels
      decreases |levels|
    {
      var v := Largest(levels);
      var i := ScanLevel(a, offered, v);
      if i < |offered| {
        FoundIsPreferred(a, offered, levels, i);
        return Ok(Some(offered[i]));
      }
      levels := Without(levels, v);
    }
    assert !AnyMatch(a, offered);
    return if "*" in a && |offered| > 0 then Ok(Some(offered[0])) else Ok(None);
  }

  /** Spaces anywhere in the header make no difference. */
  lemma SpacesIgnored(accept: string, offered: seq<string>)
    ensures Negotiate(accept, offered) == Negotiate(Remove(accept, ' '), offered)
  {
    RemoveAbsent(Remove(accept, ' '), ' ');
  }

  /** A header naming a single media type, with no parameters, accepts
      exactly that type at quality 1. */
  lemma SingleTypeHeader(m: string)
    requires ' ' !in m && ',' !in m && ';' !in m
    ensures ParseAccept(m) == Ok(Header(map[m := 1.0], [m]))
  {
    RemoveAbsent(m, ' ');
    SplitAbsent(m, ',');
    assert Entries(m) == [m];
    var empty := Header(map[], []);
    assert Valid(empty);
    assert ParseEntry(m) == Ok(Some((m, 1.0)));
    var one := Insert(empty, m, 1.0);
    assert one == Header(map[m := 1.0], [m]);
    assert [m][1..] == [];
    assert Collect([], one) == Ok(one);
    assert Collect([m], empty) == Collect([], one);
  }

  /** Asking for one of the offers by name alone selects it. */
  lemma SingleTypeChosen(m: string, offered: seq<string>)
    requires ' ' !in m && ',' !in m && ';' !in m && m in offered
    ensures Negotiate(m, offered) == Ok(Some(m))
  {
    SingleTypeHeader(m);
    var a := map[m := 1.0];
    var i :| 0 <= i < |offered| && offered[i] == m;
    var k := FirstWith(a, offered, 1.0);
    assert PreferredAt(a, offered, k);
    SelectPreferred(a, offered, k);
  }

  /** An entry `name;q=t` whose quality text holds no separator: it is
      kept with the quality `t` gives, or dropped when that is zero. */
  lemma EntryWithQ(name: string, t: string)
    requires ';' !in name && ';' !in t && '=' !in t
    ensures ParseEntry(name + ";q=" + t)
              == if QualityOf(Some(t)) == 0.0 then Ok(None) else Ok(Some((name, QualityOf(Some(t)))))
  {
    var param := "q=" + t;
    assert name + ";q=" + t == name + ";" + param;
    SplitTwo(name, param, ';');
    assert Split(param, '=') == ["q", t] by {
      SplitTwo("q", t, '=');
      assert "q" + "=" + t == param;
    }
    assert LastQ([param]) == Some(t);
  }

  /** An empty `q` is quality 1. */
  lemma EmptyQualityIsOne(name: string)
    requires ';' !in name
    ensures ParseEntry(name + ";q=") == Ok(Some((name, 1.0)))
  {
    EntryWithQ(name, "");
    assert name + ";q=" + "" == name + ";q=";
  }

  /** A `q` of zero drops the entry. */
  lemma ZeroQualityDropped(name: string)
    requires ';' !in name
    ensures ParseEntry(name + ";q=0") == Ok(None)
  {
    EntryWithQ(name, "0");
    assert name + ";q=" + "0" == name + ";q=0";
    ParseFloatRoundTrip(0);
    assert IntToString(0) == "0";
    assert QualityOf(Some("0")) == 0.0;
  }

  /** A `q` that `float()` rejects counts as zero and drops the entry. */
  lemma UnreadableQualityDropped(name: string)
    requires ';' !in name
    ensures ParseEntry(name + ";q=x") == Ok(None)
  {
    EntryWithQ(name, "x");
    assert name + ";q=" + "x" == name + ";q=x";
    assert ParseFloat("x") == None;
    assert QualityOf(Some("x")) == 0.0;
  }
}

=== FILE: numbers.dfy ===
/** Python's numeric literal parsing (`int(s)`, `float(s)`) and the three
    real-to-integer conversions the interpreter uses: `round` (half to
    even), `math.ceil` and `int()` (toward zero).  Numbers are exact reals;
    binary floating point is not modelled. */
module Numbers {
  import opened Outcome
  import opened Text

  predicate IsDigit(c: char) {
    '0' <= c <= '9'
  }

  predicate AllDigits(s: string) {
    forall i :: 0 <= i < |s| ==> IsDigit(s[i])
  }

  function DigitValue(c: char): nat
    requires IsDigit(c)
  {
    (c as int) - ('0' as int)
  }

  function DigitChar(d: nat): (c: char)
    requires d < 10
    ensures IsDigit(c) && DigitValue(c) == d
  {
    (('0' as int) + d) as char
  }

  /** The value of a string of decimal digits, most significant first. */
  function DigitsValue(ds: string): nat
    requires AllDigits(ds)
    decreases |ds|
  {
    if |ds| == 0 then 0 else DigitsValue(ds[..|ds| - 1]) * 10 + DigitValue(ds[|ds| - 1])
  }

  function Pow10(n: nat): (p: nat)
    ensures p >= 1
  {
    if n == 0 then 1 else 10 * Pow10(n - 1)
  }

  /** An integer literal: an optional sign followed by one or more digits. */
  predicate IsIntLiteral(s: string) {
    if |s| > 0 && (s[0] == '-' || s[0] == '+') then |s| > 1 && AllDigits(s[1..])
    else |s| > 0 && AllDigits(s)
  }

  /** `int(s)`; `None` stands for the `ValueError` Python raises. */
  function ParseInt(s: string): (r: Option<int>)
    ensures r.Some? <==> IsIntLiteral(s)
    ensures r.Some? && s[0] == '-' ==> r.value <= 0
    ensures r.Some? && s[0] != '-' ==> r.value >= 0
  {
    if |s| > 0 && (s[0] == '-' || s[0] == '+') then
      var u := s[1..];
      if |u| > 0 && AllDigits(u) then
        var v: int := DigitsValue(u);
        Some(if s[0] == '-' then -v else v)
      else None
    else if |s| > 0 && AllDigits(s) then Some(DigitsValue(s))
    else None
  }

  /** An unsigned decimal: digits, optionally with one `.`, with at least
      one digit in all (`5`, `5.`, `.5`, `5.25`). */
  function ParseUnsignedDecimal(s: string): (r: Option<real>)
    ensures r.Some? ==> r.value >= 0.0
    ensures r.Some? ==> |s| > 0 && (s[0] == '.' || IsDigit(s[0]))
  {
    var parts := Split(s, '.');
    if |parts| == 1 then
      if |s| > 0 && AllDigits(s) then Some(DigitsValue(s) as real) else None
    else if |parts| == 2 && AllDigits(parts[0]) && AllDigits(parts[1]) && |parts[0]| + |parts[1]| > 0 then
      Some(DigitsValue(parts[0]) as real + DigitsValue(parts[1]) as real / Pow10(|parts[1]|) as real)
    else None
  }

  /** `float(s)` for decimal literals with an optional sign; `None` stands
      for the `ValueError` Python raises. */
  function ParseFloat(s: string): (r: Option<real>)
    ensures r.Some? ==> |s| > 0 && (s[0] == '-' || s[0] == '+' || s[0] == '.' || IsDigit(s[0]))
    ensures r.Some? && s[0] == '-' ==> r.value <= 0.0
    ensures r.Some? && s[0] != '-' ==> r.value >= 0.0
  {
    if |s| > 0 && (s[0] == '-' || s[0] == '+') then
      match ParseUnsignedDecimal(s[1..])
      case None => None
      case Some(v) => Some(if s[0] == '-' then -v else v)
    else ParseUnsignedDecimal(s)
  }

  /** Every text `int()` accepts, `float()` accepts with the same value. */
  lemma FloatAcceptsInt(s: string)
    requires ParseInt(s).Some?
    ensures ParseFloat(s) == Some(ParseInt(s).value as real)
  {
    var u := if s[0] == '-' || s[0] == '+' then s[1..] else s;
    assert '.' !in u;
    SplitAbsent(u, '.');
  }

  /** Decimal digits of a natural number, as Python's `str(n)`. */
  function NatToString(n: nat): (s: string)
    ensures |s| > 0 && AllDigits(s)
    decreases n
  {
    if n < 10 then [DigitChar(n)] else NatToString(n / 10) + [DigitChar(n % 10)]
  }

  /** Python's `str(n)` for any integer. */
  function IntToString(n: int): string {
    if n < 0 then "-" + NatToString(-n) else NatToString(n)
  }

  /** `str(n)` is digits after an optional minus sign, ending in a digit. */
  lemma IntText(n: int)
    ensures var d := IntToString(n);
            && |d| > 0
            && (forall i :: 0 <= i < |d| ==> IsDigit(d[i]) || d[i] == '-')
            && IsDigit(d[|d| - 1])
            && (IsDigit(d[0]) || d[0] == '-')
  {
    if n < 0 {
      var u := NatToString(-n);
      assert IntToString(n) == "-" + u;
      assert forall i :: 1 <= i < |u| + 1 ==> IntToString(n)[i] == u[i - 1];
    }
  }

  lemma {:induction false} DigitsOfNat(n: nat)
    ensures DigitsValue(NatToString(n)) == n
    decreases n
  {
    var s := NatToString(n);
    if n >= 10 {
      DigitsOfNat(n / 10);
      assert s[..|s| - 1] == NatToString(n / 10);
    }
  }

  /** `int(str(n)) == n`. */
  lemma ParseIntRoundTrip(n: int)
    ensures ParseInt(IntToString(n)) == Some(n)
  {
    if n < 0 {
      DigitsOfNat(-n);
      assert IntToString(n)[1..] == NatToString(-n);
    } else {
      DigitsOfNat(n);
    }
  }

  /** `float(str(n)) == n`. */
  lemma ParseFloatRoundTrip(n: int)
    ensures ParseFloat(IntToString(n)) == Some(n as real)
  {
    ParseIntRoundTrip(n);
    FloatAcceptsInt(IntToString(n));
  }

  /** A text that starts with anything but a sign or a digit is not an
      integer literal. */
  lemma ParseIntRejectsHead(s: string)
    requires |s| > 0 && !IsDigit(s[0]) && s[0] != '-' && s[0] != '+'
    ensures ParseInt(s) == None
  {
    assert !AllDigits(s);
  }

  /** `math.ceil`. */
  function Ceil(x: real): (r: int)
    ensures r as real - 1.0 < x <= r as real
  {
    -((-x).Floor)
  }

  /** `int(x)` on a float: truncation toward zero. */
  function Trunc(x: real): (r: int)
    ensures x >= 0.0 ==> 0 <= r && r as real <= x < r as real + 1.0
    ensures x < 0.0 ==> r <= 0 && r as real - 1.0 < x <= r as real
  {
    if x >= 0.0 then x.Floor else -((-x).Floor)
  }

  /** Python's `round(x)`: the nearest integer, ties to the even one. */
  function Round(x: real): (r: int)
    ensures x - 0.5 <= r as real <= x + 0.5
    ensures (r as real - x == 0.5 || x - r as real == 0.5) ==> r % 2 == 0
  {
    var f := x.Floor;
    var d := x - f as real;
    if d < 0.5 then f
    else if d > 0.5 then f + 1
    else if f % 2 == 0 then f else f + 1
  }

  /** Rounding never leaves an integer bound: a value at most `n` rounds to
      at most `n`. */
  lemma RoundBelowInt(x: real, n: int)
    requires x <= n as real
    ensures Round(x) <= n
  {
  }

  /** A ceiling never leaves an integer bound either. */
  lemma CeilBelowInt(x: real, n: int)
    requires x <= n as real
    ensures Ceil(x) <= n
  {
  }

  /** An integer is its own round, ceiling and truncation. */
  lemma IntegralFixed(n: int)
    ensures Round(n as real) == n && Ceil(n as real) == n && Trunc(n as real) == n
  {
  }

  /** `x` holds a whole number. */
  predicate IsIntegral(x: real) {
    x == x.Floor as real
  }
}

=== FILE: outcome.dfy ===
/** Optional values, request errors and the result type shared by every
    parser of the IIIF request interpreter. */
module Outcome {

  /** Python's `None` or a present value. */
  datatype Option<+T> = None | Some(value: T) {
    predicate IsFailure() {
      None?
    }

    function PropagateFailure<U>(): Option<U>
      requires None?
    {
      None
    }

    function Extract(): T
      requires Some?
    {
      value
    }
  }

  /** The ways a request can fail.  The first four are raised as an HTTP 400
      `HTTPException`; `ValueError` is Python's uncaught exception from
      `int()`/`float()` or from unpacking the wrong number of values, which
      the web framework turns into a server error; `MaxHeightWithoutMaxWidth`
      is the settings check, which runs when the settings object is built at
      import, so the server never starts; the last two are the validation
      failures of the response models, raised while a request is answered. */
  datatype Error =
    | InvalidRegion
    | InvalidSize
    | InvalidRotation
    | UnsupportedBandCount
    | ValueError
    | MaxHeightWithoutMaxWidth
    | MissingField
    | MissingWidthKey

  datatype Result<+T> = Ok(value: T) | Err(error: Error) {
    predicate IsFailure() {
      Err?
    }

    function PropagateFailure<U>(): Result<U>
      requires Err?
    {
      Err(error)
    }

    function Extract(): T
      requires Ok?
    {
      value
    }
  }

  /** The HTTP status a request-time failure produces: the `HTTPException`s
      carry 400, anything uncaught becomes a 500.  The settings failure is not
      a request-time failure: it stops the server from starting, and the 500
      given for it here answers no request. */
  function Status(e: Error): (code: nat)
    ensures code == 400 <==> e.InvalidRegion? || e.InvalidSize? || e.InvalidRotation? || e.UnsupportedBandCount?
    ensures code != 400 ==> code == 500
  {
    match e
    case InvalidRegion => 400
    case InvalidSize => 400
    case InvalidRotation => 400
    case UnsupportedBandCount => 400
    case _ => 500
  }

  /** Python truthiness of an optional integer: `None` and `0` are false. */
  predicate Truthy(o: Option<int>) {
    o.Some? && o.value != 0
  }
}

=== FILE: raster.dfy ===
/** The pixel side of a request: the rotation wrapper (mirror, the
    zero-angle fast path, the canvas a warp writes into) and the `gray` and
    `bitonal` qualities of section 4.4 of the IIIF Image API 3.0.  The warp
    itself is a parameter. */
module Raster {
  import opened Outcome

  /** An 8-bit sample. */
  type Byte = x: int | 0 <= x < 256

  /** Rows of samples, top row first. */
  type Band = seq<seq<Byte>>

  /** An image: its bands, one mask shared by all bands (`true` where a pixel
      is masked out), the band names, and its size in pixels. */
  datatype Image = Image(bands: seq<Band>, mask: seq<seq<bool>>, bandNames: seq<string>, height: nat, width: nat)

  /** `height` rows of `width` entries. */
  predicate IsGrid<T>(g: seq<seq<T>>, height: nat, width: nat) {
    |g| == height && forall r :: 0 <= r < height ==> |g[r]| == width
  }

  /** The array shapes agree: every band and the mask are `height` by
      `width`, and there is one name per band. */
  predicate WellFormed(img: Image) {
    && IsGrid(img.mask, img.height, img.width)
    && (forall b :: 0 <= b < |img.bands| ==> IsGrid(img.bands[b], img.height, img.width))
    && |img.bandNames| == |img.bands|
  }

  /** The grid whose entry at `(r, c)` is `f(r, c)`. */
  function Tabulate<T>(height: nat, width: nat, f: (nat, nat) -> T): (g: seq<seq<T>>)
    ensures IsGrid(g, height, width)
    ensures forall r, c :: 0 <= r < height && 0 <= c < width ==> g[r][c] == f(r, c)
  {
    seq(height, r requires 0 <= r < height => seq(width, c requires 0 <= c < width => f(r, c)))
  }

  /** A row read right to left. */
  function FlipRow<T>(row: seq<T>): (f: seq<T>)
    ensures |f| == |row|
    ensures forall c :: 0 <= c < |row| ==> f[c] == row[|row| - 1 - c]
  {
    seq(|row|, c requires 0 <= c < |row| => row[|row| - 1 - c])
  }

  /** Every row of a grid read right to left. */
  function FlipGrid<T>(g: seq<seq<T>>): (f: seq<seq<T>>)
    ensures |f| == |g|
    ensures forall r :: 0 <= r < |g| ==> f[r] == FlipRow(g[r])
  {
    seq(|g|, r requires 0 <= r < |g| => FlipRow(g[r]))
  }

  /** `numpy.flip(array, axis=2)`: every band and the mask reversed left to
      right; sizes and band names are kept. */
  function Mirror(img: Image): (m: Image)
    ensures m.height == img.height && m.width == img.width && m.bandNames == img.bandNames
    ensures |m.bands| == |img.bands|
    ensures WellFormed(img) ==> WellFormed(m)
    ensures WellFormed(img) ==>
              forall b, r, c :: 0 <= b < |img.bands| && 0 <= r < img.height && 0 <= c < img.width ==>
                m.bands[b][r][c] == img.bands[b][r][img.width - 1 - c]
    ensures WellFormed(img) ==>
              forall r, c :: 0 <= r < img.height && 0 <= c < img.width ==>
                m.mask[r][c] == img.mask[r][img.width - 1 - c]
  {
    img.(bands := seq(|img.bands|, b requires 0 <= b < |img.bands| => FlipGrid(img.bands[b])),
         mask := FlipGrid(img.mask))
  }

  lemma FlipRowTwice<T>(row: seq<T>)
    ensures FlipRow(FlipRow(row)) == row
  {
  }

  lemma FlipGridTwice<T>(g: seq<seq<T>>)
    ensures FlipGrid(FlipGrid(g)) == g
  {
    forall r | 0 <= r < |g| ensures FlipGrid(FlipGrid(g))[r] == g[r] {
      FlipRowTwice(g[r]);
    }
  }

  /** Mirroring twice gives the image back. */
  lemma MirrorInvolution(img: Image)
    ensures Mirror(Mirror(img)) == img
  {
    var m := Mirror(Mirror(img));
    forall b | 0 <= b < |img.bands| ensures m.bands[b] == img.bands[b] {
      FlipGridTwice(img.bands[b]);
    }
    FlipGridTwice(img.mask);
  }

  /** What the resampling step produces for a non-zero angle: the canvas
      size when the canvas is expanded to hold the whole rotated image (from
      the rotated corners), and, for the image it is given, the sample
      written at each band, row and column and whether that pixel ends up
      masked (pixels the rotated image does not cover are). */
  datatype Warp = Warp(expanded: (nat, nat), sample: (Image, nat, nat, nat) -> Byte, masked: (Image, nat, nat) -> bool)

  /** `rotate(img, angle, expand, mirrored)`: the mirror is taken first and
      is the image everything after works on; an angle of zero returns that
      image as it is; any other angle writes the warp of it into a canvas of
      the original size, or of the expanded size when `expand` is set.  Band
      count and names are kept. */
  function Rotate(img: Image, angle: real, expand: bool, mirrored: bool, warp: Warp): (out: Image)
    ensures angle == 0.0 && !mirrored ==> out == img
    ensures angle == 0.0 && mirrored ==> out == Mirror(img)
    ensures |out.bands| == |img.bands| && out.bandNames == img.bandNames
    ensures angle != 0.0 && !expand ==> out.height == img.height && out.width == img.width
    ensures angle != 0.0 && expand ==> (out.height, out.width) == warp.expanded
    ensures WellFormed(img) ==> WellFormed(out)
    // the warp reads the mirrored image when mirroring is asked for
    ensures angle != 0.0 ==>
              && (forall b :: 0 <= b < |img.bands| ==> IsGrid(out.bands[b], out.height, out.width))
              && (forall b, r, c :: 0 <= b < |img.bands| && 0 <= r < out.height && 0 <= c < out.width ==>
                    out.bands[b][r][c] == warp.sample(if mirrored then Mirror(img) else img, b, r, c))
              && IsGrid(out.mask, out.height, out.width)
              && (forall r, c :: 0 <= r < out.height && 0 <= c < out.width ==>
                    out.mask[r][c] == warp.masked(if mirrored then Mirror(img) else img, r, c))
  {
    var src := if mirrored then Mirror(img) else img;
    if angle == 0.0 then src
    else
      var size := if expand then warp.expanded else (img.height, img.width);
      Image(seq(|img.bands|, b requires 0 <= b < |img.bands| => Tabulate(size.0, size.1, (r, c) => warp.sample(src, b, r, c))),
            Tabulate(size.0, size.1, (r, c) => warp.masked(src, r, c)),
            img.bandNames, size.0, size.1)
  }

  /** Mirroring then rotating is rotating the mirror image, at every angle. */
  lemma MirrorThenRotate(img: Image, angle: real, expand: bool, warp: Warp)
    ensures Rotate(img, angle, expand, true, warp) == Rotate(Mirror(img), angle, expand, false, warp)
  {
  }

  /** Mirroring with no rotation, twice over, gives the image back. */
  lemma MirrorRotateTwice(img: Image, expand: bool, warp: Warp)
    ensures Rotate(Rotate(img, 0.0, expand, true, warp), 0.0, expand, true, warp) == img
  {
    MirrorInvolution(img);
  }

  /** ITU-R BT.601 luma as `image_to_grayscale` evidently intends it: the
      whole part of the weighted mean `0.299 r + 0.587 g + 0.114 b`.  The
      code as written wraps its products first (`LumaAsWritten`). */
  function Luma(r: Byte, g: Byte, b: Byte): (y: Byte)
    ensures 1000 * y <= 299 * r + 587 * g + 114 * b < 1000 * (y + 1)
  {
    (299 * r + 587 * g + 114 * b) / 1000
  }

  /** The weights add up to one: a neutral gray keeps its value. */
  lemma LumaNeutral(v: Byte)
    ensures Luma(v, v, v) == v
  {
  }

  /** More of any channel never gives a darker luma. */
  lemma LumaMonotone(r: Byte, g: Byte, b: Byte, r': Byte, g': Byte, b': Byte)
    requires r <= r' && g <= g' && b <= b'
    ensures Luma(r, g, b) <= Luma(r', g', b')
  {
  }

  /** `r * 299 / 1000 + g * 587 / 1000 + b * 114 / 1000` as written, on
      `uint8` bands under NumPy 1.x value-based casting: `band * 299` and
      `band * 587` are `uint16` and keep their low 16 bits, `band * 114`
      stays `uint8` and keeps its low 8 bits; the three quotients are added
      and `astype("uint8")` cuts off the fraction.  Where no product wraps,
      this is the intended luma. */
  function LumaAsWritten(r: Byte, g: Byte, b: Byte): (y: Byte)
    ensures y <= 131
    ensures 299 * r < 65536 && 587 * g < 65536 && 114 * b < 256 ==> y == Luma(r, g, b)
  {
    (Wrap(299 * r, 65536) + Wrap(587 * g, 65536) + Wrap(114 * b, 256)) / 1000
  }

  /** Unsigned fixed-width arithmetic: the value of `x` modulo `m`, which is
      `x` itself when it fits. */
  function Wrap(x: nat, m: nat): (w: nat)
    requires m > 0
    ensures w < m && w + m * (x / m) == x
    ensures x < m ==> w == x
  {
    x % m
  }

  /** As written, white comes out nearly black: its products 76245,
      149685 and 29070 wrap to 10709, 18613 and 142, giving 29. */
  lemma WhiteWraps()
    ensures LumaAsWritten(255, 255, 255) == 29 && Luma(255, 255, 255) == 255
  {
    assert Wrap(76245, 65536) == 10709 && Wrap(149685, 65536) == 18613 && Wrap(29070, 256) == 142;
  }

  /** As written, mid gray 128 gives 47: `128 * 587 = 75136` wraps to 9600
      and `128 * 114 = 14592` to 0. */
  lemma MidGrayWraps()
    ensures LumaAsWritten(128, 128, 128) == 47 && Luma(128, 128, 128) == 128
  {
    assert Wrap(38272, 65536) == 38272 && Wrap(75136, 65536) == 9600 && Wrap(14592, 256) == 0;
  }

  /** As written, more red can give a darker luma: `220 * 299 = 65780`
      wraps to 244. */
  lemma BrighterRedDarker()
    ensures LumaAsWritten(219, 0, 0) == 65 && LumaAsWritten(220, 0, 0) == 0
  {
  }

  /** `image_to_grayscale`: a one-band image is returned as it is; three
      bands become one band `b1` of luma values under the same mask; any
      other band count is a 400. */
  function Grayscale(img: Image): (out: Result<Image>)
    requires WellFormed(img)
    ensures out.Ok? <==> |img.bands| == 1 || |img.bands| == 3
    ensures out.Err? ==> out.error == UnsupportedBandCount
    ensures |img.bands| == 1 ==> out == Ok(img)
    ensures out.Ok? ==> WellFormed(out.value) && |out.value.bands| == 1
                        && out.value.height == img.height && out.value.width == img.width
                        && out.value.mask == img.mask
    ensures |img.bands| == 3 ==>
              out.Ok? && out.value.bandNames == ["b1"]
              && forall r, c :: 0 <= r < img.height && 0 <= c < img.width ==>
                   out.value.bands[0][r][c]
                     == Luma(img.bands[0][r][c], img.bands[1][r][c], img.bands[2][r][c])
  {
    if |img.bands| == 1 then Ok(img)
    else if |img.bands| == 3 then
      Ok(Image([LumaBand(img)], img.mask, ["b1"], img.height, img.width))
    else Err(UnsupportedBandCount)
  }

  /** The luma of the three bands, pixel by pixel. */
  function LumaBand(img: Image): (g: Band)
    requires WellFormed(img) && |img.bands| == 3
    ensures IsGrid(g, img.height, img.width)
    ensures forall r, c :: 0 <= r < img.height && 0 <= c < img.width ==>
              g[r][c] == Luma(img.bands[0][r][c], img.bands[1][r][c], img.bands[2][r][c])
  {
    var red, green, blue := img.bands[0], img.bands[1], img.bands[2];
    assert IsGrid(red, img.height, img.width) && IsGrid(green, img.height, img.width)
           && IsGrid(blue, img.height, img.width);
    seq(img.height, r requires 0 <= r < img.height =>
      seq(img.width, c requires 0 <= c < img.width => Luma(red[r][c], green[r][c], blue[r][c])))
  }

  /** Converting to gray twice is converting once. */
  lemma GrayscaleIdempotent(img: Image)
    requires WellFormed(img) && Grayscale(img).Ok?
    ensures Grayscale(Grayscale(img).value) == Grayscale(img)
  {
  }

  /** `numpy.where(v > 127, 255, 0)`. */
  function Threshold(v: Byte): (t: Byte)
    ensures t == 0 || t == 255
    ensures t == 255 <==> v > 127
  {
    if v > 127 then 255 else 0
  }

  /** `image_to_bitonal`: gray first, then each sample becomes 255 above 127
      and 0 otherwise, in one band `b1`; the result carries no mask. */
  function Bitonal(img: Image): (out: Result<Image>)
    requires WellFormed(img)
    ensures out.Ok? <==> Grayscale(img).Ok?
    ensures out.Err? ==> out.error == UnsupportedBandCount
    ensures out.Ok? ==> WellFormed(out.value) && |out.value.bands| == 1 && out.value.bandNames == ["b1"]
                        && out.value.height == img.height && out.value.width == img.width
    ensures out.Ok? ==>
              forall r, c :: 0 <= r < img.height && 0 <= c < img.width ==>
                && (out.value.bands[0][r][c] == 0 || out.value.bands[0][r][c] == 255)
                && (out.value.bands[0][r][c] == 255 <==> Grayscale(img).value.bands[0][r][c] > 127)
                && !out.value.mask[r][c]
  {
    var gray :- Grayscale(img);
    Ok(Image([ThresholdBand(gray.bands[0], gray.height, gray.width)],
             Tabulate(gray.height, gray.width, (r, c) => false), ["b1"], gray.height, gray.width))
  }

  /** Every sample of a band thresholded. */
  function ThresholdBand(band: Band, height: nat, width: nat): (t: Band)
    requires IsGrid(band, height, width)
    ensures IsGrid(t, height, width)
    ensures forall r, c :: 0 <= r < height && 0 <= c < width ==> t[r][c] == Threshold(band[r][c])
  {
    seq(height, r requires 0 <= r < height =>
      seq(width, c requires 0 <= c < width => Threshold(band[r][c])))
  }

  /** A bitonal image is its own bitonal conversion. */
  lemma BitonalIdempotent(img: Image)
    requires WellFormed(img) && Bitonal(img).Ok?
    ensures Bitonal(Bitonal(img).value) == Bitonal(img)
  {
    var once := Bitonal(img).value;
    var twice := Bitonal(once).value;
    assert twice.bands[0] == once.bands[0] by {
      forall r | 0 <= r < once.height ensures twice.bands[0][r] == once.bands[0][r] {
        assert |twice.bands[0][r]| == |once.bands[0][r]|;
      }
    }
    assert twice.mask == once.mask;
  }
}

=== FILE: region.dfy ===
/** The `region` path segment (section 4.1 of the IIIF Image API 3.0):
    `full`, `square`, `pct:x,y,w,h` or `x,y,w,h`, read against the source
    image's width and height into a crop window. */
module Region {
  import opened Outcome
  import opened Text
  import opened Numbers

  /** A crop rectangle in source pixels (origin top-left, y down).  Offsets
      may be fractional or negative in the absolute form. */
  datatype Window = Window(colOff: real, rowOff: real, width: real, height: real)

  /** `_percent(x, y)`: `x` percent of `y`. */
  function Percent(x: real, y: real): real {
    (x / 100.0) * y
  }

  /** `list(map(float, parts))`: every piece parsed, or `None` for the
      first `ValueError`. */
  function ParseFloats(parts: seq<string>): (r: Option<seq<real>>)
    ensures r.Some? <==> forall i :: 0 <= i < |parts| ==> ParseFloat(parts[i]).Some?
    ensures r.Some? ==> |r.value| == |parts|
    ensures r.Some? ==> forall i :: 0 <= i < |parts| ==> ParseFloat(parts[i]) == Some(r.value[i])
  {
    if forall i :: 0 <= i < |parts| ==> ParseFloat(parts[i]).Some? then
      Some(seq(|parts|, i requires 0 <= i < |parts| => ParseFloat(parts[i]).value))
    else None
  }

  /** The far edge is cropped at the image edge rather than padded: a
      length that runs past `dim` is cut back to end exactly there. */
  function ClipFarEdge(off: real, len: real, dim: real): (r: real)
    ensures off + r <= dim
    ensures off + len <= dim ==> r == len
    ensures off + len > dim ==> off + r == dim
  {
    if len + off > dim then dim - off else len
  }

  /** The window `x,y,w,h` with both far edges clipped. */
  function ClippedWindow(x: real, y: real, w: real, h: real, width: real, height: real): (win: Window)
    ensures win.colOff == x && win.rowOff == y
    ensures win.colOff + win.width <= width && win.rowOff + win.height <= height
  {
    Window(x, y, ClipFarEdge(x, w, width), ClipFarEdge(y, h, height))
  }

  /** The centred square of side `min(width, height)`. */
  function SquareWindow(width: nat, height: nat): (win: Window)
    ensures win.width == win.height
    ensures win.width == (if width <= height then width else height) as real
    ensures win.colOff >= 0.0 && win.rowOff >= 0.0
    ensures win.colOff + win.width <= width as real && win.rowOff + win.height <= height as real
    // centred: whole-pixel offsets, each margin before the square at most
    // one pixel narrower than the margin after it
    ensures IsIntegral(win.colOff) && IsIntegral(win.rowOff)
    ensures win.colOff <= width as real - (win.colOff + win.width) <= win.colOff + 1.0
    ensures win.rowOff <= height as real - (win.rowOff + win.height) <= win.rowOff + 1.0
  {
    var side := if width <= height then width else height;
    var xOff := (width - side) / 2;
    var yOff := (height - side) / 2;
    Window(xOff as real, yOff as real, side as real, side as real)
  }

  /** The percentages `x,y,w,h` turned into pixels: each rounded, half to
      even, then the far edges clipped. */
  function PctWindow(v: seq<real>, width: nat, height: nat): Window
    requires |v| == 4
  {
    var W, H := width as real, height as real;
    ClippedWindow(Round(Percent(W, v[0])) as real, Round(Percent(H, v[1])) as real,
                  Round(Percent(W, v[2])) as real, Round(Percent(H, v[3])) as real, W, H)
  }

  /** Some percentage is above 100 or below 0. */
  predicate PctOutOfRange(v: seq<real>) {
    exists i :: 0 <= i < |v| && (v[i] > 100.0 || v[i] < 0.0)
  }

  /** The window a region token names, before the final validity check. */
  function RegionWindow(region: string, width: nat, height: nat): Result<Window> {
    var W, H := width as real, height as real;
    if region == "full" then Ok(Window(0.0, 0.0, W, H))
    else if region == "square" then Ok(SquareWindow(width, height))
    else if StartsWith(region, "pct:") then
      match ParseFloats(Split(ReplaceAll(region, "pct:"), ','))
      case None => Err(ValueError)
      case Some(v) =>
        if |v| != 4 then Err(ValueError)
        else if PctOutOfRange(v) then Err(InvalidRegion)
        else Ok(PctWindow(v, width, height))
    else if |Split(region, ',')| == 4 then
      match ParseFloats(Split(region, ','))
      case None => Err(ValueError)
      case Some(v) => Ok(ClippedWindow(v[0], v[1], v[2], v[3], W, H))
    else Err(InvalidRegion)
  }

  /** A window the server accepts: not empty, and not starting past the
      far edges. */
  predicate Acceptable(win: Window, width: nat, height: nat) {
    win.width > 0.0 && win.height > 0.0 && win.colOff <= width as real && win.rowOff <= height as real
  }

  /** The region segment read against a `width` x `height` source.  Every
      accepted window is non-empty, starts inside the image and ends at or
      before its far edges; the `full` and `square` keywords give the whole
      image and its centred square; a token of no known form is a 400. */
  function ParseRegion(region: string, width: nat, height: nat): (r: Result<Window>)
    ensures r.Ok? ==> Acceptable(r.value, width, height)
    ensures r.Ok? ==> r.value.colOff + r.value.width <= width as real
                      && r.value.rowOff + r.value.height <= height as real
    ensures region == "full" ==>
              r == if width > 0 && height > 0 then Ok(Window(0.0, 0.0, width as real, height as real))
                   else Err(InvalidRegion)
    ensures region == "square" && width > 0 && height > 0 ==>
              r.Ok? && r.value.width == r.value.height
              && r.value.width == (if width <= height then width else height) as real
              && var m := if width <= height then width else height;
                 r.value.colOff == ((width - m) / 2) as real && r.value.rowOff == ((height - m) / 2) as real
    ensures r == Err(ValueError) ==> StartsWith(region, "pct:") || Count(region, ',') == 3
    ensures region != "full" && region != "square" && !StartsWith(region, "pct:") && Count(region, ',') != 3
            ==> r == Err(InvalidRegion)
  {
    var win :- RegionWindow(region, width, height);
    if Acceptable(win, width, height) then Ok(win) else Err(InvalidRegion)
  }

  /** Percentages: any value above 100 or below 0 is a 400; in range, each
      is `round(dim / 100 * v)` with the far edges clipped. */
  lemma PctRegion(region: string, width: nat, height: nat, v: seq<real>)
    requires StartsWith(region, "pct:")
    requires ParseFloats(Split(ReplaceAll(region, "pct:"), ',')) == Some(v) && |v| == 4
    ensures PctOutOfRange(v) ==> ParseRegion(region, width, height) == Err(InvalidRegion)
    ensures !PctOutOfRange(v) && Acceptable(PctWindow(v, width, height), width, height) ==>
              ParseRegion(region, width, height) == Ok(PctWindow(v, width, height))
  {
    assert region != "full" && region != "square" by {
      assert region[..4] == "pct:";
    }
  }

  /** A region written as four comma-free numbers is read as the absolute
      form, with its far edges clipped. */
  lemma AbsoluteWindow(parts: seq<string>, x: real, y: real, w: real, h: real, width: nat, height: nat)
    requires |parts| == 4 && forall i :: 0 <= i < 4 ==> ',' !in parts[i]
    requires ParseFloat(parts[0]) == Some(x) && ParseFloat(parts[1]) == Some(y)
    requires ParseFloat(parts[2]) == Some(w) && ParseFloat(parts[3]) == Some(h)
    ensures RegionWindow(Join(parts, ','), width, height)
              == Ok(ClippedWindow(x, y, w, h, width as real, height as real))
  {
    var region := Join(parts, ',');
    SplitJoin(parts, ',');
    JoinHead(parts, ',');
    assert region[0] != 'p' && region[0] != 'f' && region[0] != 's';
    assert !StartsWith(region, "pct:");
    assert region != "full" && region != "square";
    ParseFloatsFour(parts, x, y, w, h);
  }

  lemma ParseFloatsFour(parts: seq<string>, x: real, y: real, w: real, h: real)
    requires |parts| == 4
    requires ParseFloat(parts[0]) == Some(x) && ParseFloat(parts[1]) == Some(y)
    requires ParseFloat(parts[2]) == Some(w) && ParseFloat(parts[3]) == Some(h)
    ensures ParseFloats(parts) == Some([x, y, w, h])
  {
    var v := [x, y, w, h];
    forall i | 0 <= i < 4 ensures ParseFloat(parts[i]) == Some(v[i]) {
      if i == 0 {} else if i == 1 {} else if i == 2 {} else {}
    }
    ParseFloatsAll(parts, v);
  }

  /** Pieces that each parse give the list of their values. */
  lemma ParseFloatsAll(parts: seq<string>, v: seq<real>)
    requires |parts| == |v| && forall i :: 0 <= i < |parts| ==> ParseFloat(parts[i]) == Some(v[i])
    ensures ParseFloats(parts) == Some(v)
  {
    assert ParseFloats(parts).Some?;
    var r := ParseFloats(parts).value;
    forall i | 0 <= i < |v| ensures r[i] == v[i] {
      assert ParseFloat(parts[i]) == Some(r[i]);
    }
    assert r == v;
  }

  /** An absolute region written as four numbers that lies inside the image
      comes back exactly as written. */
  lemma AbsoluteInsideUnchanged(parts: seq<string>, x: real, y: real, w: real, h: real, width: nat, height: nat)
    requires |parts| == 4 && forall i :: 0 <= i < 4 ==> ',' !in parts[i]
    requires ParseFloat(parts[0]) == Some(x) && ParseFloat(parts[1]) == Some(y)
    requires ParseFloat(parts[2]) == Some(w) && ParseFloat(parts[3]) == Some(h)
    requires w > 0.0 && h > 0.0 && x + w <= width as real && y + h <= height as real
    ensures ParseRegion(Join(parts, ','), width, height) == Ok(Window(x, y, w, h))
  {
    AbsoluteWindow(parts, x, y, w, h, width, height);
  }

  /** An absolute region that runs past the far edges is cropped to them. */
  lemma AbsoluteClippedToImage(parts: seq<string>, x: real, y: real, w: real, h: real, width: nat, height: nat)
    requires |parts| == 4 && forall i :: 0 <= i < 4 ==> ',' !in parts[i]
    requires ParseFloat(parts[0]) == Some(x) && ParseFloat(parts[1]) == Some(y)
    requires ParseFloat(parts[2]) == Some(w) && ParseFloat(parts[3]) == Some(h)
    requires x < width as real && y < height as real
    requires x + w > width as real && y + h > height as real
    ensures ParseRegion(Join(parts, ','), width, height)
              == Ok(Window(x, y, width as real - x, height as real - y))
  {
    AbsoluteWindow(parts, x, y, w, h, width, height);
    var win := ClippedWindow(x, y, w, h, width as real, height as real);
    assert win.width == width as real - x && win.height == height as real - y;
    assert win == Window(x, y, width as real - x, height as real - y);
    assert Acceptable(win, width, height);
    assert RegionWindow(Join(parts, ','), width, height) == Ok(win);
  }

  lemma JoinHead(parts: seq<string>, sep: char)
    requires |parts| >= 1 && |parts[0]| > 0
    ensures |Join(parts, sep)| > 0 && Join(parts, sep)[0] == parts[0][0]
  {
  }
}

=== FILE: request.dfy ===
/** The two IIIF endpoints put together: the image request
    `{region}/{size}/{rotation}/{quality}.{format}` read into a plan and
    applied to the pixels that were read, and the information request with
    its media-type choice. */
module Endpoint {
  import opened Outcome
  import opened Settings
  import Region
  import Size
  import Rotation
  import Raster
  import Negotiation
  import Models
  import Text
  import Numbers

  /** The `quality` segment (section 4.4 of the IIIF Image API 3.0). */
  datatype Quality = Default | Color | Gray | Bitonal

  /** What the path segments ask for: the crop window, the output size in
      whole pixels, and the rotation. */
  datatype Plan = Plan(window: Region.Window, width: nat, height: nat, rotation: Rotation.Spec)

  /** The image request's segments read in the order the handler reads
      them: region, then size against the region's size, then rotation.  The
      first failure is the one reported. */
  function PlanRequest(region: string, size: string, rotation: string, width: nat, height: nat,
                       limits: IiifSettings): (r: Result<Plan>)
    // a bad region is reported whatever the other segments say
    ensures Region.ParseRegion(region, width, height).Err? ==>
              r == Err(Region.ParseRegion(region, width, height).error)
    // a bad rotation is reported only when region and size are good
    ensures r.Err? && r.error == InvalidRotation ==>
              Region.ParseRegion(region, width, height).Ok? && Rotation.ParseRotation(rotation).Err?
    ensures r.Err? ==> r.error == InvalidRegion || r.error == InvalidSize || r.error == InvalidRotation
                       || r.error == ValueError
    ensures r.Ok? ==> Region.Acceptable(r.value.window, width, height)
    ensures r.Ok? ==> r.value.width >= 1 && r.value.height >= 1
    ensures r.Ok? && Truthy(limits.maxArea) ==> r.value.width * r.value.height <= limits.maxArea.value
    ensures r.Ok? ==> 0.0 <= r.value.rotation.degrees <= 360.0
    ensures r.Ok? ==> Rotation.ParseRotation(rotation) == Ok(r.value.rotation)
    // the plan's window is the region segment's, and its pixel size is the
    // size segment's result read against that window
    ensures r.Ok? ==> Region.ParseRegion(region, width, height) == Ok(r.value.window)
    ensures r.Ok? ==>
              && Size.ParseSize(size, r.value.window.width, r.value.window.height, limits).Ok?
              && (r.value.width, r.value.height)
                 == Size.ReadSize(Size.ParseSize(size, r.value.window.width, r.value.window.height, limits).value)
    // a bad size is reported before the rotation is looked at
    ensures Region.ParseRegion(region, width, height).Ok? ==>
              var win := Region.ParseRegion(region, width, height).value;
              Size.ParseSize(size, win.width, win.height, limits).Err? ==>
                r == Err(Size.ParseSize(size, win.width, win.height, limits).error)
    ensures Region.ParseRegion(region, width, height).Ok? ==>
              var win := Region.ParseRegion(region, width, height).value;
              Size.ParseSize(size, win.width, win.height, limits).Ok? && Rotation.ParseRotation(rotation).Err? ==>
                r == Err(Rotation.ParseRotation(rotation).error)
  {
    var win :- Region.ParseRegion(region, width, height);
    var out :- Size.ParseSize(size, win.width, win.height, limits);
    var px := Size.ReadSize(out);
    AreaOfPixels(out, px, limits);
    var rot :- Rotation.ParseRotation(rotation);
    Ok(Plan(win, px.0, px.1, rot))
  }

  /** A size without `^` on a whole-pixel window plans no more pixels than
      the window holds. */
  lemma PlanWithinWindow(region: string, size: string, rotation: string, width: nat, height: nat,
                         limits: IiifSettings, p: Plan)
    requires PlanRequest(region, size, rotation, width, height, limits) == Ok(p)
    requires !Text.StartsWith(size, "^") && Numbers.IsIntegral(p.window.width) && Numbers.IsIntegral(p.window.height)
    ensures p.width as real <= p.window.width && p.height as real <= p.window.height
  {
    Size.NoUpscaleWithoutCaret(size, p.window.width, p.window.height, limits);
  }

  /** Cutting the fractions off the output size keeps it under the area
      limit. */
  lemma AreaOfPixels(out: (real, real), px: (nat, nat), limits: IiifSettings)
    requires out.0 > 1.0 && out.1 > 1.0 && px == Size.ReadSize(out)
    requires Truthy(limits.maxArea) ==> Size.Area(out) <= limits.maxArea.value as real
    ensures Truthy(limits.maxArea) ==> px.0 * px.1 <= limits.maxArea.value
  {
    if Truthy(limits.maxArea) {
      var a, b := px.0 as real, px.1 as real;
      assert a * b <= a * out.1;
      assert a * out.1 <= out.0 * out.1;
      assert (px.0 * px.1) as real == a * b;
    }
  }

  /** The pixels after the request: the image as read (already cropped and
      scaled to the plan's size) is mirrored and rotated onto an expanded
      canvas, then reduced to gray or bitonal when the quality asks for it.
      `color` and `default` leave the bands alone. */
  function Process(img: Raster.Image, plan: Plan, quality: Quality, warp: Raster.Warp): (r: Result<Raster.Image>)
    requires Raster.WellFormed(img)
    ensures r.Err? ==> r.error == UnsupportedBandCount
    ensures (quality.Default? || quality.Color?) ==> r.Ok? && |r.value.bands| == |img.bands|
    ensures quality.Gray? ==> (r.Ok? <==> |img.bands| == 1 || |img.bands| == 3)
    ensures quality.Gray? && r.Ok? ==> |r.value.bands| == 1
    ensures quality.Bitonal? ==> (r.Ok? <==> |img.bands| == 1 || |img.bands| == 3)
    ensures r.Ok? ==> Raster.WellFormed(r.value)
    ensures quality.Bitonal? && r.Ok? ==>
              && Raster.WellFormed(r.value) && |r.value.bands| == 1
              && forall y, x :: 0 <= y < r.value.height && 0 <= x < r.value.width ==>
                   r.value.bands[0][y][x] == 0 || r.value.bands[0][y][x] == 255
    ensures plan.rotation == Rotation.Spec(0.0, false) && (quality.Default? || quality.Color?) ==> r == Ok(img)
  {
    var rotated := Raster.Rotate(img, plan.rotation.degrees, true, plan.rotation.mirrored, warp);
    match quality
    case Gray => Raster.Grayscale(rotated)
    case Bitonal => Raster.Bitonal(rotated)
    case _ => Ok(rotated)
  }

  /** The media types the information request offers, in its order of
      preference. */
  const InfoMediaTypes: seq<string> := ["application/json", "application/ld+json"]

  const JsonMediaType: string := "application/json"

  /** The media type of the JSON-LD variant, naming the Image API context as
      its profile. */
  const LdMediaType: string := "application/ld+json;profile=\"http://iiif.io/api/image/3/context.json\""

  datatype Response = Response(mediaType: string, body: map<Models.Key, Models.Json>)

  /** The information response as the handler builds it: the JSON-LD
      variant is written without field aliases, so its context key comes
      out as `context`. */
  function InfoResponseAsWritten(accept: string, id: string, width: int, height: int,
                                 settings: IiifSettings): (r: Result<Response>)
    ensures r.Err? <==> Negotiation.Negotiate(accept, InfoMediaTypes).Err?
    ensures r.Ok? ==> (r.value.mediaType == LdMediaType
                       <==> Negotiation.Negotiate(accept, InfoMediaTypes) == Ok(Some("application/ld+json")))
    ensures r.Ok? && r.value.mediaType == LdMediaType ==>
              Models.AtContext !in r.value.body && Models.ReadInfo(r.value.body).None?
  {
    var output :- Negotiation.Negotiate(accept, InfoMediaTypes);
    var info := Models.NewInfo(id, width, height, settings);
    if output == Some("application/ld+json") then
      var body := Models.Dump(info, false, true);
      assert !Models.FixedOk(body);
      Ok(Response(LdMediaType, body))
    else Ok(Response(JsonMediaType, Models.Dump(info, true, true)))
  }

  /** The information response with both variants carrying the same
      aliased document: the JSON-LD one differs only in its media type.
      Either way the body reads back as the info model for the image, and a
      malformed `Accept` header is a server error. */
  function InfoResponse(accept: string, id: string, width: int, height: int,
                        settings: IiifSettings): (r: Result<Response>)
    ensures r.Err? <==> Negotiation.Negotiate(accept, InfoMediaTypes).Err?
    ensures r.Err? ==> r.error == ValueError && Status(r.error) == 500
    ensures r.Ok? ==> (r.value.mediaType == LdMediaType
                       <==> Negotiation.Negotiate(accept, InfoMediaTypes) == Ok(Some("application/ld+json")))
    ensures r.Ok? ==> r.value.mediaType == LdMediaType || r.value.mediaType == JsonMediaType
    ensures r.Ok? ==> Models.ReadInfo(r.value.body) == Some(Models.NewInfo(id, width, height, settings))
  {
    var output :- Negotiation.Negotiate(accept, InfoMediaTypes);
    var info := Models.NewInfo(id, width, height, settings);
    Models.InfoRoundTrip(info, true);
    var body := Models.Dump(info, true, true);
    if output == Some("application/ld+json") then Ok(Response(LdMediaType, body))
    else Ok(Response(JsonMediaType, body))
  }

  /** As written, a JSON-LD information response has no `@context` key:
      the key is `context`, and the document is not a valid Image API
      information document.  The plain JSON response is. */
  lemma LdInfoLacksContext(accept: string, id: string, width: int, height: int, settings: IiifSettings)
    requires Negotiation.Negotiate(accept, InfoMediaTypes) == Ok(Some("application/ld+json"))
    ensures var r := InfoResponseAsWritten(accept, id, width, height, settings);
            && r.Ok? && r.value.mediaType == LdMediaType
            && Models.ContextAttr in r.value.body && Models.AtContext !in r.value.body
            && Models.ReadInfo(r.value.body).None?
  {
  }

  /** The correction leaves the plain JSON variant as it was. */
  lemma JsonVariantUnchanged(accept: string, id: string, width: int, height: int, settings: IiifSettings)
    requires Negotiation.Negotiate(accept, InfoMediaTypes).Ok?
    requires Negotiation.Negotiate(accept, InfoMediaTypes).value != Some("application/ld+json")
    ensures InfoResponse(accept, id, width, height, settings)
            == InfoResponseAsWritten(accept, id, width, height, settings)
  {
  }
}

=== FILE: rotation.dfy ===
/** The `rotation` path segment (section 4.3 of the IIIF Image API 3.0):
    `n` or `!n`, degrees of clockwise rotation in `[0, 360]`, the `!`
    asking for a mirror image first. */
module Rotation {
  import opened Outcome
  import opened Text
  import opened Numbers

  datatype Spec = Spec(degrees: real, mirrored: bool)

  /** The rotation token.  The degrees are the token with every `!` removed,
      read as a float; a token that does not read, or reads outside
      `[0, 360]`, is a 400.  Mirroring is asked for exactly when the token
      starts with `!`. */
  function ParseRotation(rotation: string): (r: Result<Spec>)
    ensures r.Err? ==> r.error == InvalidRotation
    ensures r.Ok? ==> 0.0 <= r.value.degrees <= 360.0
    ensures r.Ok? ==> (r.value.mirrored <==> StartsWith(rotation, "!"))
    ensures r.Ok? <==> match ParseFloat(Remove(rotation, '!'))
                       case None => false
                       case Some(d) => 0.0 <= d <= 360.0
    ensures r.Ok? ==> ParseFloat(Remove(rotation, '!')) == Some(r.value.degrees)
  {
    match ParseFloat(Remove(rotation, '!'))
    case None => Err(InvalidRotation)
    case Some(d) =>
      if d < 0.0 || d > 360.0 then Err(InvalidRotation)
      else Ok(Spec(d, StartsWith(rotation, "!")))
  }

  /** The text of a rotation of a whole number of degrees. */
  function Render(degrees: nat, mirrored: bool): string {
    (if mirrored then "!" else "") + NatToString(degrees)
  }

  /** Every whole-degree rotation in `[0, 360]`, mirrored or not, reads
      back from its text. */
  lemma ParseRender(degrees: nat, mirrored: bool)
    requires degrees <= 360
    ensures ParseRotation(Render(degrees, mirrored)) == Ok(Spec(degrees as real, mirrored))
  {
    var d := NatToString(degrees);
    var tok := Render(degrees, mirrored);
    assert '!' !in d by {
      forall i | 0 <= i < |d| ensures d[i] != '!' {
        assert IsDigit(d[i]);
      }
    }
    RemoveAbsent(d, '!');
    if mirrored {
      assert tok[1..] == d;
      assert StartsWith(tok, "!") by { assert tok[..1] == "!"; }
    } else {
      assert tok == d;
      Mismatch(tok, "!", 0);
    }
    assert Remove(tok, '!') == d;
    ParseFloatRoundTrip(degrees);
  }

  /** Every `!` counts, not only a leading one: `9!0` reads as 90 degrees,
      not mirrored. */
  lemma InnerBangIgnored()
    ensures ParseRotation("9!0") == Ok(Spec(90.0, false))
  {
    assert Remove("9!0", '!') == "90";
    ParseFloatRoundTrip(90);
    assert NatToString(90) == "90";
    Mismatch("9!0", "!", 0);
  }

  /** Degrees past a full turn are refused, mirrored or not. */
  lemma BeyondFullTurnRefused(n: nat, mirrored: bool)
    requires n > 360
    ensures ParseRotation(Render(n, mirrored)) == Err(InvalidRotation)
  {
    var d := NatToString(n);
    assert '!' !in d by {
      forall i | 0 <= i < |d| ensures d[i] != '!' {
        assert IsDigit(d[i]);
      }
    }
    RemoveAbsent(d, '!');
    var tok := Render(n, mirrored);
    if mirrored {
      assert tok[1..] == d;
    } else {
      assert tok == d;
    }
    assert Remove(tok, '!') == d;
    ParseFloatRoundTrip(n);
  }
}

=== FILE: scenarios.dfy ===
/** Worked requests against a 1000 x 695 source under a server that limits
    the output width to 2000 pixels (and so, by `check_max`, the height to
    2000 as well). */
module Scenarios {
  import opened Outcome
  import opened Numbers
  import opened Settings
  import Text
  import Region
  import Size
  import Rotation
  import Negotiation
  import Models
  import Endpoint

  /** The configuration `max_width = 2000`, after validation. */
  const Limits: IiifSettings := IiifSettings(Some(2000), Some(2000), None)

  lemma LimitsValidated()
    ensures CheckMax(Some(2000), None, None) == Ok(Limits)
  {
  }

  lemma UnrotatedToken()
    ensures Rotation.ParseRotation("0") == Ok(Rotation.Spec(0.0, false))
  {
    Rotation.ParseRender(0, false);
    assert NatToString(0) == "0";
  }

  /** `full/max/0`: the whole image at its own size. */
  lemma FullMax()
    ensures Endpoint.PlanRequest("full", "max", "0", 1000, 695, Limits)
            == Ok(Endpoint.Plan(Region.Window(0.0, 0.0, 1000.0, 695.0), 1000, 695, Rotation.Spec(0.0, false)))
  {
    UnrotatedToken();
    assert Size.Classify("max") == Ok(Size.Max);
  }

  /** `full/^max/0`: the longer side is raised to the 2000-pixel limit and
      the other follows, `ceil(2000 / (1000 / 695)) = 1390`. */
  lemma FullUpMax()
    ensures Endpoint.PlanRequest("full", "^max", "0", 1000, 695, Limits)
            == Ok(Endpoint.Plan(Region.Window(0.0, 0.0, 1000.0, 695.0), 2000, 1390, Rotation.Spec(0.0, false)))
  {
    UnrotatedToken();
    assert Size.Classify("^max") == Ok(Size.UpMax);
    assert Size.Proportional(2000.0, 695.0, 1000.0) == 1390.0;
    assert Size.HeightFor(2000.0, 1000.0, 695.0) == 1390;
    assert Size.UpMaxSize(1000.0, 695.0, Limits) == (2000.0, 1390.0);
  }

  /** `pct:50` of the whole image: half of each side, `347.5` rounding to
      the even `348`. */
  lemma HalfSize()
    ensures Size.ParseSize("pct:50", 1000.0, 695.0, Limits) == Ok((500.0, 348.0))
  {
    HalfToken();
    assert Size.PctSide(50.0, 1000.0) == 500;
    assert Size.PctSide(50.0, 695.0) == 348;
    assert Size.Evaluate(Size.Pct(50.0), 1000.0, 695.0, Limits) == Ok((500.0, 348.0));
    assert Size.Limited((500.0, 348.0), Limits) == Ok((500.0, 348.0));
  }

  lemma HalfToken()
    ensures Size.Classify("pct:50") == Ok(Size.Pct(50.0))
  {
    Size.ReadPct(50);
    assert NatToString(5) == "5";
    assert IntToString(50) == "50";
    assert "pct:" + IntToString(50) == "pct:50";
  }

  lemma FullHalf()
    ensures Endpoint.PlanRequest("full", "pct:50", "0", 1000, 695, Limits)
            == Ok(Endpoint.Plan(Region.Window(0.0, 0.0, 1000.0, 695.0), 500, 348, Rotation.Spec(0.0, false)))
  {
    UnrotatedToken();
    HalfSize();
  }

  /** `!750,800` on the whole image: the landscape source keeps the width
      750 and derives the height, `ceil(750 * 695 / 1000) = 522`. */
  lemma ConfinedSize()
    ensures Size.ParseSize("!750,800", 1000.0, 695.0, Limits) == Ok((750.0, 522.0))
  {
    ConfinedToken();
    assert Size.Proportional(750.0, 695.0, 1000.0) == 521.25;
    assert Size.HeightFor(750.0, 1000.0, 695.0) == 522;
    assert Size.ConfinedSize(750, 800, 1000.0, 695.0) == (750.0, 522.0);
    assert Size.Evaluate(Size.Confined(750, 800), 1000.0, 695.0, Limits) == Ok((750.0, 522.0));
    assert Size.Limited((750.0, 522.0), Limits) == Ok((750.0, 522.0));
  }

  lemma ConfinedToken()
    ensures Size.Classify("!750,800") == Ok(Size.Confined(750, 800))
  {
    Size.ReadConfined(750, 800);
    ConfinedText();
  }

  lemma ConfinedText()
    ensures Size.Render(Size.Confined(750, 800)) == "!750,800"
  {
    assert NatToString(7) == "7" && NatToString(75) == "75" && IntToString(750) == "750";
    assert NatToString(8) == "8" && NatToString(80) == "80" && IntToString(800) == "800";
  }

  lemma FullConfined()
    ensures Endpoint.PlanRequest("full", "!750,800", "0", 1000, 695, Limits)
            == Ok(Endpoint.Plan(Region.Window(0.0, 0.0, 1000.0, 695.0), 750, 522, Rotation.Spec(0.0, false)))
  {
    UnrotatedToken();
    ConfinedSize();
  }

  /** `!100,10` on the landscape source: the code keeps the width 100 and
      derives the height `ceil(100 * 695 / 1000) = 70`, seven times the
      bound 10 the client set. */
  lemma ConfinedPastHeight()
    ensures Size.ParseSize("!100,10", 1000.0, 695.0, Limits) == Ok((100.0, 70.0))
  {
    NarrowConfinedToken();
    assert Size.Proportional(100.0, 695.0, 1000.0) == 69.5;
    assert Size.HeightFor(100.0, 1000.0, 695.0) == 70;
    assert Size.ConfinedSize(100, 10, 1000.0, 695.0) == (100.0, 70.0);
    assert Size.Evaluate(Size.Confined(100, 10), 1000.0, 695.0, Limits) == Ok((100.0, 70.0));
    assert Size.Limited((100.0, 70.0), Limits) == Ok((100.0, 70.0));
  }

  /** The same request through the whole endpoint plans a 100 x 70 read. */
  lemma FullConfinedPastHeight()
    ensures Endpoint.PlanRequest("full", "!100,10", "0", 1000, 695, Limits)
            == Ok(Endpoint.Plan(Region.Window(0.0, 0.0, 1000.0, 695.0), 100, 70, Rotation.Spec(0.0, false)))
  {
    UnrotatedToken();
    ConfinedPastHeight();
  }

  /** Read as section 4.2 of the IIIF Image API 3.0 describes `!w,h`, the
      height 10 binds and the width follows: `ceil(10 * 1000 / 695) = 15`. */
  lemma ConfinedFitted()
    ensures Size.ParseSizeCorrected("!100,10", 1000.0, 695.0, Limits) == Ok((15.0, 10.0))
  {
    NarrowConfinedToken();
    assert Size.WidthFor(10.0, 1000.0, 695.0) == 15;
    assert Size.ConfinedFit(100, 10, 1000.0, 695.0) == (15.0, 10.0);
    assert Size.EvaluateCorrected(Size.Confined(100, 10), 1000.0, 695.0, Limits) == Ok((15.0, 10.0));
    assert Size.Limited((15.0, 10.0), Limits) == Ok((15.0, 10.0));
  }

  lemma NarrowConfinedToken()
    ensures Size.Classify("!100,10") == Ok(Size.Confined(100, 10))
  {
    Size.ReadConfined(100, 10);
    assert NatToString(1) == "1" && NatToString(10) == "10" && IntToString(100) == "100";
    assert IntToString(10) == "10";
    assert Size.Render(Size.Confined(100, 10)) == "!100,10";
  }

  /** A server without limits. */
  const Unlimited: IiifSettings := IiifSettings(None, None, None)

  /** `pct:100` on a region 10.6 pixels square (as `0,0,10.6,10.6` gives):
      rounding half to even makes each side 11, more than the region holds,
      although the form has no `^`. */
  lemma FractionalRegionUpscaled()
    ensures Size.ParseSize("pct:100", 10.6, 10.6, Unlimited) == Ok((11.0, 11.0))
  {
    WholeToken();
    assert Size.PctSide(100.0, 10.6) == 11;
    assert Size.Evaluate(Size.Pct(100.0), 10.6, 10.6, Unlimited) == Ok((11.0, 11.0));
    assert Size.Limited((11.0, 11.0), Unlimited) == Ok((11.0, 11.0));
  }

  /** The corrected reading refuses that request. */
  lemma FractionalRegionRefused()
    ensures Size.ParseSizeCorrected("pct:100", 10.6, 10.6, Unlimited) == Err(InvalidSize)
  {
    WholeToken();
    assert Size.PctSide(100.0, 10.6) == 11;
    assert Size.EvaluateCorrected(Size.Pct(100.0), 10.6, 10.6, Unlimited) == Ok((11.0, 11.0));
  }

  lemma WholeToken()
    ensures Size.Classify("pct:100") == Ok(Size.Pct(100.0))
  {
    Size.ReadPct(100);
    assert NatToString(1) == "1" && NatToString(10) == "10" && IntToString(100) == "100";
    assert "pct:" + IntToString(100) == "pct:100";
  }

  /** `0,0,1005,700`: a region running past both far edges is cropped to
      the whole 1000 x 695 image. */
  lemma OversizedRegion()
    ensures Region.ParseRegion("0,0,1005,700", 1000, 695) == Ok(Region.Window(0.0, 0.0, 1000.0, 695.0))
  {
    var parts := ["0", "0", "1005", "700"];
    ZeroText();
    WideText();
    TallText();
    RegionText(parts);
    Region.AbsoluteClippedToImage(parts, 0.0, 0.0, 1005.0, 700.0, 1000, 695);
  }

  lemma RegionText(parts: seq<string>)
    requires parts == ["0", "0", "1005", "700"]
    ensures Text.Join(parts, ',') == "0,0,1005,700"
    ensures forall i :: 0 <= i < 4 ==> ',' !in parts[i]
  {
    assert parts[3..] == ["700"];
    assert Text.Join(parts[2..], ',') == "1005" + [','] + "700";
    assert Text.Join(parts[1..], ',') == "0" + [','] + "1005,700";
  }

  lemma ZeroText()
    ensures ParseFloat("0") == Some(0.0)
  {
    ParseFloatRoundTrip(0);
    assert IntToString(0) == "0";
  }

  lemma WideText()
    ensures ParseFloat("1005") == Some(1005.0)
  {
    ParseFloatRoundTrip(1005);
    assert NatToString(1) == "1" && NatToString(10) == "10" && NatToString(100) == "100";
    assert IntToString(1005) == "1005";
  }

  lemma TallText()
    ensures ParseFloat("700") == Some(700.0)
  {
    ParseFloatRoundTrip(700);
    assert NatToString(7) == "7" && NatToString(70) == "70" && IntToString(700) == "700";
  }

  /** Asking for the JSON-LD variant by name selects it. */
  lemma LdRequested()
    ensures Negotiation.Negotiate("application/ld+json", Endpoint.InfoMediaTypes) == Ok(Some("application/ld+json"))
  {
    Negotiation.SingleTypeChosen("application/ld+json", Endpoint.InfoMediaTypes);
  }

  /** As written, the document served for `Accept: application/ld+json`
      carries `context` instead of `@context` and does not read back as an
      information document. */
  lemma LdResponseAsWritten(id: string, settings: IiifSettings)
    ensures var r := Endpoint.InfoResponseAsWritten("application/ld+json", id, 1000, 695, settings);
            && r.Ok? && r.value.mediaType == Endpoint.LdMediaType
            && Models.AtContext !in r.value.body && Models.ReadInfo(r.value.body).None?
  {
    LdRequested();
    Endpoint.LdInfoLacksContext("application/ld+json", id, 1000, 695, settings);
  }

  /** With the correction the same request is served a document that
      reads back as the image's information. */
  lemma LdResponseCorrected(id: string, settings: IiifSettings)
    ensures var r := Endpoint.InfoResponse("application/ld+json", id, 1000, 695, settings);
            && r.Ok? && r.value.mediaType == Endpoint.LdMediaType
            && Models.ReadInfo(r.value.body) == Some(Models.NewInfo(id, 1000, 695, settings))
  {
    LdRequested();
  }
}

=== FILE: settings.dfy ===
/** The server configuration: the IIIF size limits with their validator,
    and the comma-separated list of allowed CORS origins. */
module Settings {
  import opened Outcome
  import opened Text

  /** The validated size limits.  A limit is a natural number; `None` and
      `0` both mean "no limit", as Python's truthiness makes them. */
  datatype IiifSettings = IiifSettings(maxWidth: Option<nat>, maxHeight: Option<nat>, maxArea: Option<nat>)

  /** The `check_max` validator applied to the keys the environment
      supplied (an absent key is `None`): `max_height` needs `max_width`,
      and `max_width` alone sets `max_height` to the same value. */
  function CheckMax(maxWidth: Option<nat>, maxHeight: Option<nat>, maxArea: Option<nat>): (r: Result<IiifSettings>)
    ensures r.Err? <==> maxHeight.Some? && maxWidth.None?
    ensures r.Err? ==> r.error == MaxHeightWithoutMaxWidth
    ensures r.Ok? ==> r.value.maxWidth == maxWidth && r.value.maxArea == maxArea
    ensures r.Ok? && maxHeight.Some? ==> r.value.maxHeight == maxHeight
    ensures maxWidth.Some? && maxHeight.None? ==> r.Ok? && r.value.maxHeight == maxWidth
    ensures maxWidth.None? && maxHeight.None? ==> r.Ok? && r.value.maxWidth.None? && r.value.maxHeight.None?
  {
    if maxWidth.None? && maxHeight.None? then Ok(IiifSettings(None, None, maxArea))
    else if maxWidth.None? then Err(MaxHeightWithoutMaxWidth)
    else if maxHeight.None? then Ok(IiifSettings(maxWidth, maxWidth, maxArea))
    else Ok(IiifSettings(maxWidth, maxHeight, maxArea))
  }

  /** Every validated configuration that sets a height limit also sets a
      width limit. */
  lemma CheckMaxCouplesLimits(maxWidth: Option<nat>, maxHeight: Option<nat>, maxArea: Option<nat>)
    requires CheckMax(maxWidth, maxHeight, maxArea).Ok?
    ensures CheckMax(maxWidth, maxHeight, maxArea).value.maxHeight.Some? ==>
              CheckMax(maxWidth, maxHeight, maxArea).value.maxWidth.Some?
  {
  }

  /** The default origin list of the API settings. */
  const DefaultCorsOrigins: string := "*"

  /** The `parse_cors_origin` validator: split on `,` and strip each piece. */
  function ParseCorsOrigins(v: string): (origins: seq<string>)
    ensures |origins| == Count(v, ',') + 1
    ensures forall i :: 0 <= i < |origins| ==> ',' !in origins[i]
    ensures forall i :: 0 <= i < |origins| ==>
              |origins[i]| == 0 || (!IsSpace(origins[i][0]) && !IsSpace(origins[i][|origins[i]| - 1]))
    // each origin is its comma-separated piece with only white space cut off
    ensures |origins| == |Split(v, ',')|
    ensures forall i :: 0 <= i < |origins| ==> TrimOf(origins[i], Split(v, ',')[i])
  {
    var parts := Split(v, ',');
    seq(|parts|, i requires 0 <= i < |parts| => Strip(parts[i]))
  }

  /** Origins written without surrounding blanks are recovered exactly:
      joining them back with `,` gives the configured text. */
  lemma CorsOriginsRoundTrip(v: string)
    requires forall c :: c in v ==> !IsSpace(c)
    ensures Join(ParseCorsOrigins(v), ',') == v
  {
    var parts := Split(v, ',');
    forall i | 0 <= i < |parts| ensures Strip(parts[i]) == parts[i] {
      if |parts[i]| > 0 {
        assert parts[i][0] in parts[i];
        assert parts[i][|parts[i]| - 1] in parts[i];
      }
    }
    assert ParseCorsOrigins(v) == parts;
    JoinSplit(v, ',');
  }

  /** The default `*` is the one-element list `["*"]`. */
  lemma DefaultCorsIsWildcard()
    ensures ParseCorsOrigins(DefaultCorsOrigins) == ["*"]
  {
    SplitAbsent("*", ',');
  }
}

=== FILE: size.dfy ===
/** The `size` path segment (section 4.2 of the IIIF Image API 3.0): the
    token is first classified into one of the size forms, exactly in the
    order the server tests them, and the form is then evaluated against the
    extracted region and the server limits. */
module Size {
  import opened Outcome
  import opened Text
  import opened Numbers
  import opened Settings
  import opened Clamp

  /** The size forms the server tells apart.  A leading `^` allows
      upscaling.  `UpConfined` is the `^!w,h` branch, `UpUnchanged` a `^`
      token with a comma that none of the `^` branches handles. */
  datatype SizeForm =
    | Max
    | UpMax
    | Pct(n: real)
    | UpPct(n: real)
    | UpConfined(w: int, h: int)
    | Confined(w: int, h: int)
    | UpWidth(w: int)
    | UpExact(w: int, h: int)
    | UpUnchanged
    | Width(w: int)
    | Height(h: int)
    | Exact(w: int, h: int)
  {
    /** Forms that may return more pixels than the region holds. */
    predicate Upscaling() {
      UpMax? || UpPct? || UpConfined? || UpWidth? || UpExact? || UpUnchanged?
    }
  }

  /** `w, h = list(map(int, s.split(",")))`: exactly two integers, or the
      `ValueError` of a bad literal or a wrong count. */
  function ParseIntPair(s: string): (r: Option<(int, int)>)
    ensures r.Some? <==> Count(s, ',') == 1 && ParseInt(Split(s, ',')[0]).Some?
                                            && ParseInt(Split(s, ',')[1]).Some?
    ensures r.Some? ==> Some(r.value.0) == ParseInt(Split(s, ',')[0])
                        && Some(r.value.1) == ParseInt(Split(s, ',')[1])
  {
    var parts := Split(s, ',');
    if |parts| == 2 then
      match (ParseInt(parts[0]), ParseInt(parts[1]))
      case (Some(a), Some(b)) => Some((a, b))
      case _ => None
    else None
  }

  /** The size token, classified in the order of the server's tests.  Only
      tokens with a leading `^` give a form that may upscale. */
  function Classify(size: string): (r: Result<SizeForm>)
    ensures r.Ok? ==> (r.value.Upscaling() <==> StartsWith(size, "^"))
    ensures r.Err? ==> r.error == ValueError || r.error == InvalidSize
    ensures (',' !in size && size != "max" && size != "^max"
             && !StartsWith(size, "pct:") && !StartsWith(size, "^pct:")) ==> r == Err(InvalidSize)
  {
    StartsWithChar(size, '^');
    if size == "max" then Ok(Max)
    else if size == "^max" then Ok(UpMax)
    else if StartsWith(size, "pct:") then
      StartsWithHead(size, "pct:");
      match ParseFloat(ReplaceAll(size, "pct:"))
      case Some(n) => Ok(Pct(n))
      case None => Err(ValueError)
    else if StartsWith(size, "^pct:") then
      StartsWithHead(size, "^pct:");
      match ParseFloat(ReplaceAll(size, "^pct:"))
      case Some(n) => Ok(UpPct(n))
      case None => Err(ValueError)
    else if ',' in size then
      var sizes := Split(size, ',');
      CountPresent(size, ',');
      if StartsWith(size, "^!") then
        StartsWithHead(size, "^!");
        // `replace("!^", "")`: the pattern is the two characters reversed
        match ParseIntPair(ReplaceAll(size, "!^"))
        case Some(p) => Ok(UpConfined(p.0, p.1))
        case None => Err(ValueError)
      else if StartsWith(size, "!") then
        StartsWithHead(size, "!");
        match ParseIntPair(Remove(size, '!'))
        case Some(p) => Ok(Confined(p.0, p.1))
        case None => Err(ValueError)
      else if StartsWith(size, "^") then
        // the `^,h` test inside this branch can never hold: the token starts with `^`
        var upSizes := Split(Remove(size, '^'), ',');
        CountPresent(Remove(size, '^'), ',');
        if EndsWith(size, ",") then
          match ParseInt(upSizes[0])
          case Some(w) => Ok(UpWidth(w))
          case None => Err(ValueError)
        else if |upSizes[0]| > 0 && |upSizes[1]| > 0 then
          match ParseIntPair(Remove(size, '^'))
          case Some(p) => Ok(UpExact(p.0, p.1))
          case None => Err(ValueError)
        else Ok(UpUnchanged)
      else if EndsWith(size, ",") then
        match ParseInt(sizes[0])
        case Some(w) => Ok(Width(w))
        case None => Err(ValueError)
      else if StartsWith(size, ",") then
        match ParseInt(sizes[1])
        case Some(h) => Ok(Height(h))
        case None => Err(ValueError)
      else if |sizes[0]| > 0 && |sizes[1]| > 0 then
        match ParseIntPair(size)
        case Some(p) => Ok(Exact(p.0, p.1))
        case None => Err(ValueError)
      else Err(InvalidSize)
    else Err(InvalidSize)
  }

  /** `x * num / den`: a length carried over to the other axis of a
      `num` by `den` rectangle, or scaled in proportion. */
  function Proportional(x: real, num: real, den: real): real
    requires den > 0.0
  {
    x * num / den
  }

  /** `math.ceil(w / aspect_ratio)`: the height that keeps the region's
      aspect ratio at width `w`. */
  function HeightFor(w: real, width: real, height: real): (h: int)
    requires width > 0.0 && height > 0.0
    ensures h as real - 1.0 < Proportional(w, height, width) <= h as real
  {
    var ar := width / height;
    assert w / ar == Proportional(w, height, width);
    Ceil(w / ar)
  }

  /** `math.ceil(aspect_ratio * h)`: the width that keeps the region's
      aspect ratio at height `h`. */
  function WidthFor(h: real, width: real, height: real): (w: int)
    requires width > 0.0 && height > 0.0
    ensures w as real - 1.0 < Proportional(h, width, height) <= w as real
  {
    var ar := width / height;
    assert ar * h == Proportional(h, width, height);
    Ceil(ar * h)
  }

  /** The `!w,h` and `^!w,h` arithmetic: a landscape region keeps `w` and
      derives the height, any other keeps `h` and derives the width. */
  function ConfinedSize(w: int, h: int, width: real, height: real): (r: (real, real))
    requires width > 0.0 && height > 0.0
    ensures width > height ==> r.0 == w as real && r.1 - 1.0 < Proportional(w as real, height, width) <= r.1
    ensures width <= height ==> r.1 == h as real && r.0 - 1.0 < Proportional(h as real, width, height) <= r.0
  {
    RatioAboveOne(width, height);
    if width / height > 1.0 then
      (w as real, HeightFor(w as real, width, height) as real)
    else (WidthFor(h as real, width, height) as real, h as real)
  }

  /** `n` percent of both sides, each rounded half to even. */
  function PctSize(n: real, width: real, height: real): (real, real) {
    (PctSide(n, width) as real, PctSide(n, height) as real)
  }

  /** `round(_percent(side, n))`: the integer nearest to `n` percent of
      `side`. */
  function PctSide(n: real, side: real): (r: int)
    ensures (side / 100.0) * n - 0.5 <= r as real <= (side / 100.0) * n + 0.5
  {
    Round((side / 100.0) * n)
  }

  /** The `^max` arithmetic: the longer side is raised to its limit when a
      limit is set and larger, the other side follows the aspect ratio. */
  function UpMaxSize(width: real, height: real, limits: IiifSettings): (r: (real, real))
    requires width > 0.0 && height > 0.0
    ensures width > height ==>
              r.0 == (if Truthy(limits.maxWidth) && width < limits.maxWidth.value as real
                      then limits.maxWidth.value as real else width)
              && r.1 - 1.0 < Proportional(r.0, height, width) <= r.1
    ensures width <= height ==>
              r.1 == (if Truthy(limits.maxHeight) && height < limits.maxHeight.value as real
                      then limits.maxHeight.value as real else height)
              && r.0 - 1.0 < Proportional(r.1, width, height) <= r.0
    ensures r.0 >= width && r.1 >= height
  {
    RatioAboveOne(width, height);
    if width / height > 1.0 then
      var ow := if Truthy(limits.maxWidth) then Larger(width, limits.maxWidth.value as real) else width;
      GrowKeepsRatio(width, height, ow);
      (ow, HeightFor(ow, width, height) as real)
    else
      var oh := if Truthy(limits.maxHeight) then Larger(height, limits.maxHeight.value as real) else height;
      GrowKeepsRatio(height, width, oh);
      (WidthFor(oh, width, height) as real, oh)
  }

  /** `aspect_ratio > 1` exactly when the region is wider than tall. */
  lemma RatioAboveOne(a: real, b: real)
    requires a > 0.0 && b > 0.0
    ensures a / b > 1.0 <==> a > b
  {
    var q := a / b;
    assert a == q * b;
    assert a - b == (q - 1.0) * b;
  }

  function Larger(a: real, b: real): real {
    if a >= b then a else b
  }

  /** Raising one side to `x >= a` raises the other to at least its old value. */
  lemma GrowKeepsRatio(a: real, b: real, x: real)
    requires a > 0.0 && b > 0.0 && x >= a
    ensures Proportional(x, b, a) >= b
  {
    assert x * b >= a * b;
    assert (a * b) / a == b;
  }

  /** The size a form asks for, before the server limits: the forms without
      `^` reject a request larger than the region, `pct:n` a percentage
      outside `(0, 100]`, `^pct:n` one not above 0. */
  function Evaluate(f: SizeForm, width: real, height: real, limits: IiifSettings): (r: Result<(real, real)>)
    requires width > 0.0 && height > 0.0
    ensures r.Err? ==> r.error == InvalidSize
    ensures f.Max? || f.UpUnchanged? ==> r == Ok((width, height))
    ensures f.Pct? ==> (r.Ok? <==> 0.0 < f.n <= 100.0)
    ensures f.UpPct? ==> (r.Ok? <==> 0.0 < f.n)
    ensures f.Width? ==> (r.Ok? <==> f.w as real <= width)
    ensures f.Height? ==> (r.Ok? <==> f.h as real <= height)
    ensures f.Exact? ==> (r.Ok? <==> f.w as real <= width && f.h as real <= height)
    ensures f.Exact? && r.Ok? ==> r.value == (f.w as real, f.h as real)
    ensures f.UpExact? ==> r == Ok((f.w as real, f.h as real))
    ensures (f.Width? || f.UpWidth?) && r.Ok? ==> r.value.0 == f.w as real
    ensures f.Height? && r.Ok? ==> r.value.1 == f.h as real
    ensures f.Confined? && r.Ok? ==> r.value.0 <= width && r.value.1 <= height
    // `!w,h` is refused exactly when the computed size exceeds the region
    ensures f.Confined? ==>
              (r.Ok? <==> ConfinedSize(f.w, f.h, width, height).0 <= width
                          && ConfinedSize(f.w, f.h, width, height).1 <= height)
    ensures (f.Confined? || f.UpConfined?) && r.Ok? ==> r.value == ConfinedSize(f.w, f.h, width, height)
    ensures f.UpConfined? ==> r.Ok?
    // the side a form leaves open follows the region's aspect ratio
    ensures (f.Width? || f.UpWidth?) && r.Ok? ==> r.value.1 == HeightFor(f.w as real, width, height) as real
    ensures f.UpWidth? ==> r.Ok?
    ensures f.Height? && r.Ok? ==> r.value.0 == WidthFor(f.h as real, width, height) as real
    ensures f.UpMax? ==> r == Ok(UpMaxSize(width, height, limits))
    ensures (f.Pct? || f.UpPct?) && r.Ok? ==>
              r.value == (PctSide(f.n, width) as real, PctSide(f.n, height) as real)
  {
    match f
    case Max => Ok((width, height))
    case UpMax => Ok(UpMaxSize(width, height, limits))
    case Pct(n) =>
      if n > 100.0 || n <= 0.0 then Err(InvalidSize) else Ok(PctSize(n, width, height))
    case UpPct(n) =>
      if n <= 0.0 then Err(InvalidSize) else Ok(PctSize(n, width, height))
    case UpConfined(w, h) => Ok(ConfinedSize(w, h, width, height))
    case Confined(w, h) =>
      var s := ConfinedSize(w, h, width, height);
      if s.0 > width || s.1 > height then Err(InvalidSize) else Ok(s)
    case UpWidth(w) => Ok((w as real, HeightFor(w as real, width, height) as real))
    case UpExact(w, h) => Ok((w as real, h as real))
    case UpUnchanged => Ok((width, height))
    case Width(w) =>
      if w as real > width then Err(InvalidSize)
      else Ok((w as real, HeightFor(w as real, width, height) as real))
    case Height(h) =>
      if h as real > height then Err(InvalidSize)
      else Ok((WidthFor(h as real, width, height) as real, h as real))
    case Exact(w, h) =>
      if w as real > width || h as real > height then Err(InvalidSize) else Ok((w as real, h as real))
  }

  /** The pixel area of a width and height. */
  function Area(size: (real, real)): real {
    size.0 * size.1
  }

  /** The server limits applied to the size a form asked for, followed by
      the server's refusal of a result of one pixel or less on either side. */
  function Limited(asked: (real, real), limits: IiifSettings): (r: Result<(real, real)>)
    ensures r.Ok? ==> r.value.0 > 1.0 && r.value.1 > 1.0
    ensures r.Ok? ==> r.value.0 <= asked.0 && r.value.1 <= asked.1
    ensures r.Ok? && Truthy(limits.maxArea) ==> Area(r.value) <= limits.maxArea.value as real
    ensures r.Err? ==> r.error == InvalidSize
  {
    var out := GetSizes(asked.0, asked.1, limits);
    if out.0 <= 1.0 || out.1 <= 1.0 then Err(InvalidSize)
    else
      AreaRespected(asked, out, limits);
      Ok(out)
  }

  /** The output size for a size token, given the extracted region's width
      and height.  An accepted size has both sides above one pixel, never
      exceeds what the form asked for, and respects the area limit. */
  function ParseSize(size: string, width: real, height: real, limits: IiifSettings): (r: Result<(real, real)>)
    requires width > 0.0 && height > 0.0
    ensures r.Ok? ==> r.value.0 > 1.0 && r.value.1 > 1.0
    ensures r.Ok? && Truthy(limits.maxArea) ==> Area(r.value) <= limits.maxArea.value as real
    ensures r.Err? ==> r.error == ValueError || r.error == InvalidSize
    // never more than the form asked for
    ensures r.Ok? ==> && Classify(size).Ok?
                      && Evaluate(Classify(size).value, width, height, limits).Ok?
                      && r.value.0 <= Evaluate(Classify(size).value, width, height, limits).value.0
                      && r.value.1 <= Evaluate(Classify(size).value, width, height, limits).value.1
    // a token that cannot be read, or a form refused against the region, is refused
    ensures Classify(size).Err? ==> r == Err(Classify(size).error)
    ensures Classify(size).Ok? && Evaluate(Classify(size).value, width, height, limits).Err? ==> r == Err(InvalidSize)
  {
    var form :- Classify(size);
    var asked :- Evaluate(form, width, height, limits);
    Limited(asked, limits)
  }

  /** A limited size above one pixel on each side is within the area limit:
      from the two promises of the limits, that they never grow a positive
      size and bring an exceeded area back under the limit. */
  lemma AreaRespected(asked: (real, real), out: (real, real), limits: IiifSettings)
    requires out.0 > 1.0 && out.1 > 1.0
    requires out.0 <= asked.0 && out.1 <= asked.1
    requires AreaExceeded(asked.0, asked.1, limits) ==> out.0 * out.1 <= limits.maxArea.value as real
    ensures Truthy(limits.maxArea) ==> Area(out) <= limits.maxArea.value as real
  {
    if Truthy(limits.maxArea) && !AreaExceeded(asked.0, asked.1, limits) {
      ProductBound(out.0, asked.0, out.1, asked.1);
    }
  }

  /** `int(out_width), int(out_height)`: the pixel size read from the
      dataset, at least one pixel each way and no larger than the size. */
  function ReadSize(out: (real, real)): (px: (nat, nat))
    requires out.0 > 1.0 && out.1 > 1.0
    ensures px.0 >= 1 && px.1 >= 1
    ensures px.0 as real <= out.0 < px.0 as real + 1.0
    ensures px.1 as real <= out.1 < px.1 as real + 1.0
  {
    (Trunc(out.0), Trunc(out.1))
  }

  /** The `^!w,h` form can never be read: the code deletes `!^`, which a
      token starting with `^!` keeps in front, so the first piece starts
      with `^` and `int()` raises `ValueError`. */
  lemma CaretBangNeverParses(size: string)
    requires StartsWith(size, "^!") && ',' in size
    ensures Classify(size) == Err(ValueError)
  {
    StartsWithHead(size, "^!");
    assert size[1] == '!' by { assert size[..2] == "^!"; }
    assert size != "max" && size != "^max";
    assert !StartsWith(size, "pct:");
    assert !StartsWith(size, "^pct:") by {
      if |size| >= 5 {
        assert size[..5][1] == size[1];
      }
    }
    var t := ReplaceAll(size, "!^");
    ReplaceAllKeepsHead(size, "!^");
    var parts := Split(t, ',');
    assert parts[0][0] == '^';
    ParseIntRejectsHead(parts[0]);
  }

  /** `^,h` falls through every `^` branch: the height is ignored and the
      region's own size goes on to the server limits. */
  lemma CaretHeightFallsThrough(h: int)
    ensures Classify("^," + IntToString(h)) == Ok(UpUnchanged)
  {
    var d := IntToString(h);
    IntText(h);
    var size := "^," + d;
    assert size[0] == '^' && size[1] == ',';
    assert size != "max" && size != "^max";
    assert !StartsWith(size, "pct:");
    assert !StartsWith(size, "^pct:") by {
      if |size| >= 5 {
        assert size[..5][1] == size[1];
      }
    }
    assert ',' in size;
    assert !StartsWith(size, "^!") by { assert size[..2][1] == ','; }
    StartsWithChar(size, '!');
    StartsWithChar(size, '^');
    assert !EndsWith(size, ",") by {
      assert size[|size| - 1] == d[|d| - 1];
      assert size[|size| - 1..] == [size[|size| - 1]];
    }
    assert '^' !in d by {
      forall i | 0 <= i < |d| ensures d[i] != '^' {
        assert IsDigit(d[i]) || d[i] == '-';
      }
    }
    assert Remove(size, '^') == "," + d by {
      assert size[1..] == "," + d;
      assert ("," + d)[1..] == d;
      RemoveAbsent(d, '^');
    }
  }

  /** With `^,h` the size asked for is the region's own size. */
  lemma CaretHeightIgnored(h: int, width: real, height: real, limits: IiifSettings)
    requires width > 0.0 && height > 0.0
    ensures ParseSize("^," + IntToString(h), width, height, limits) == Limited((width, height), limits)
  {
    CaretHeightFallsThrough(h);
  }

  /** Carrying a length no longer than `den` over to the other axis gives at
      most `num`. */
  lemma ProportionalBelow(x: real, num: real, den: real)
    requires den > 0.0 && num > 0.0 && x <= den
    ensures Proportional(x, num, den) <= num
  {
    var p, q := x * num, den * num;
    assert p <= q;
    assert p / den <= q / den;
    assert q / den == num;
  }

  /** At most 100 percent of an integral side, rounded, stays within it. */
  lemma PctBelow(n: real, side: real)
    requires 0.0 < n <= 100.0 && side > 0.0 && IsIntegral(side)
    ensures PctSide(n, side) as real <= side
  {
    PctScaledBelow(n, side);
    RoundedBelow((side / 100.0) * n, side, PctSide(n, side));
  }

  /** A value at most an integral `side`, rounded to the nearest integer,
      stays at most `side`. */
  lemma RoundedBelow(x: real, side: real, r: int)
    requires x <= side && r as real <= x + 0.5 && IsIntegral(side)
    ensures r as real <= side
  {
    var k := side.Floor;
    assert r < k + 1;
  }

  lemma PctScaledBelow(n: real, side: real)
    requires 0.0 < n <= 100.0 && side > 0.0
    ensures (side / 100.0) * n <= side
  {
    assert (side / 100.0) * n <= (side / 100.0) * 100.0;
  }

  /** A form without `^` asks for no more than the region holds, when the
      region has whole-pixel sides. */
  lemma EvaluateWithinRegion(f: SizeForm, width: real, height: real, limits: IiifSettings)
    requires width > 0.0 && height > 0.0 && IsIntegral(width) && IsIntegral(height)
    requires !f.Upscaling() && Evaluate(f, width, height, limits).Ok?
    ensures Evaluate(f, width, height, limits).value.0 <= width
    ensures Evaluate(f, width, height, limits).value.1 <= height
  {
    match f
    case Max =>
    case Pct(n) =>
      PctBelow(n, width);
      PctBelow(n, height);
    case Confined(w, h) =>
    case Width(w) =>
      DerivedSideWithin(HeightFor(w as real, width, height), w as real, height, width);
    case Height(h) =>
      DerivedSideWithin(WidthFor(h as real, width, height), h as real, width, height);
    case Exact(w, h) =>
  }

  /** A side derived through the aspect ratio from a length within the
      region stays within the region's other, integral, side. */
  lemma DerivedSideWithin(k: int, x: real, num: real, den: real)
    requires den > 0.0 && num > 0.0 && x <= den && IsIntegral(num)
    requires k as real - 1.0 < Proportional(x, num, den)
    ensures k as real <= num
  {
    ProportionalBelow(x, num, den);
    assert k < num.Floor + 1;
  }

  /** Without a leading `^` the result is never larger than the region
      (section 4.2 of the IIIF Image API 3.0 reserves upscaling for `^`). */
  lemma NoUpscaleWithoutCaret(size: string, width: real, height: real, limits: IiifSettings)
    requires width > 0.0 && height > 0.0 && IsIntegral(width) && IsIntegral(height)
    requires !StartsWith(size, "^") && ParseSize(size, width, height, limits).Ok?
    ensures ParseSize(size, width, height, limits).value.0 <= width
    ensures ParseSize(size, width, height, limits).value.1 <= height
  {
    var f := Classify(size).value;
    EvaluateWithinRegion(f, width, height, limits);
  }

  /** `!w,h` as section 4.2 of the IIIF Image API 3.0 describes it: the
      side whose bound is the tighter one for the region's aspect ratio is
      kept and the other follows, so neither side passes its bound.  The
      code as written (`ConfinedSize`) picks the side by orientation alone. */
  function ConfinedFit(w: int, h: int, width: real, height: real): (r: (real, real))
    requires width > 0.0 && height > 0.0
    ensures r.0 <= w as real && r.1 <= h as real
    ensures w as real * height <= h as real * width ==>
              r.0 == w as real && r.1 - 1.0 < Proportional(w as real, height, width) <= r.1
    ensures w as real * height > h as real * width ==>
              r.1 == h as real && r.0 - 1.0 < Proportional(h as real, width, height) <= r.0
  {
    if w as real * height <= h as real * width then
      QuotientBelow(w as real * height, width, h as real);
      var dh := HeightFor(w as real, width, height);
      assert Proportional(w as real, height, width) <= h as real;
      assert dh < h + 1;
      (w as real, dh as real)
    else
      QuotientBelow(h as real * width, height, w as real);
      var dw := WidthFor(h as real, width, height);
      assert Proportional(h as real, width, height) <= w as real;
      assert dw < w + 1;
      (dw as real, h as real)
  }

  /** A product at most `b * d`, divided by the positive `d`, is at most `b`. */
  lemma QuotientBelow(a: real, d: real, b: real)
    requires d > 0.0 && a <= b * d
    ensures a / d <= b
  {
    var q := a / d;
    assert q * d == a;
    assert (b - q) * d >= 0.0;
  }

  /** `Evaluate` with `!w,h` computed by `ConfinedFit`. */
  function EvaluateCorrected(f: SizeForm, width: real, height: real, limits: IiifSettings): (r: Result<(real, real)>)
    requires width > 0.0 && height > 0.0
    ensures f.Confined? ==>
              (r.Ok? <==> ConfinedFit(f.w, f.h, width, height).0 <= width
                          && ConfinedFit(f.w, f.h, width, height).1 <= height)
    ensures f.Confined? && r.Ok? ==> r.value.0 <= f.w as real && r.value.1 <= f.h as real
    ensures f.Confined? && r.Ok? ==> r.value == ConfinedFit(f.w, f.h, width, height)
    ensures !f.Confined? ==> r == Evaluate(f, width, height, limits)
  {
    match f
    case Confined(w, h) =>
      var s := ConfinedFit(w, h, width, height);
      if s.0 > width || s.1 > height then Err(InvalidSize) else Ok(s)
    case _ => Evaluate(f, width, height, limits)
  }

  /** The size token read so that a form without `^` never exceeds the
      region, whole-pixel or not, and `!w,h` never passes either bound. */
  function ParseSizeCorrected(size: string, width: real, height: real, limits: IiifSettings): (r: Result<(real, real)>)
    requires width > 0.0 && height > 0.0
    ensures r.Ok? ==> r.value.0 > 1.0 && r.value.1 > 1.0
    ensures r.Ok? && Truthy(limits.maxArea) ==> Area(r.value) <= limits.maxArea.value as real
    ensures r.Err? ==> r.error == ValueError || r.error == InvalidSize
    ensures Classify(size).Err? ==> r == Err(Classify(size).error)
    // no upscaling without `^`, for every region
    ensures r.Ok? && !StartsWith(size, "^") ==> r.value.0 <= width && r.value.1 <= height
    // `!w,h` stays within both bounds
    ensures r.Ok? && Classify(size).value.Confined? ==>
              r.value.0 <= Classify(size).value.w as real && r.value.1 <= Classify(size).value.h as real
  {
    var form :- Classify(size);
    var asked :- EvaluateCorrected(form, width, height, limits);
    if !form.Upscaling() && (asked.0 > width || asked.1 > height) then Err(InvalidSize)
    else Limited(asked, limits)
  }

  /** On a whole-pixel region the corrected reading differs from the code
      as written only for `!w,h`. */
  lemma CorrectedAgreesOnWholePixels(size: string, width: real, height: real, limits: IiifSettings)
    requires width > 0.0 && height > 0.0 && IsIntegral(width) && IsIntegral(height)
    requires Classify(size).Ok? ==> !Classify(size).value.Confined?
    ensures ParseSizeCorrected(size, width, height, limits) == ParseSize(size, width, height, limits)
  {
    if Classify(size).Ok? {
      var f := Classify(size).value;
      if !f.Upscaling() && Evaluate(f, width, height, limits).Ok? {
        EvaluateWithinRegion(f, width, height, limits);
      }
    }
  }

  /** The text a client writes for a size form. */
  function Render(f: SizeForm): string {
    match f
    case Max => "max"
    case UpMax => "^max"
    case Pct(n) => "pct:" + IntToString(n.Floor)
    case UpPct(n) => "^pct:" + IntToString(n.Floor)
    case UpConfined(w, h) => "^!" + IntToString(w) + "," + IntToString(h)
    case Confined(w, h) => "!" + IntToString(w) + "," + IntToString(h)
    case UpWidth(w) => "^" + IntToString(w) + ","
    case UpExact(w, h) => "^" + IntToString(w) + "," + IntToString(h)
    case UpUnchanged => "^,"
    case Width(w) => IntToString(w) + ","
    case Height(h) => "," + IntToString(h)
    case Exact(w, h) => IntToString(w) + "," + IntToString(h)
  }

  /** The forms whose written text the server reads back: every form with
      whole-number percentages, except `^!w,h` and the fall-through. */
  predicate Readable(f: SizeForm) {
    !f.UpConfined? && !f.UpUnchanged? && ((f.Pct? || f.UpPct?) ==> IsIntegral(f.n))
  }

  /** Reading the written text of a readable form gives the form back. */
  lemma ClassifyRender(f: SizeForm)
    requires Readable(f)
    ensures Classify(Render(f)) == Ok(f)
  {
    match f
    case Max =>
    case UpMax =>
    case Pct(n) => ReadPct(n.Floor);
    case UpPct(n) => ReadUpPct(n.Floor);
    case Confined(w, h) => ReadConfined(w, h);
    case UpWidth(w) => ReadUpWidth(w);
    case UpExact(w, h) => ReadUpExact(w, h);
    case Width(w) => ReadWidth(w);
    case Height(h) => ReadHeight(h);
    case Exact(w, h) => ReadExact(w, h);
  }

  /** The written form of `^!w,h` is never read back. */
  lemma UpConfinedUnreadable(w: int, h: int)
    ensures Classify(Render(UpConfined(w, h))) == Err(ValueError)
  {
    var size := Render(UpConfined(w, h));
    assert size[..2] == "^!";
    assert size[2..] == IntToString(w) + "," + IntToString(h);
    assert ',' in size by {
      IntPiece(w);
      assert size[2 + |IntToString(w)|] == ',';
    }
    CaretBangNeverParses(size);
  }

  /** `str(n)`: no separator or sigil, starts with a sign or digit, ends
      with a digit, and `int()` reads it back. */
  lemma IntPiece(n: int)
    ensures var d := IntToString(n);
            && |d| > 0 && ',' !in d && '^' !in d && '!' !in d && 'p' !in d
            && d[0] != ',' && d[0] != '^' && d[0] != '!' && d[0] != 'p' && d[0] != 'm'
            && d[|d| - 1] != ','
            && ParseInt(d) == Some(n) && ParseFloat(d) == Some(n as real)
  {
    var d := IntToString(n);
    IntText(n);
    ParseIntRoundTrip(n);
    ParseFloatRoundTrip(n);
    assert forall i :: 0 <= i < |d| ==> d[i] != ',' && d[i] != '^' && d[i] != '!' && d[i] != 'p';
  }

  lemma ReadPct(k: int)
    ensures Classify("pct:" + IntToString(k)) == Ok(Pct(k as real))
  {
    var d := IntToString(k);
    var size := "pct:" + d;
    IntPiece(k);
    assert size != "max" && size != "^max" by { assert size[0] == 'p'; }
    assert StartsWith(size, "pct:") by { assert size[..4] == "pct:"; }
    assert ReplaceAll(size, "pct:") == d by {
      assert size[..4] == "pct:" && size[4..] == d;
      ReplaceAllAbsent(d, "pct:");
    }
  }

  lemma ReadUpPct(k: int)
    ensures Classify("^pct:" + IntToString(k)) == Ok(UpPct(k as real))
  {
    var d := IntToString(k);
    var size := "^pct:" + d;
    IntPiece(k);
    assert size != "max" && size != "^max" by { assert size[0] == '^' && size[1] == 'p'; }
    Mismatch(size, "pct:", 0);
    assert StartsWith(size, "^pct:") by { assert size[..5] == "^pct:"; }
    assert ReplaceAll(size, "^pct:") == d by {
      assert size[..5] == "^pct:" && size[5..] == d;
      ReplaceAllAbsent(d, "^pct:");
    }
  }

  lemma ReadConfined(w: int, h: int)
    ensures Classify(Render(Confined(w, h))) == Ok(Confined(w, h))
  {
    var dw, dh := IntToString(w), IntToString(h);
    var t := dw + "," + dh;
    var size := "!" + dw + "," + dh;
    assert Render(Confined(w, h)) == size;
    IntPiece(w);
    IntPiece(h);
    assert size[0] == '!';
    assert ',' in size by { assert size[1 + |dw|] == ','; }
    BangPieces(dw, dh);
    assert Remove(size, '!') == t;
    assert ParseIntPair(t) == Some((w, h));
    BangPairBranch(size);
  }

  /** A token starting with `!` and holding a comma is the `!w,h` form,
      read by `ParseIntPair` once the `!` are gone. */
  lemma BangPairBranch(size: string)
    requires |size| >= 1 && size[0] == '!' && ',' in size
    ensures var p := ParseIntPair(Remove(size, '!'));
            Classify(size) == if p.Some? then Ok(Confined(p.value.0, p.value.1)) else Err(ValueError)
  {
    assert size != "max" && size != "^max" by { assert "max"[0] == 'm' && "^max"[0] == '^'; }
    Mismatch(size, "pct:", 0);
    Mismatch(size, "^pct:", 0);
    Mismatch(size, "^!", 0);
    StartsWithChar(size, '!');
  }

  /** `!w,h` with the `!` removed splits into the two numbers. */
  lemma BangPieces(dw: string, dh: string)
    requires ',' !in dw && ',' !in dh && '!' !in dw && '!' !in dh && |dw| > 0 && |dh| > 0
    ensures Remove("!" + dw + "," + dh, '!') == dw + "," + dh
    ensures Split(dw + "," + dh, ',') == [dw, dh]
  {
    var t := dw + "," + dh;
    assert ("!" + t)[1..] == t;
    assert "!" + dw + "," + dh == "!" + t;
    assert '!' !in t;
    RemoveAbsent(t, '!');
    SplitTwo(dw, dh, ',');
  }

  lemma ReadUpWidth(w: int)
    ensures Classify(Render(UpWidth(w))) == Ok(UpWidth(w))
  {
    var dw := IntToString(w);
    var size := "^" + dw + ",";
    assert Render(UpWidth(w)) == size;
    IntPiece(w);
    assert size[0] == '^' && size[1] == dw[0];
    CaretDigits(size);
    assert ',' in size by { assert size[|size| - 1] == ','; }
    EndsWithChar(size, ',');
    assert Remove(size, '^') == dw + "," by {
      assert size[1..] == dw + ",";
      assert '^' !in dw + ",";
      RemoveAbsent(dw + ",", '^');
    }
    SplitTwo(dw, "", ',');
    assert dw + "," + "" == dw + ",";
  }

  /** A token `^` followed by a number passes every test before the plain
      `^` branch. */
  lemma CaretDigits(size: string)
    requires |size| >= 2 && size[0] == '^' && size[1] != 'p' && size[1] != '!' && size[1] != 'm'
    ensures size != "max" && size != "^max"
    ensures !StartsWith(size, "pct:") && !StartsWith(size, "^pct:") && !StartsWith(size, "^!")
    ensures !StartsWith(size, "!") && StartsWith(size, "^")
  {
    Mismatch(size, "pct:", 0);
    Mismatch(size, "^pct:", 1);
    Mismatch(size, "^!", 1);
    StartsWithChar(size, '!');
    StartsWithChar(size, '^');
    assert size != "^max" by { assert "^max"[1] == 'm'; }
  }

  lemma ReadUpExact(w: int, h: int)
    ensures Classify(Render(UpExact(w, h))) == Ok(UpExact(w, h))
  {
    var dw, dh := IntToString(w), IntToString(h);
    var t := dw + "," + dh;
    var size := "^" + dw + "," + dh;
    assert Render(UpExact(w, h)) == size;
    IntPiece(w);
    IntPiece(h);
    assert size[0] == '^' && size[1] == dw[0];
    assert ',' in size by { assert size[1 + |dw|] == ','; }
    EndsWithChar(size, ',');
    assert size[|size| - 1] == dh[|dh| - 1];
    UpExactPieces(dw, dh);
    assert Remove(size, '^') == t;
    assert ParseIntPair(t) == Some((w, h));
    CaretPairBranch(size);
  }

  /** A `^` token with a number on each side of its comma is the `^w,h`
      form, read by `ParseIntPair` once the carets are gone. */
  lemma CaretPairBranch(size: string)
    requires |size| >= 2 && size[0] == '^' && size[1] != 'p' && size[1] != '!' && size[1] != 'm'
    requires ',' in size && !EndsWith(size, ",")
    requires var up := Split(Remove(size, '^'), ','); |up| >= 2 && |up[0]| > 0 && |up[1]| > 0
    ensures var p := ParseIntPair(Remove(size, '^'));
            Classify(size) == if p.Some? then Ok(UpExact(p.value.0, p.value.1)) else Err(ValueError)
  {
    CaretDigits(size);
  }

  /** `^w,h` with the caret removed splits into the two numbers. */
  lemma UpExactPieces(dw: string, dh: string)
    requires ',' !in dw && ',' !in dh && '^' !in dw && '^' !in dh && |dw| > 0 && |dh| > 0
    ensures Remove("^" + dw + "," + dh, '^') == dw + "," + dh
    ensures Split(dw + "," + dh, ',') == [dw, dh]
  {
    var t := dw + "," + dh;
    assert ("^" + t)[1..] == t;
    assert "^" + dw + "," + dh == "^" + t;
    assert '^' !in t;
    RemoveAbsent(t, '^');
    SplitTwo(dw, dh, ',');
  }

  lemma ReadWidth(w: int)
    ensures Classify(Render(Width(w))) == Ok(Width(w))
  {
    var dw := IntToString(w);
    var size := dw + ",";
    assert Render(Width(w)) == size;
    IntPiece(w);
    assert size[0] == dw[0];
    assert size != "max" && size != "^max";
    Mismatch(size, "pct:", 0);
    Mismatch(size, "^pct:", 0);
    assert ',' in size by { assert size[|size| - 1] == ','; }
    Mismatch(size, "^!", 0);
    StartsWithChar(size, '!');
    StartsWithChar(size, '^');
    EndsWithChar(size, ',');
    SplitTwo(dw, "", ',');
    assert dw + "," + "" == size;
  }

  lemma ReadHeight(h: int)
    ensures Classify(Render(Height(h))) == Ok(Height(h))
  {
    var dh := IntToString(h);
    var size := "," + dh;
    assert Render(Height(h)) == size;
    IntPiece(h);
    assert size[0] == ',';
    assert size != "max" && size != "^max";
    Mismatch(size, "pct:", 0);
    Mismatch(size, "^pct:", 0);
    Mismatch(size, "^!", 0);
    StartsWithChar(size, '!');
    StartsWithChar(size, '^');
    StartsWithChar(size, ',');
    EndsWithChar(size, ',');
    assert size[|size| - 1] == dh[|dh| - 1];
    SplitTwo("", dh, ',');
    assert "" + "," + dh == size;
  }

  lemma ReadExact(w: int, h: int)
    ensures Classify(Render(Exact(w, h))) == Ok(Exact(w, h))
  {
    var dw, dh := IntToString(w), IntToString(h);
    var size := dw + "," + dh;
    assert Render(Exact(w, h)) == size;
    IntPiece(w);
    IntPiece(h);
    assert size[0] == dw[0];
    assert size != "max" && size != "^max";
    Mismatch(size, "pct:", 0);
    Mismatch(size, "^pct:", 0);
    assert ',' in size by { assert size[|dw|] == ','; }
    Mismatch(size, "^!", 0);
    StartsWithChar(size, '!');
    StartsWithChar(size, '^');
    StartsWithChar(size, ',');
    EndsWithChar(size, ',');
    assert size[|size| - 1] == dh[|dh| - 1];
    SplitTwo(dw, dh, ',');
  }
}

=== FILE: text.dfy ===
/** The handful of Python `str` operations the request interpreter relies
    on: `startswith`, `endswith`, `in`, `split` on one character,
    `replace(old, "")` and `strip()`. */
module Text {

  predicate StartsWith(s: string, prefix: string) {
    |prefix| <= |s| && s[..|prefix|] == prefix
  }

  predicate EndsWith(s: string, suffix: string) {
    |suffix| <= |s| && s[|s| - |suffix|..] == suffix
  }

  /** A one-character prefix is a test on the first character. */
  lemma StartsWithChar(s: string, c: char)
    ensures StartsWith(s, [c]) <==> |s| > 0 && s[0] == c
  {
  }

  /** A text that starts with a prefix starts with its first character. */
  lemma StartsWithHead(s: string, prefix: string)
    requires StartsWith(s, prefix) && |prefix| > 0
    ensures |s| > 0 && s[0] == prefix[0]
  {
    assert s[..|prefix|][0] == s[0];
  }

  /** One differing position rules a prefix out. */
  lemma Mismatch(s: string, prefix: string, i: nat)
    requires i < |prefix| && i < |s| && s[i] != prefix[i]
    ensures !StartsWith(s, prefix)
  {
    if |prefix| <= |s| {
      assert s[..|prefix|][i] == s[i];
    }
  }

  /** A one-character suffix is a test on the last character. */
  lemma EndsWithChar(s: string, c: char)
    ensures EndsWith(s, [c]) <==> |s| > 0 && s[|s| - 1] == c
  {
    if |s| > 0 {
      assert s[|s| - 1..] == [s[|s| - 1]];
    }
  }

  /** Number of occurrences of `c` in `s`. */
  function Count(s: string, c: char): nat
    decreases |s|
  {
    if |s| == 0 then 0 else (if s[0] == c then 1 else 0) + Count(s[1..], c)
  }

  /** `s.split(sep)` for a one-character separator: the pieces between the
      separators, empty pieces included. */
  function Split(s: string, sep: char): (parts: seq<string>)
    ensures |parts| == Count(s, sep) + 1
    ensures forall i :: 0 <= i < |parts| ==> sep !in parts[i]
    ensures forall i, c :: 0 <= i < |parts| && c in parts[i] ==> c in s
    ensures |s| > 0 ==> (s[0] == sep <==> |parts[0]| == 0)
    ensures |s| > 0 && s[0] != sep ==> parts[0][0] == s[0]
    decreases |s|
  {
    if |s| == 0 then [""]
    else if s[0] == sep then
      var rest := Split(s[1..], sep);
      assert forall c :: c in s[1..] ==> c in s;
      [""] + rest
    else
      var rest := Split(s[1..], sep);
      assert forall c :: c in s[1..] ==> c in s;
      var parts := [[s[0]] + rest[0]] + rest[1..];
      assert forall i :: 1 <= i < |parts| ==> parts[i] == rest[i];
      parts
  }

  /** `sep.join(parts)`. */
  function Join(parts: seq<string>, sep: char): string
    requires |parts| >= 1
    decreases |parts|
  {
    if |parts| == 1 then parts[0] else parts[0] + [sep] + Join(parts[1..], sep)
  }

  /** Joining the pieces back with the separator gives the original text. */
  lemma {:induction false} JoinSplit(s: string, sep: char)
    ensures Join(Split(s, sep), sep) == s
    decreases |s|
  {
    if |s| == 0 {
    } else if s[0] == sep {
      JoinSplit(s[1..], sep);
      assert s == [sep] + s[1..];
    } else {
      var rest := Split(s[1..], sep);
      JoinSplit(s[1..], sep);
      if |rest| == 1 {
        assert s == [s[0]] + s[1..];
      } else {
        assert Join(rest, sep) == rest[0] + [sep] + Join(rest[1..], sep);
        assert s == [s[0]] + s[1..];
      }
    }
  }

  /** Splitting a join of separator-free pieces gives the pieces back. */
  lemma {:induction false} SplitJoin(parts: seq<string>, sep: char)
    requires |parts| >= 1
    requires forall i :: 0 <= i < |parts| ==> sep !in parts[i]
    ensures Split(Join(parts, sep), sep) == parts
    decreases |parts|, |parts[0]|
  {
    if |parts[0]| == 0 {
      if |parts| == 1 {
      } else {
        SplitJoin(parts[1..], sep);
        assert Join(parts, sep) == [sep] + Join(parts[1..], sep);
        assert [""] + parts[1..] == parts;
      }
    } else {
      var c := parts[0][0];
      assert c != sep by { assert c in parts[0]; }
      var parts' := [parts[0][1..]] + parts[1..];
      forall i | 0 <= i < |parts'| ensures sep !in parts'[i] {
        if i == 0 {
          assert forall x :: x in parts[0][1..] ==> x in parts[0];
        } else {
          assert parts'[i] == parts[i];
        }
      }
      SplitJoin(parts', sep);
      assert Join(parts, sep) == [c] + Join(parts', sep) by {
        if |parts| == 1 {
          assert parts[0] == [c] + parts[0][1..];
        } else {
          assert parts'[1..] == parts[1..];
          assert parts[0] == [c] + parts[0][1..];
        }
      }
      var j := Join(parts, sep);
      assert j[1..] == Join(parts', sep);
      assert [[c] + parts'[0]] + parts'[1..] == parts by {
        assert [c] + parts[0][1..] == parts[0];
      }
    }
  }

  lemma {:induction false} CountAbsent(s: string, c: char)
    requires c !in s
    ensures Count(s, c) == 0
    decreases |s|
  {
    if |s| > 0 {
      CountAbsent(s[1..], c);
    }
  }

  /** A character that occurs is counted. */
  lemma {:induction false} CountPresent(s: string, c: char)
    requires c in s
    ensures Count(s, c) > 0
    decreases |s|
  {
    if s[0] != c {
      assert c in s[1..];
      CountPresent(s[1..], c);
    }
  }

  /** A text without the separator splits into itself alone. */
  lemma SplitAbsent(s: string, sep: char)
    requires sep !in s
    ensures Split(s, sep) == [s]
  {
    CountAbsent(s, sep);
    JoinSplit(s, sep);
  }

  /** Two separator-free pieces joined by the separator split back into
      them. */
  lemma SplitTwo(a: string, b: string, sep: char)
    requires sep !in a && sep !in b
    ensures Split(a + [sep] + b, sep) == [a, b]
  {
    SplitJoin([a, b], sep);
    assert Join([a, b], sep) == a + [sep] + b;
  }

  /** `s.replace(pattern, "")`: every occurrence of `pattern`, found left to
      right without overlap, is deleted. */
  function ReplaceAll(s: string, pattern: string): (r: string)
    requires |pattern| > 0
    ensures |r| <= |s|
    decreases |s|
  {
    if |s| < |pattern| then s
    else if s[..|pattern|] == pattern then ReplaceAll(s[|pattern|..], pattern)
    else [s[0]] + ReplaceAll(s[1..], pattern)
  }

  /** `s.replace(c, "")` for one character: every `c` is dropped and
      nothing else changes. */
  function Remove(s: string, c: char): (r: string)
    ensures c !in r
    ensures forall d :: d != c ==> (d in r <==> d in s)
    ensures |r| + Count(s, c) == |s|
    decreases |s|
  {
    if |s| == 0 then ""
    else if s[0] == c then Remove(s[1..], c)
    else [s[0]] + Remove(s[1..], c)
  }

  /** Dropping a character that does not occur changes nothing. */
  lemma {:induction false} RemoveAbsent(s: string, c: char)
    requires c !in s
    ensures Remove(s, c) == s
    decreases |s|
  {
    if |s| > 0 {
      assert s[0] != c;
      RemoveAbsent(s[1..], c);
      assert s == [s[0]] + s[1..];
    }
  }

  /** Deleting a one-character pattern is the same as dropping that character. */
  lemma {:induction false} ReplaceAllSingle(s: string, c: char)
    ensures ReplaceAll(s, [c]) == Remove(s, c)
    decreases |s|
  {
    if |s| > 0 {
      ReplaceAllSingle(s[1..], c);
    }
  }

  /** A text in which the pattern's first character never appears is left
      unchanged. */
  lemma {:induction false} ReplaceAllAbsent(s: string, pattern: string)
    requires |pattern| > 0 && pattern[0] !in s
    ensures ReplaceAll(s, pattern) == s
    decreases |s|
  {
    if |s| >= |pattern| {
      assert s[..|pattern|][0] == s[0];
      ReplaceAllAbsent(s[1..], pattern);
      assert s == [s[0]] + s[1..];
    }
  }

  /** When the first character of the text cannot start the pattern, it is
      kept in front of the result. */
  lemma ReplaceAllKeepsHead(s: string, pattern: string)
    requires |pattern| > 0 && |s| > 0 && s[0] != pattern[0]
    ensures |ReplaceAll(s, pattern)| > 0 && ReplaceAll(s, pattern)[0] == s[0]
  {
  }

  /** The characters `str.strip()` and `str.isspace()` treat as white
      space: the C0 separators and controls U+0009 to U+000D and U+001C to
      U+001F, the space, U+0085, and the Unicode space and line separators. */
  predicate IsSpace(c: char) {
    || ('\t' <= c <= '\r')
    || ('\U{001C}' <= c <= ' ')
    || c == '\U{0085}' || c == '\U{00A0}' || c == '\U{1680}'
    || ('\U{2000}' <= c <= '\U{200A}')
    || c == '\U{2028}' || c == '\U{2029}' || c == '\U{202F}' || c == '\U{205F}' || c == '\U{3000}'
  }

  /** `r` is the stretch of `s` starting at `i`, and only white space
      surrounds it. */
  predicate TrimAt(r: string, s: string, i: int) {
    && 0 <= i && i + |r| <= |s| && r == s[i..i + |r|]
    && (forall k :: 0 <= k < i ==> IsSpace(s[k]))
    && (forall k :: i + |r| <= k < |s| ==> IsSpace(s[k]))
  }

  /** `r` is a stretch of `s` that only white space surrounds. */
  ghost predicate TrimOf(r: string, s: string) {
    exists i :: TrimAt(r, s, i)
  }

  /** `s.strip()`: leading and trailing white space removed. */
  function Strip(s: string): (r: string)
    ensures |r| == 0 || (!IsSpace(r[0]) && !IsSpace(r[|r| - 1]))
    ensures (|s| == 0 || (!IsSpace(s[0]) && !IsSpace(s[|s| - 1]))) ==> r == s
    ensures forall c :: c in r ==> c in s
    ensures TrimOf(r, s)
  {
    var t := StripLeft(s);
    var u := StripRight(t);
    StripAt(s, t, u);
    u
  }

  lemma StripAt(s: string, t: string, u: string)
    requires |t| <= |s| && t == s[|s| - |t|..] && (forall k :: 0 <= k < |s| - |t| ==> IsSpace(s[k]))
    requires |u| <= |t| && u == t[..|u|] && (forall k :: |u| <= k < |t| ==> IsSpace(t[k]))
    ensures TrimAt(u, s, |s| - |t|)
  {
    var a := |s| - |t|;
    assert u == s[a..a + |u|];
    forall k | a + |u| <= k < |s| ensures IsSpace(s[k]) {
      assert s[k] == t[k - a];
    }
  }

  /** Only one stretch of `s` is surrounded by white space and neither
      starts nor ends with it: `Strip(s)`. */
  lemma StripUnique(s: string, r: string)
    requires TrimOf(r, s) && (|r| == 0 || (!IsSpace(r[0]) && !IsSpace(r[|r| - 1])))
    ensures r == Strip(s)
  {
    var u := Strip(s);
    var i :| TrimAt(r, s, i);
    var j :| TrimAt(u, s, j);
    TrimmedAlike(s, r, i, u, j);
  }

  /** Two stretches of `s` surrounded by white space, neither starting nor
      ending with it, are the same. */
  lemma TrimmedAlike(s: string, r: string, i: int, u: string, j: int)
    requires TrimAt(r, s, i) && (|r| == 0 || (!IsSpace(r[0]) && !IsSpace(r[|r| - 1])))
    requires TrimAt(u, s, j) && (|u| == 0 || (!IsSpace(u[0]) && !IsSpace(u[|u| - 1])))
    ensures r == u
  {
    if |r| > 0 && |u| > 0 {
      assert s[i] == r[0] && s[j] == u[0];
      assert i == j;
      assert s[i + |r| - 1] == r[|r| - 1] && s[j + |u| - 1] == u[|u| - 1];
      assert |r| == |u|;
    }
  }

  function StripLeft(s: string): (r: string)
    ensures |r| == 0 || !IsSpace(r[0])
    ensures (|s| == 0 || !IsSpace(s[0])) ==> r == s
    ensures forall c :: c in r ==> c in s
    ensures |r| <= |s| && r == s[|s| - |r|..]
    ensures forall k :: 0 <= k < |s| - |r| ==> IsSpace(s[k])
    decreases |s|
  {
    if |s| > 0 && IsSpace(s[0]) then
      var r := StripLeft(s[1..]);
      assert s[1..][|s| - 1 - |r|..] == s[|s| - |r|..];
      r
    else s
  }

  function StripRight(s: string): (r: string)
    ensures |r| == 0 || !IsSpace(r[|r| - 1])
    ensures (|s| == 0 || !IsSpace(s[|s| - 1])) ==> r == s
    ensures |s| > 0 && !IsSpace(s[0]) ==> |r| > 0 && r[0] == s[0]
    ensures forall c :: c in r ==> c in s
    ensures |r| <= |s| && r == s[..|r|]
    ensures forall k :: |r| <= k < |s| ==> IsSpace(s[k])
    decreases |s|
  {
    if |s| > 0 && IsSpace(s[|s| - 1]) then
      var r := StripRight(s[..|s| - 1]);
      assert s[..|s| - 1][..|r|] == s[..|r|];
      r
    else s
  }
}
